=== FILE: README.md ===
# ORAEX PSU Manager: a Dafny model of the spreadsheet ingestion pipeline

ORAEX PSU Manager tracks Oracle patch (PSU) campaigns. It reads a consolidation
workbook into a local SQLite database. The workbook holds the Oracle server
inventory, the legacy CMDB, one ticket sheet per month ("GMUD" change tickets),
the patching plan and the PagoNxt inventory. The manager also reads a second
workbook, the full CMDB, and vulnerability-scan workbooks from Qualys. It can
write a new change ticket back into the right monthly sheet. Its web front
serves paged listings, a server detail page and dashboard counts, plus a few
small pure helpers in the browser: status badges, the page selector and the
export link.

This project models that core in Dafny and proves properties of the model:

| module | file | what it holds |
|---|---|---|
| `Wrappers` | wrappers.dfy | `Option` and `Result`; a `Result` error carries the text of the exception Python would raise |
| `Text` | text.dfy | Python `strip`, JavaScript `trim`, lower-casing (Python/JS and SQLite's ASCII-only `lower`), substring tests, decimal rendering and parsing |
| `Cells` | cells.dfy | cell values as the spreadsheet reader yields them; Python truthiness, `str()` and `int()`; `safe_str` and `safe_datetime` |
| `Vocabulary` | vocabulary.dfy | the three normalisers: ticket status, CMDB lifecycle status, database product |
| `Workbook` | workbook.dfy | workbooks as named sheets of rows; sheet lookup; data rows; 1-based cell access |
| `MonthSheets` | month_sheets.dfy | the month-sheet table and its reverse lookup by date |
| `Records` | records.dfy | one datatype per database table, and the database state |
| `Extract` | extract.dfy | for every sheet, the mapping from one row to one record: which rows are skipped, which raise, which column feeds which field |
| `Load` | load.dfy | the main import run and the full-CMDB run, with their commit points and the import log |
| `Qualys` | qualys.dfy | the scan importer: the global QID catalogue (first writer wins) and the append-only detection log |
| `Export` | export.dfy | writing a ticket into the workbook: backup guard, sheet choice, next free row, the thirteen cells |
| `Queries` | queries.dfy | paging arithmetic, the full-CMDB listing with its left join, server details, ticket edit and delete, dashboard counts |
| `Presentation` | presentation.dfy | the ticket-title builder, the import endpoints' answers, the badge classifiers, the page selector, the export link |
| `Headers` | headers.dfy | the header survey of the scan workbooks |

Everything is a pure function over immutable values, except the free-row
search, which is a method with a loop. Reading files, the clock, the locale and
the backup copy are outside the model. Their outcomes arrive as parameters:
whether the file exists, the loaded workbook or the text of the exception that
loading raised, the parsed dates, and the locale's day name.

Where a run can stop on an exception, the model returns the state the code
commits. Three runs are modelled this way:

- **The main import.** Each importer commits when it finishes. When an importer
  raises, the handler logs the error and commits, and that commit also saves the
  rows the failing importer had already written. The model follows this code
  (`Load.RunImport`, `Load.ServersFailureKeepsPartialRows`). The failing
  importer's rows are therefore kept, not rolled back.
- **The full-CMDB run.** It empties its table and commits first. After that,
  each sheet commits only its own rows.
- **The scan import.** It commits once, at the end, so a failure leaves the
  database as it was.

Behaviour worth noting, following the code:

- The status badge's "replanejar" class also matches the keyword "replanejada".
- The PSU badge gives "latest" to three versions, 19.30, 19.29 and 19.28.
- A ticket row can be in either of two layouts. A row is in the extended layout
  when it has more than 13 cells and one of columns 13 to 17 is non-blank.
- A ticket field that a cell cannot hold makes the export fail before the
  save, with the write error. Such a field is a list, an object, or a string
  with a control character. A string longer than 32,767 characters is cut.
- A ticket field that starts with "=" is saved as a formula. The next import
  loads cached values only, so it reads that field as empty.
- The export loads the workbook with its formulas and saves it without their
  cached values. Until Excel recalculates and saves the file, the next import
  reads every formula cell of the workbook as empty.
- `safe_str` of a datetime with microseconds keeps the ".ffffff" fraction.
  `safe_datetime` drops it.
- A Qualys QID, or an integer detection age, outside SQLite's 64-bit range
  makes the insert raise. The import then fails and commits nothing.

## Model

| member | source | states |
|---|---|---|
| Text.TrimByIsMiddleSlice | import_excel.py:14-18 | stripping keeps one contiguous slice of the input and removes only whitespace from either end |
| Text.StripIdempotent | import_excel.py:14-18 | stripping twice gives the same text as stripping once |
| Text.StripIsStripped | import_excel.py:14-18 | the result of stripping has no whitespace to strip, so every `safe_str` value is final |
| Text.StripFixesStripped | import_excel.py:14-18 | text with no surrounding whitespace is left exactly as it is |
| Text.BlankIffStripEmpty | import_excel.py:32 | "blank" in the normalisers' sense (empty or whitespace only) holds exactly when stripping leaves nothing |
| Text.TrimLeftEmptyIffBlank | import_excel.py:32 | the left trim removes everything exactly when the text is blank |
| Text.LowerKeepsSpace | import_excel.py:634 | lower-casing neither creates nor removes whitespace, so lower-then-strip and strip-then-lower look at the same characters |
| Text.AsciiLower | database.py:624 | SQLite's `lower()` keeps the length and folds only the ASCII capitals of every character |
| Text.ContainsAt | static/js/app.js:105-110 | a substring found at any position makes the substring test succeed |
| Text.ContainsWitness | static/js/app.js:105-110 | a successful substring test yields the position where the substring occurs |
| Text.DigitsValueOfDecimal | import_qualys.py:60 | reading a non-negative number's decimal digits back gives the number |
| Text.IntDecimalRoundTrip | import_qualys.py:60 | `int()` undoes `str()` for every integer, negative ones included |
| Text.DecimalLength | import_excel.py:26 | a number below 10^width has at most `width` decimal digits |
| Text.Padded | import_excel.py:26 | zero-padding gives only digits, at least `width` of them, and exactly `width` when the number fits |
| Cells.FormatDateTimeShape | import_excel.py:21-27 | a valid datetime renders as a 19-character `YYYY-MM-DD HH:MM:SS` timestamp |
| Cells.Fraction | import_excel.py:14-18 | `str()` of a datetime or time adds nothing for zero microseconds, and otherwise "." followed by six digits |
| Cells.SafeStr | import_excel.py:14-18 | `None` gives ""; any other value gives its stripped text, which has no surrounding whitespace |
| Cells.SafeDatetime | import_excel.py:21-27 | `None` gives ""; a valid datetime gives a timestamp; any other value gives its `safe_str` |
| Cells.SafeDatetimeAgreesWithSafeStr | import_excel.py:14-27 | the two normalisers agree on every cell except a datetime with microseconds, for which `safe_str` keeps the ".ffffff" fraction that `safe_datetime` drops |
| Cells.PyIntOfRenderedInt | import_qualys.py:60 | an integer written into a text cell converts back to that integer |
| Cells.PyInt | import_qualys.py:60 | an int cell converts to itself; an empty, date or time cell makes the conversion raise |
| Vocabulary.NormalizeGmudStatus | import_excel.py:30-51 | blank gives "NOVO"; otherwise a table hit on the stripped text, then the "freezin" prefix rule, then the stripped text itself |
| Vocabulary.GmudPassThroughFixed | import_excel.py:47-51 | stripped text that misses the table and the prefix rule maps to itself |
| Vocabulary.GmudCanonicalAreFixed | import_excel.py:35-50 | every label the table, the default or the prefix rule produces maps to itself |
| Vocabulary.GmudLabelsFixed1 | import_excel.py:33-48 | "NOVO" and "ENCERRADA" map to themselves |
| Vocabulary.GmudLabelsFixed2 | import_excel.py:36-48 | "REPLANEJAR" and "CANCELADA" map to themselves |
| Vocabulary.GmudLabelsFixed3 | import_excel.py:40-48 | "PROGRAMADA" and "AVALIAR" map to themselves |
| Vocabulary.GmudLabelsFixed4 | import_excel.py:43-48 | "AUTORIZAR" maps to itself |
| Vocabulary.GmudFreezingFixed | import_excel.py:49-50 | "FREEZING" maps to itself through the prefix rule |
| Vocabulary.GmudStatusNeverEmpty | import_excel.py:30-51 | no status text, blank or not, gives an empty ticket status |
| Vocabulary.GmudStatusIdempotent | import_excel.py:30-51 | normalising a ticket status twice gives the same status as normalising it once |
| Vocabulary.NormalizeCmdbStatus | import_excel.py:54-66 | the result is "" exactly for blank input; every other result is one of the two canonical labels or the stripped input |
| Vocabulary.CmdbStatusRules | import_excel.py:59-66 | each rule, compared case-insensitively: the "descontinuado" prefix, the exact "sendo descontinuado" and the "stopped" prefix; the rules are mutually exclusive, so their order changes no result |
| Vocabulary.CmdbDiscontinuedFixed | import_excel.py:60-61 | "Descontinuado" maps to itself |
| Vocabulary.CmdbBeingDiscontinuedRule | import_excel.py:62-63 | every spelling of "sendo descontinuado", in any letter case, gets the canonical casing |
| Vocabulary.CmdbBeingDiscontinuedFixed | import_excel.py:62-63 | "Sendo Descontinuado" maps to itself |
| Vocabulary.CmdbStatusIdempotent | import_excel.py:54-66 | normalising a lifecycle status twice gives the same status as normalising it once |
| Vocabulary.DbTableValues | import_excel.py:636-655 | every spelling in the table maps to a non-empty canonical product; "" is neither in the table nor an excluded answer |
| Vocabulary.NormalizeDbType | import_excel.py:632-656 | an excluded yes/no answer gives ""; a table spelling gives its product; anything else comes back exactly as given; the result is empty only for those answers or empty input |
| Vocabulary.DbLabelFixed | import_excel.py:634-656 | a canonical product whose lower-cased form is not an excluded answer maps to itself |
| Vocabulary.DbLabelsFixed1 | import_excel.py:639-646 | "Oracle" and "MongoDB" map to themselves |
| Vocabulary.DbLabelsFixed2 | import_excel.py:647-649 | "SQL Server" and "MySQL" map to themselves |
| Vocabulary.DbLabelsFixed3 | import_excel.py:650-652 | "MariaDB" and "PostgreSQL" map to themselves |
| Vocabulary.DbLabelsFixed4 | import_excel.py:653-654 | "Sybase" and "SQLite" map to themselves |
| Vocabulary.DbCanonicalAreFixed | import_excel.py:638-656 | every canonical product label maps to itself |
| Vocabulary.DbTypeIdempotent | import_excel.py:632-656 | normalising a product name twice gives the same name as normalising it once |
| Workbook.GetSheet | import_excel.py:76-80 | a sheet is found exactly when its title is among the sheet names, and the sheet found has that title |
| Workbook.DataRows | import_excel.py:86 | the importers see every row after the first, in order |
| Workbook.CellAt | export_excel.py:104 | 1-based cell access; a cell outside the stored rows reads as `None` |
| MonthSheets.MonthSheetsShape | config.py:23-37 | thirteen entries, one per consecutive month from February 2025 to February 2026, with no month and no title repeated |
| MonthSheets.MonthSheetsConsecutive | config.py:23-37 | entry `i` is the `i`-th month after February 2025 |
| MonthSheets.MonthSheetsInjective | config.py:23-37 | no two entries share a month or a title |
| MonthSheets.SheetForMonth | export_excel.py:51-55 | the search finds nothing exactly when no entry has the month; otherwise it finds an entry with that month |
| MonthSheets.MonthForSheet | config.py:23-37 | the search finds nothing exactly when no entry has the title; otherwise it finds the entry with that title |
| MonthSheets.LookupsFindEntry | export_excel.py:42-55 | in a table without repeats, every entry is found both by its month and by its title |
| MonthSheets.SheetNameForDateRoundTrip | export_excel.py:42-55 | the exporter finds a sheet for a date exactly when the table covers that month, and the sheet it finds maps back to the same month |
| MonthSheets.SheetTitleRoundTrip | config.py:23-37 | each title maps to its month, and that month maps back to the title |
| Extract.ExtractRows | import_excel.py:86-133 | the loop yields the records of the kept rows that come before the first row that raises, in row order, each from a kept row; it stops with an error exactly when some row raises, and the error is the first raising row's |
| Extract.SkipExtracts | import_excel.py:86-90 | a skipped first row adds nothing: the loop over the rest gives the whole loop's result |
| Extract.KeepExtracts | import_excel.py:86-133 | a kept first row puts its record in front of what the loop over the rest yields |
| Extract.ExtractAllKept | import_excel.py:86-133 | when no row raises, the loop yields every kept row's record, in order, and no error |
| Extract.ExtractedSatisfy | import_excel.py:86-133 | any property every kept record has also holds for every record the loop yields |
| Extract.StrAt | import_excel.py:238-248 | a guarded column is the `safe_str` of that cell, or "" when the row is shorter |
| Extract.DatetimeAt | import_excel.py:242-243 | a guarded date column is the `safe_datetime` of that cell, or "" when the row is shorter |
| Extract.ServerStep | import_excel.py:86-131 | a row is skipped exactly when its first five cells are all falsy; it raises exactly when it is kept and shorter than 14 cells; the hosts are the stripped columns B and C; the standby flag is set exactly for a real standby host; the GGS flag is set exactly when "(G)" is in either host; total servers is 1 plus the standby flag; a PSU version of "descontinuado" is cleared and any other is kept; the fourteen stored columns are the stripped cells A to N |
| Extract.LegacyCmdbStep | import_excel.py:140-190 | a row is skipped exactly when its first five cells are all falsy, and raises exactly when it is kept and shorter than 24 cells; the 24 stored columns are the stripped cells A to X, in order |
| Extract.TicketStep | import_excel.py:210-288 | a row is skipped exactly when its first ten cells are all falsy, and raises exactly when it is kept and shorter than 10 cells; the ticket carries the sheet's year and month, the normalised status, the start date as a timestamp, and client, product, day, change number and title from their columns; in the extended layout vulnerability and opened-by are blank and columns 11-17 fill the extended fields; in the classic layout it is the reverse |
| Extract.TicketStatusNeverBlank | import_excel.py:270 | a stored ticket's status is never blank; a blank status cell reads as "NOVO" |
| Extract.BlankExtendedColumnsMeanClassic | import_excel.py:229-232 | a row whose columns from 13 onwards are all blank is read in the classic layout |
| Extract.PlanningStep | import_excel.py:298-340 | a row is skipped exactly when its first five cells are all falsy, and raises exactly when it is kept and shorter than 10 cells; the 16 stored columns are the stripped cells A to P, "" past the row's end |
| Extract.PagoNxtStep | import_excel.py:346-386 | a row is skipped exactly when its first five cells are all falsy, and raises exactly when it is kept and shorter than 10 cells; the 15 stored columns are the stripped cells A to O, "" past the row's end |
| Extract.FullCmdbDbType | import_excel.py:499-506 | a row is dropped exactly when its product cell is falsy, "None", "N/A" or an excluded answer; a kept row's product is the normalised, non-empty name |
| Extract.GetNetFullRecord | import_excel.py:508-552 | a GetNet row is tagged "GetNet" and takes status from column 18 and environment from column 20; it has no zone and no country |
| Extract.LatamFullRecord | import_excel.py:580-626 | a LATAM row is tagged "PagoNxt" and takes zone and country from columns 18 and 19, status from column 20 and environment from column 22 |
| Extract.FullCmdbStep | import_excel.py:498-552 | a row of at most 11 cells raises; a non-database row is skipped; a kept row needs 28 cells and becomes the record for its client |
| Extract.FullCmdbKeptInvariant | import_excel.py:499-506 | every kept full-CMDB record names a product and the client of its sheet |
| Load.RefreshTable | import_excel.py:75-137 | a missing sheet leaves the table alone and counts 0; otherwise the table is emptied and holds exactly the records extracted up to the first row that raises, and a finished loop counts them |
| Load.Finish | import_excel.py:132-137 | an importer finishes exactly when its loop raised nothing, and then reports the loop's count |
| Load.ImportServers | import_excel.py:69-137 | only the server table changes; a missing sheet counts 0; a finished import counts the stored rows |
| Load.ImportCmdb | import_excel.py:140-193 | only the legacy CMDB table changes; a missing sheet counts 0; a finished import counts the stored rows |
| Load.ImportPlanning | import_excel.py:298-343 | only the planning table changes; a missing sheet counts 0; a finished import counts the stored rows |
| Load.ImportPagoNxt | import_excel.py:346-389 | only the PagoNxt table changes; a missing sheet counts 0; a finished import counts the stored rows |
| Load.ImportedServersConsistent | import_excel.py:96-100 | every stored server has 0/1 flags and counts itself plus its standby |
| Load.AppendTickets | import_excel.py:257-288 | inserting keeps the old tickets; each new ticket takes the next key of the counter, and the counter advances by the number inserted |
| Load.MonthTickets | import_excel.py:202-288 | every ticket a month sheet yields carries that sheet's year and month |
| Load.TaggedFromTail | import_excel.py:202 | a tag from a later entry of the table is a tag from the table |
| Load.FreshKeysOrdered | import_excel.py:257-288 | consecutive keys are strictly increasing and below the counter |
| Load.ImportTicketSheets | import_excel.py:202-291 | the month loop only appends: old tickets stay, new ones get consecutive fresh keys, and the count is the number appended |
| Load.TicketSheetsTagged | import_excel.py:202-205 | every appended ticket carries the month of a listed sheet that the workbook has |
| Load.TicketSheetsAppendListed | import_excel.py:202-291 | the month loop appends exactly the tickets its sheets yield, in table order, and stops exactly when a sheet raises, with that error |
| Load.ReloadTickets | import_excel.py:196-295 | after a reload the stored tickets are exactly those the listed month sheets yield, in table order, under strictly increasing fresh keys; it finishes exactly when no sheet raises, and otherwise carries the first error |
| Load.ImportGmuds | import_excel.py:196-295 | the ticket table is emptied even when no month sheet exists; the stored tickets are exactly those the listed month sheets yield, in order, under fresh increasing keys; the import finishes exactly when no sheet raises, with the first error otherwise |
| Load.ImportedNames | import_excel.py:416-440 | the listed sources are a subsequence of the five labels |
| Load.ImportedNamesMembers | import_excel.py:416-440 | a label is listed exactly when some source with that label counted rows |
| Load.ImportedNamesStep | import_excel.py:416-440 | a source is listed exactly when its count is positive, independently of the others, and the total is the sum of the counts |
| Load.ImportedNamesOfFive | import_excel.py:416-451 | over five sources the listing is each label whose count is positive, in source order, and the total is the sum of the five counts |
| Load.ImportAll | import_excel.py:413-440 | the five importers touch neither the full CMDB, the scan tables nor the log, and keep the ticket keys increasing and the counter non-decreasing |
| Load.RunImport | import_excel.py:392-473 | a missing file changes nothing; otherwise exactly one log entry is appended and the full-CMDB and scan tables stay; a completed run logs "success"; a run that raised logs an "error" entry with the exception text; ticket keys stay increasing |
| Load.RunCountsAreTableSizes | import_excel.py:413-440 | with all four single-sheet sources present, each count of a finished run is the size of its table |
| Load.SuccessLogMatchesTables | import_excel.py:442-453 | with all four single-sheet sources present, the success entry lists exactly the non-empty tables, with their total row count |
| Load.NoListedSheetsNoTickets | import_excel.py:202-205 | with none of the listed sheets present, the month loop changes nothing |
| Load.NoListedSheetsEmptyTable | import_excel.py:196-205 | a reload with none of the listed sheets leaves the ticket table empty |
| Load.NoMonthSheetsEmptiesGmuds | import_excel.py:196-205 | the ticket import on a workbook without month sheets empties the table and counts 0 |
| Load.ImportAllWithoutSources | import_excel.py:413-440 | with no source sheets every importer finishes and counts 0, and only the ticket table is emptied |
| Load.RunImportOfRan | import_excel.py:413-453 | when all five importers finish, the run completes with their database and the success entry of their counts appended to the log |
| Load.RunWithZeroCounts | import_excel.py:442-453 | a run whose importers all counted 0 completes with an emptied ticket table and the entry "Imported 0 total records from 0 data sources" |
| Load.NothingImportedEntry | import_excel.py:443-452 | when every count is 0 the success entry lists no sources and reports 0 records |
| Load.ZeroRecordsMessage | import_excel.py:448-451 | the log message of an empty run, and an empty source list |
| Load.WorkbookWithoutSources | import_excel.py:392-453 | a workbook without any known sheet still empties the ticket table and logs a success with no sources |
| Load.RefreshDeterministic | import_excel.py:75-137 | how a single-sheet importer ends, and what it stores, depend only on the workbook |
| Load.SingleSheetImportersDeterministic | import_excel.py:69-389 | the four single-sheet importers end the same way on any database |
| Load.TicketSheetsDeterministic | import_excel.py:202-291 | the month loop ends the same way and appends the same tickets, up to keys, on any database |
| Load.TicketSheetStepDeterministic | import_excel.py:202-291 | one pass of the month loop, as the step of that induction |
| Load.TicketSheetUnfold | import_excel.py:202-291 | a present first sheet contributes its tickets first, then the rest of the table appends its own |
| Load.AppendedPayloads | import_excel.py:257-288 | the tickets inserted carry exactly the given payloads, in order |
| Load.LaterPayloads | import_excel.py:257-288 | what is appended over two steps is the first step's tickets followed by the second's |
| Load.PayloadsConcat | import_excel.py:257-288 | the payloads of two ticket runs joined are the two runs' payloads joined |
| Load.Payloads | import_excel.py:257-288 | the payload list is aligned with the ticket list |
| Load.ImportGmudsDeterministic | import_excel.py:196-295 | the ticket import ends the same way and stores the same tickets, up to keys, on any database |
| Load.ImportAllRerun | import_excel.py:413-440 | over any database holding a first run's tables, the five importers reload the same content with the same counts, and every new key is fresh |
| Load.RerunReloadsSameContent | import_excel.py:392-453 | running the main import again on the same workbook is a full refresh: same table contents, tickets under new, never reused keys, and an identical log entry appended |
| Load.ServersFailureKeepsPartialRows | import_excel.py:82-131 | a server row that raises stops the run, yet the committed server table holds the rows kept before it, and no other data table changes |
| Load.CmdbFailureKeepsPartialRows | import_excel.py:140-193 | a legacy CMDB row that raises after a finished server import commits the servers, the CMDB rows kept before it, and the error entry |
| Load.TicketsFailureKeepsPartialRows | import_excel.py:196-295 | a ticket sheet that raises commits the tickets the earlier sheets and rows yielded, with the error entry, and no later table changes |
| Load.PlanningFailureKeepsPartialRows | import_excel.py:298-343 | a planning row that raises commits the earlier importers' tables, the planning rows kept before it, and the error entry |
| Load.PagoNxtFailureKeepsPartialRows | import_excel.py:346-389 | a PagoNxt row that raises commits the earlier importers' tables, the PagoNxt rows kept before it, and the error entry |
| Load.FullSheetRecords | import_excel.py:485-629 | a missing sheet yields nothing; every record yielded names a product and its sheet's client |
| Load.RunCmdbFullImport | import_excel.py:659-699 | a missing file changes nothing; otherwise only the full CMDB changes, every row is a database server of one of the two clients, and GetNet rows come first; after a failure only GetNet rows remain |
| Load.CommitFullSheets | import_excel.py:677-696 | the table starts empty and only it changes; every row is a database server of its sheet's client, GetNet rows first; a failure keeps only GetNet rows |
| Load.GetNetThenPagoNxt | import_excel.py:683-684 | GetNet rows followed by PagoNxt rows are all client-tagged database servers with GetNet first |
| Load.CmdbFullRerun | import_excel.py:677-688 | a second run over the first run's result gives the same result, because the table is emptied first |
| Load.LatamFailureKeepsGetNet | import_excel.py:677-696 | when the LATAM sheet raises, the table holds exactly the committed GetNet rows and the error is the row's |
| Qualys.Columns | import_qualys.py:124-197 | each layout reads fourteen fields from fourteen strictly increasing columns |
| Qualys.ScanDataOf | import_qualys.py:133-149 | the asset name and QID come from their layout's columns, the source is tagged, and a falsy detection age becomes 0 |
| Qualys.ScanStep | import_qualys.py:129-149 | an empty row is skipped; a row too short for the asset column raises; a falsy or sentinel asset name is skipped; a kept row needs every column and carries a truthy asset name |
| Qualys.ValidQid | import_qualys.py:59-64 | a QID counts exactly when its cell is truthy and converts to a non-zero integer; a failed conversion is swallowed |
| Qualys.BindError | import_qualys.py:59-110 | a kept row raises exactly when its valid QID lies outside 64 bits (overflow) or, with a truthy asset name, its detection age is an integer outside 64 bits or a time of day; the QID is bound first |
| Qualys.UpsertVulnerability | import_qualys.py:57-79 | an invalid QID changes nothing; a valid QID outside SQLite's 64-bit integers raises the overflow error at the lookup; otherwise known QIDs keep their definitions and a new QID adds exactly one definition |
| Qualys.DetectionOf | import_qualys.py:90-110 | the detection has the row's QID, the asset name's text and the detection age; its status is "Active" and it carries the row's source tag |
| Qualys.InsertDetection | import_qualys.py:81-111 | a row without a valid QID or asset name adds nothing and returns 0; a detected row raises when its QID or its detection age cannot be bound to SQLite (the QID first); otherwise the log grows by that one detection and the helper returns 1 |
| Qualys.ScanRowUpdate | import_qualys.py:151-156 | one kept row raises exactly when binding its values fails, with that message; otherwise it adds the row's QID to the catalogue, keeps every detection's QID catalogued (the upsert runs first), keeps known definitions and appends the row's detection |
| Qualys.RowStep | import_qualys.py:129-156 | a row's outcome in the loop: the row step's raise or skip, and for a kept row the SQLite binding error when there is one |
| Qualys.QidOverflowRaises | import_qualys.py:67 | a kept row whose QID is 2^63 or more raises the overflow error |
| Qualys.AgeOverflowRaises | import_qualys.py:106 | a kept row with a valid 64-bit QID and an integer detection age of 2^63 or more raises the overflow error |
| Qualys.FirstRaiseLater | import_qualys.py:129-157 | the first raising row of the rest of a sheet is the first raising row of the sheet when the head row does not raise |
| Qualys.ScanRows | import_qualys.py:129-157 | the loop raises exactly when some row raises, with the message of the first raising row; otherwise it appends the rows' detections and counts them and the kept rows |
| Qualys.ScanRowsCatalogue | import_qualys.py:151-156 | a pass in which no row raises adds exactly the valid QIDs of its kept rows to the catalogue, and keeps every detection's QID catalogued |
| Qualys.ScanRowsKeys | import_qualys.py:151-156 | a pass adds exactly the valid QIDs of its kept rows to the catalogue and never changes a known definition |
| Qualys.ScanRowsCovered | import_qualys.py:151-156 | a pass keeps every detection's QID catalogued, because each row's upsert runs before its insert |
| Qualys.SheetPass | import_qualys.py:113-205 | a pass raises exactly when some row raises, with the first raising row's message; otherwise the catalogue gains exactly the rows' QIDs and keeps old definitions, detections are appended and counted, and the second count is the kept-row count for PagoNxt and the catalogue size for GetNet |
| Qualys.ImportScanSheet | import_qualys.py:113-120 | a missing scan sheet changes nothing and counts (0, 0); a present one is one pass over its data rows |
| Qualys.ImportQualysScan | import_qualys.py:8-55 | a missing file is reported; a failed import leaves the database exactly as it was; only the catalogue and detections change; known definitions are never overwritten; detections are only appended, and the count is the number appended |
| Qualys.ImportRaisesOnRaisingRow | import_qualys.py:8-55 | an import of an existing file fails exactly when some row of the scan sheet raises, including a SQLite binding error; it then leaves the database unchanged and reports the first raising row's message |
| Qualys.AddedDetectionsShape | import_qualys.py:96-110 | every appended detection is "Active", carries its layout's source tag and a non-zero QID |
| Qualys.AddedQidsCatalogued | import_qualys.py:151-156 | every QID that a pass's detections use is among the QIDs the pass catalogues |
| Qualys.ImportedDetectionsShape | import_qualys.py:29-38 | every detection a successful import appends is "Active", carries the source tag of the selected layout, and its QID is in the catalogue |
| Qualys.KnownQidsLeaveCatalogue | import_qualys.py:66-68 | a pass in which no row raises and whose QIDs are all known leaves the catalogue as it is |
| Qualys.SheetPassTwice | import_qualys.py:113-205 | a second pass over the same rows keeps the catalogue and appends the same detections again |
| Qualys.ReimportAppendsSameDetections | import_qualys.py:8-55 | importing the same scan twice succeeds both times; the catalogue does not change the second time, and the same detections are appended again, so they are duplicated |
| Export.BackupWorkbook | export_excel.py:23-40 | a missing workbook is refused with the fixed message; otherwise the result is the copy's own outcome |
| Export.NextEmptyRow | export_excel.py:100-105 | the row chosen is at least 2 and free; every row between 2 and it is taken; it is at most one past the last stored row |
| Export.Bind | export_excel.py:122-139 | storing one value: a list or object raises "Cannot convert … to Excel"; a string is cut to 32,767 characters and raises "… cannot be used in worksheets." exactly when the cut text holds a control character; every other scalar is stored as it is |
| Export.BindAll | export_excel.py:122-139 | the thirteen values are stored exactly when each one can be, cell by cell in column order; otherwise the first value that cannot be stored gives the error |
| Export.BoundValueReadsBack | export_excel.py:122-139 | a stored value as the next data-only load reads it: a non-string scalar unchanged, a string cut and stripped, a formula string as nothing, a short non-formula string exactly as given |
| Export.PlainValueRoundTrip | export_excel.py:122-139 | a scalar with no control character, within the length limit and not a formula is stored as itself and reads back as itself |
| Export.FormulaTitleReadsEmpty | export_excel.py:136 | a title "=A1" is stored as a formula and reads back as an empty title |
| Export.BoundFormCells | export_excel.py:122-139 | a stored ticket has thirteen cells, the start timestamp in column 6, each the stored form of the value its column takes |
| Export.PlainValuesBind | export_excel.py:122-139 | values that are all plain are stored as their own cells, which read back unchanged |
| Export.Overlay | export_excel.py:122-139 | writing bound cells sets every non-null cell, keeps the old value under a null cell, and keeps every later column of the row |
| Export.PadRows | export_excel.py:122-139 | growing a sheet keeps its rows and adds empty ones |
| Export.WriteRow | export_excel.py:122-139 | the sheet keeps its title after a row write |
| Export.WriteRowCells | export_excel.py:122-139 | a row write of bound cells changes exactly the non-null cells of that row; a null cell and every other cell of the sheet keep their old value |
| Export.WrittenRowAt | export_excel.py:122-139 | the written row is the old row, or an empty one past the end, overlaid with the bound cells |
| Export.NullAssigneeKeepsOldCell | export_excel.py:135 | a form without an assignee leaves the old value of column 10 in place |
| Export.OverlayOnBlanks | export_excel.py:122-139 | over a row that is blank wherever a written cell is null, the written row starts with exactly the written cells |
| Export.PutSheet | export_excel.py:98-142 | putting the sheet back keeps the workbook's tab order and titles |
| Export.PutSheetLookups | export_excel.py:98-142 | after the put, the title finds the new sheet and every other title finds its old sheet |
| Export.WriteGmud | export_excel.py:57-150 | a failed backup, workbook load, start-date parse, end-date parse, or date use each gives its own message and writes nothing, checked in the order of export_excel.py:76-96; a month with no sheet lists the available sheets; a value that cannot be stored gives the write error and saves nothing; otherwise the stored ticket lands in the first free row of its month's sheet and the message names the row |
| Export.GmudRowReads | import_excel.py:229-287 | the importer keeps a row that starts with written cells as they read back, and reads each column from its cell: client through observation, the status normalised, the start date's month |
| Export.GmudRowReadsClassic | import_excel.py:245-255 | with columns 14 onwards blank the written row is classic, so vulnerability and opened-by come back from their cells |
| Export.WrittenRowReadsBack | export_excel.py:107-139 | the written row is a data row; past the sheet's end every null cell lands on a blank; over such blanks the next import reads the row back as the stored cells in the start date's month |
| Export.WrittenRowReadsBackClassic | import_excel.py:245-255 | on a row blank past column 13, vulnerability and opened-by read back too |
| Export.ReloadedOnBlanks | export_excel.py:122-139 | over a row blank wherever a written cell is null, the reloaded row starts with each written cell as it reads back |
| Export.UnwrittenFormulaReadsEmpty | export_excel.py:77 | the save drops every formula's cached value, so a formula in a column the write leaves alone also reads back as empty |
| Export.BlankRereadsBlank | export_excel.py:77 | a cell that reads as blank is no formula, so a reload leaves it as it was |
| Export.ReloadedTailBlank | export_excel.py:77 | blank columns past the written cells are still blank after the save and reload |
| Export.PlainFormReadsBack | export_excel.py:122-139 | a form whose values are all plain is stored unchanged, and the next import reads the row back as the submitted form |
| Queries.FloorDiv | database.py:445 | Python's floor division: the quotient times the divisor lies within one divisor of the dividend, for either sign |
| Queries.Pages | database.py:445 | the page count raises exactly when the page size is 0 |
| Queries.PagesIsCeiling | database.py:445 | for a positive page size the page count is the smallest count whose pages cover every row, and 0 only for no rows |
| Queries.PageOf | database.py:439 | LIMIT/OFFSET gives at most `limit` rows, each the row `offset` positions further on; a negative offset counts as 0 and a negative limit means no limit; a window inside the table is full, and one running past the end holds the rest |
| Queries.MulMonotone | database.py:439 | multiplying by a positive page size keeps the order of page numbers |
| Queries.RowOnItsPage | database.py:439-445 | with a positive page size every row appears on exactly one page number within the page count, at the expected position |
| Queries.RowOnNoOtherPage | database.py:439 | no other page's window covers that row |
| Queries.MatchingServers | database.py:623-626 | the inventory rows joined to a CMDB row are exactly those with the same host up to ASCII case and the same environment |
| Queries.JoinOne | database.py:621-627 | each CMDB row yields at least one joined row, one per matching inventory row, and an unjoined row only when nothing matches |
| Queries.LeftJoinSemantics | database.py:621-627 | the join keeps every CMDB row, joins exactly the matching inventory rows, and leaves the inventory side empty only when nothing matches |
| Queries.FilterJoined | database.py:629-646 | the filter keeps exactly the joined rows whose CMDB side passes every filter that is switched on |
| Queries.GetCmdbFull | database.py:608-678 | the listing raises exactly for page size 0; otherwise the total counts the filtered join, the page count agrees with it, the page is the filtered join's LIMIT/OFFSET window for the requested page, and the page number and size come back as asked |
| Queries.ListingKeepsPassingRows | database.py:621-650 | every CMDB row that passes the filters is counted in the listing, joined or not |
| Queries.FirstJoinedForHost | database.py:945-948 | the detail lookup finds nothing exactly when no CMDB row has the host up to case; otherwise the row it finds has that host |
| Queries.FirstServerForHost | database.py:953-954 | the same, for the inventory |
| Queries.GetServerDetails | database.py:923-977 | there is no page exactly when neither table has the host; the full CMDB is asked first and its row carries its join; otherwise the inventory row is shown as Oracle "In Inventory Only" |
| Queries.FirstJoinedIsEarliestRow | database.py:945-948 | the detail lookup finds the first joined row of the earliest CMDB row with the host |
| Queries.FirstServerIsEarliest | database.py:953-954 | the inventory lookup finds the earliest inventory row with the host |
| Queries.ServerDetailsFromEarliestCmdbRow | database.py:923-951 | the page shows the earliest full-CMDB row with the host, joined to its first matching inventory row or to nothing |
| Queries.ServerDetailsFromEarliestServer | database.py:952-977 | with no full-CMDB row for the host, the page shows the earliest inventory row with the host |
| Queries.GetGmudById | database.py:840-847 | the lookup finds nothing exactly when no ticket has the key; otherwise it finds the ticket with that key |
| Queries.GmudByIdAt | database.py:840-847 | with ordered keys, looking up a stored ticket's key finds that ticket |
| Queries.UpdateGmud | database.py:850-870 | only the tickets table changes; the flag says whether the key exists; the ticket with that key has its twelve editable columns overwritten (a missing form key writes NULL), and every other ticket and column stays |
| Queries.UpdateThenRead | database.py:840-870 | reading a ticket after editing it gives the edited columns; keys stay ordered |
| Queries.DeleteGmud | database.py:873-881 | only the tickets table changes; the flag says whether the key exists; exactly the tickets with another key remain |
| Queries.WithoutKey | database.py:877 | removing a key keeps exactly the tickets with other keys |
| Queries.WithoutKeyOrdered | database.py:877 | after a removal the remaining keys stay strictly increasing |
| Queries.WithoutKeyLength | database.py:877-881 | removing a key that is present shortens the table by exactly one |
| Queries.WithoutAbsentKey | database.py:877-881 | removing a key that no ticket has changes nothing |
| Queries.DeletedKeyNeverReused | database.py:873-881 | a deleted key is gone for good: no ticket has it, a lookup finds nothing, and the counter is already above it |
| Queries.CountStandby | database.py:309-312 | a count of rows by standby flag never exceeds the row count |
| Queries.CountGgs | database.py:305-306 | the GGS count never exceeds the row count |
| Queries.GetDashboardStats | database.py:289-352 | the row counts and the ticket count are the sizes of their tables, and each filtered count is within the row count |
| Queries.StandbySplit | database.py:296-312 | with 0/1 flags, rows with and without a standby add up to all rows, and the server total counts each standby once more |
| Queries.DashboardConsistent | database.py:296-312 | on an inventory the importer wrote, the dashboard's standby and standalone counts add up to the rows, and the server total is rows plus standbys |
| Queries.CountClient | database.py:694-695 | a client's row count never exceeds the table size |
| Queries.CountActive | database.py:698-700 | an active count never exceeds the table size |
| Queries.GetCmdbFullStats | database.py:681-700 | the active count is within the total, and with no client filter the total is the table size |
| Queries.ActiveWithinTotal | database.py:689-700 | active rows are among the client's rows |
| Queries.ActiveCountsActiveRows | database.py:697-700 | the active count is exactly the number of the client's rows whose status is "Ativo" or "Running" |
| Presentation.DefaultTitle | app.py:194-205 | an empty request gets the default type and version and no hosts |
| Presentation.TitleDeterminesHosts | app.py:190-206 | for the same type, priority and version, two titles are equal exactly when the host lists are |
| Presentation.ImportResponse | app.py:166-187 | success with code 200 exactly when the run completed; a missing file gives the endpoint's hint with 400; a run that raised gives its message with 500 |
| Presentation.ApiImportAnswers | app.py:166-175 | the import endpoint answers 200 with its fixed message exactly when the file exists and every importer finished, 400 exactly when the file is missing, and 500 with the exception text exactly when an importer raised |
| Presentation.ApiImportCmdbFullAnswers | app.py:178-187 | the full-CMDB endpoint answers 200 exactly when the file exists and neither sheet raised, 400 exactly when the file is missing, and otherwise 500 with the first raising sheet's error |
| Presentation.StatusBadge | static/js/app.js:101-113 | no class exactly for an empty status; each class is given exactly when its keywords are the first group the lower-cased, trimmed status contains, in the code's order; "implementar" also when no group matches |
| Presentation.EnvBadge | static/js/app.js:116-125 | no badge exactly for an empty environment; "prod" exactly for production or transition names, "hml" exactly for homologation names, "dev" otherwise |
| Presentation.PsuBadge | static/js/app.js:128-136 | no badge exactly for an empty version; "latest" exactly when it contains 19.30, 19.29 or 19.28; "outdated" exactly for 19.27 or 19.26 without those; "critical" otherwise |
| Presentation.DefaultVersionIsLatest | app.py:195 | the title builder's default version gets the "latest" badge |
| Presentation.Window | static/js/app.js:157-159 | the window has one page button per page from start to end, in order, and a button is active exactly when it is the current page |
| Presentation.CreatePagination | static/js/app.js:139-170 | no selector exactly for one page or none; the previous arrow is disabled exactly on the first page, the next arrow exactly on the last |
| Presentation.PaginationSpacing | static/js/app.js:149-164 | the buttons run from page 1 to the last page in increasing order, and an ellipsis stands exactly where pages are skipped |
| Presentation.PaginationWindow | static/js/app.js:149-159 | exactly the current page is marked active, and every page within two of it has a button |
| Presentation.WindowShape | static/js/app.js:157-159 | the window on its own runs consecutively from start to end |
| Presentation.LeadAndWindow | static/js/app.js:152-159 | page 1 is reached before the window, with an ellipsis only over skipped pages |
| Presentation.LeadBefore | static/js/app.js:152-154 | button 1, with an ellipsis only when pages lie between, goes before any well-spaced increasing run |
| Presentation.LeadTouching | static/js/app.js:152-153 | page 1 directly before a window starting at 2 needs no ellipsis |
| Presentation.LeadSkipping | static/js/app.js:152-154 | page 1, then an ellipsis, before a window starting after 2 |
| Presentation.TrailAfter | static/js/app.js:161-163 | the last page, with an ellipsis only when pages lie between, goes after any well-spaced increasing run from page 1 |
| Presentation.TrailTouching | static/js/app.js:161-163 | the last page directly after a run ending one before it needs no ellipsis |
| Presentation.TrailSkipping | static/js/app.js:161-163 | an ellipsis, then the last page, after a run ending earlier |
| Presentation.GapsAdjacent | static/js/app.js:152-163 | two well-spaced runs joined directly stay well spaced when the second continues the first |
| Presentation.GapsSkipped | static/js/app.js:152-163 | two well-spaced runs joined by an ellipsis stay well spaced when pages lie between them |
| Presentation.AscendingConcat | static/js/app.js:152-163 | two increasing runs, the second above the first, form one increasing run |
| Presentation.KeptParams | static/js/app.js:325-328 | the parameters kept are exactly those whose value is not "", null or undefined; a single entry is kept or dropped by its value |
| Presentation.KeptParamsConcat | static/js/app.js:325-328 | filtering keeps the entries' order: filtering a concatenation is concatenating the filtered parts |
| Presentation.QueryString | static/js/app.js:329 | a non-empty parameter list gives a non-empty query; a single parameter gives exactly its encoded key=value pair |
| Presentation.QueryStringConcat | static/js/app.js:329 | the query of two non-empty lists is their queries joined by "&", so pairs appear in parameter order |
| Presentation.ExportUrl | static/js/app.js:324-332 | the link is the endpoint alone when every parameter is blank, and otherwise the endpoint, "?" and the kept parameters |
| Headers.FilledTexts | extract_headers.py:22 | the texts of a row's counted cells are all non-blank and no more than its cells |
| Headers.FilledCells | extract_headers.py:22 | the counted cells are exactly the row's cells that hold a value with non-blank text |
| Headers.FilledTextsAreTheFilledCells | extract_headers.py:22 | the header texts are exactly the counted cells' texts, in column order |
| Headers.Texts | extract_headers.py:22 | the text list is aligned with the cell list |
| Headers.FirstHeader | extract_headers.py:21-25 | no headers exactly when no row has more than three counted cells; otherwise the headers are those of the first row that does |
| Headers.TopRows | extract_headers.py:21 | only the first ten rows, or all of a shorter sheet, are examined |
| Headers.SheetHeaders | extract_headers.py:19-26 | a sheet's headers are those of the first of its top ten rows with more than three counted cells, or nothing |
| Headers.HeadersIgnoreLowerRows | extract_headers.py:21 | rows below the tenth never change a sheet's headers |
| Headers.SurveyFile | extract_headers.py:12-29 | an unreadable workbook is recorded as "Error: " and the exception text; otherwise every sheet in tab order with its headers |

## Left out

- Reading and saving files, the workbook reader, `print`, `init_db`, the Flask
  routes, authentication and the user table are left out. They are I/O or
  framework glue. A file's existence, a loaded workbook and a raised exception's
  text are parameters.
- Async import jobs and the last-update display in the browser are left out.
  They are timers and network calls.
- `Export.WriteGmud`: the day name (`strftime('%A')` under the process locale)
  and the parsing of the form's `YYYY-MM-DDTHH:MM` dates are parameters. A
  failure of `wb.save` after the cells are set is not modelled. It would give
  the "Erro ao escrever no Excel" message and leave the file unchanged.
- The backup path's timestamp and the copy itself are not modelled. The copy's
  outcome is the parameter of `Export.BackupWorkbook`.
- `Queries.GetCmdbFull`: rows come in table order. The `ORDER BY` of this and
  the other listings is not modelled. SQL `LIKE` in the text search is the
  parameter `like`, because its case-folding and wildcard rules are SQLite's.
- The listings `get_servers`, `get_gmuds`, `get_cmdb_databases`,
  `get_pagonxt_databases`, `get_planning_data`, `get_filter_options`,
  `get_cmdb_full_filters` and `search_hostnames` are not modelled row by row.
  Only their shared paging arithmetic is modelled (`Queries.Pages`,
  `Queries.PageOf`), because their WHERE clauses follow the same pattern as
  `get_cmdb_full`.
- The grouped counts (`GROUP BY ... ORDER BY cnt`) of `get_dashboard_stats`
  and `get_cmdb_full_stats` are not modelled. Only their scalar counts are,
  `total_gmuds` among them.
  The grouped counts are aggregations whose order is SQLite's.
- `Queries.GetServerDetails`: the ticket history (a `LIKE` search over titles
  and observations, ordered by date) is not modelled. The page header is.
- `Text.Lower`: lower-casing covers ASCII and Latin-1 letters. That range holds
  every comparison target in the system.
- `Cells.PyInt`: a float is carried with its truncation already computed, and
  `str()` of a float is carried as text. Floating point is not modelled.
- `Cells.PyInt`: text with `_` between digits (`"1_000"`) or with non-ASCII
  decimal digits (`"١٢"`) converts in Python but is None here. The model reads
  only ASCII decimal literals.
- `Text.ParseInt`: the same restriction. Python's `int()` also accepts digit
  separators and every Unicode decimal digit, which this model rejects.
- `Qualys.ValidQid`: a QID cell holding such text is counted by Python but
  rejected here, through `Cells.PyInt`.
- `Presentation.QueryString`: percent-encoding is the parameter `encode`.
- `Export.WriteGmud`: the save drops the cached value of every formula in the
  workbook, not only in the written row. The model's reload (`Export.Reloaded`)
  covers the written row only; the other rows are not reloaded here.
- `Export.Reread`: openpyxl rounds a datetime it reads back to milliseconds.
  This is not modelled. The form's dates are parsed to whole minutes, so the
  writer does not store finer datetimes from a form.
- `Export.Bind`: only the value a cell holds is modelled, not its data type or
  number format. An error-code text such as "#N/A" is stored as an error cell,
  which reads back as the same text, so it is modelled as a plain string.
- `Qualys.BindError`: the error texts follow the wording of Python 3.12's
  `sqlite3`. Other versions word the time-of-day error differently.
- `Presentation.GenerateTitle`: JSON values other than strings and null are
  not modelled. `str()` of a number or a list would go into the title.
- The JSON file that the header survey writes is not modelled; only what it
  records per file is.
- Badge HTML markup, toast messages, chart defaults and other DOM work are
  left out.

=== FILE: cells.dfy ===
/**
 * Spreadsheet cell values as openpyxl hands them to the importers, Python's
 * truthiness and `str()` on them, and the two cell normalisers `safe_str` and
 * `safe_datetime`.
 */
module Cells {
  import opened Wrappers
  import opened Text

  /**
   * A `datetime.datetime`. A spreadsheet date cell yields one rounded to
   * milliseconds, so `micro` need not be zero (a `=NOW()` value, a logged
   * timestamp).
   */
  datatype DateTime = DateTime(year: nat, month: nat, day: nat, hour: nat, minute: nat, second: nat, micro: nat)

  predicate ValidDateTime(dt: DateTime) {
    1 <= dt.year <= 9999 && 1 <= dt.month <= 12 && 1 <= dt.day <= 31
    && dt.hour < 24 && dt.minute < 60 && dt.second < 60 && dt.micro < 1_000_000
  }

  /**
   * One cell value: `None`, a string, an int, a float (carried as Python's
   * `repr` text and its `int()` truncation), a datetime, a time of day (with
   * its microseconds), a bool.
   */
  datatype Cell =
    | Empty
    | Str(text: string)
    | Int(n: int)
    | Float(repr: string, trunc: int)
    | Stamp(dt: DateTime)
    | Clock(hour: nat, minute: nat, second: nat, micro: nat)
    | Bool(b: bool)

  /** A worksheet row: the cell values in column order, as long as the reader made it. */
  type Row = seq<Cell>

  /** Python truth value of a cell (`bool(value)`); times and datetimes are always true. */
  predicate Truthy(c: Cell) {
    match c
    case Empty => false
    case Str(t) => t != ""
    case Int(n) => n != 0
    case Float(repr, _) => repr != "0.0" && repr != "-0.0"
    case Stamp(_) => true
    case Clock(_, _, _, _) => true
    case Bool(b) => b
  }

  /** Python `any(cells)`. */
  predicate AnyTruthy(cells: seq<Cell>) {
    exists i :: 0 <= i < |cells| && Truthy(cells[i])
  }

  /** Python slice `row[:k]`, which never fails on a short row. */
  function Take(row: Row, k: nat): (r: Row)
    ensures |r| == if |row| < k then |row| else k
    ensures r == row[..|r|]
  {
    if |row| < k then row else row[..k]
  }

  /** `strftime("%Y-%m-%d %H:%M:%S")`: the microseconds are dropped. */
  function FormatDateTime(dt: DateTime): string {
    Padded(dt.year, 4) + "-" + Padded(dt.month, 2) + "-" + Padded(dt.day, 2) + " "
    + Padded(dt.hour, 2) + ":" + Padded(dt.minute, 2) + ":" + Padded(dt.second, 2)
  }

  /** What `str()` adds for the microseconds: nothing when they are zero, otherwise "." and six digits. */
  function Fraction(micro: nat): (r: string)
    ensures micro == 0 ==> r == ""
    ensures micro != 0 ==> |r| >= 7 && r[0] == '.' && forall i :: 1 <= i < |r| ==> IsDigit(r[i])
  {
    if micro == 0 then "" else "." + Padded(micro, 6)
  }

  /** Python `str(dt)`: the timestamp, then the microseconds when there are any. */
  function DateTimeText(dt: DateTime): string {
    FormatDateTime(dt) + Fraction(dt.micro)
  }

  /** `YYYY-MM-DD HH:MM:SS`: 19 characters, digits except the fixed separators. */
  predicate IsTimestampText(s: string) {
    |s| == 19 && s[4] == '-' && s[7] == '-' && s[10] == ' ' && s[13] == ':' && s[16] == ':'
    && forall i :: 0 <= i < 19 && i !in {4, 7, 10, 13, 16} ==> IsDigit(s[i])
  }

  lemma FormatDateTimeShape(dt: DateTime)
    ensures ValidDateTime(dt) ==> IsTimestampText(FormatDateTime(dt))
  {
    assert Pow10(2) == 100 && Pow10(4) == 10000;
  }

  /** Python `str(value)` (no stripping). `str(None)` is the text "None". */
  function PyStr(c: Cell): string {
    match c
    case Empty => "None"
    case Str(t) => t
    case Int(n) => IntToDecimal(n)
    case Float(repr, _) => repr
    case Stamp(dt) => DateTimeText(dt)
    case Clock(h, m, s, u) => Padded(h, 2) + ":" + Padded(m, 2) + ":" + Padded(s, 2) + Fraction(u)
    case Bool(b) => if b then "True" else "False"
  }

  /** `safe_str`: "" for `None`, otherwise the stripped `str()` of the value. */
  function SafeStr(c: Cell): (r: string)
    ensures c.Empty? ==> r == ""
    ensures !c.Empty? ==> r == Strip(PyStr(c))
    ensures IsStripped(r)
  {
    if c.Empty? then "" else Strip(PyStr(c))
  }

  /**
   * `safe_datetime`: a datetime becomes its `strftime` timestamp, `None`
   * becomes "", everything else goes through `str(...).strip()`.
   */
  function SafeDatetime(c: Cell): (r: string)
    ensures c.Empty? ==> r == ""
    ensures c.Stamp? && ValidDateTime(c.dt) ==> IsTimestampText(r)
    ensures !c.Empty? && !c.Stamp? ==> r == SafeStr(c)
  {
    match c
    case Empty => ""
    case Stamp(dt) =>
      FormatDateTimeShape(dt);
      FormatDateTime(dt)
    case _ => Strip(PyStr(c))
  }

  /**
   * The two normalisers agree on every cell except a datetime with
   * microseconds: `str()` of a whole-second datetime is its `strftime`
   * timestamp, which has no surrounding whitespace to strip, while for a
   * sub-second one `safe_str` keeps the ".ffffff" that `safe_datetime` drops.
   */
  lemma SafeDatetimeAgreesWithSafeStr(c: Cell)
    ensures !(c.Stamp? && c.dt.micro != 0) ==> SafeDatetime(c) == SafeStr(c)
    ensures c.Stamp? && c.dt.micro != 0 ==> SafeStr(c) == SafeDatetime(c) + Fraction(c.dt.micro)
    ensures c.Stamp? && c.dt.micro != 0 ==> SafeStr(c) != SafeDatetime(c)
  {
    if c.Stamp? {
      var t := DateTimeText(c.dt);
      assert t == FormatDateTime(c.dt) + Fraction(c.dt.micro);
      assert IsDigit(t[0]) && IsDigit(t[|t| - 1]);
      StripFixesStripped(t);
    }
  }

  /**
   * Python `int(value)` on a cell: ints as they are, bools as 0/1, floats
   * truncated, strings parsed after stripping as plain ASCII decimal literals
   * (`Text.ParseInt`); `None`, dates and times raise (None here).
   */
  function PyInt(c: Cell): (r: Option<int>)
    ensures c.Int? ==> r == Some(c.n)
    ensures c.Empty? || c.Stamp? || c.Clock? ==> r.None?
  {
    match c
    case Int(n) => Some(n)
    case Bool(b) => Some(if b then 1 else 0)
    case Float(_, t) => Some(t)
    case Str(t) => ParseInt(Strip(t))
    case _ => None
  }

  /** An integer written into a text cell reads back as that integer. */
  lemma PyIntOfRenderedInt(i: int)
    ensures PyInt(Str(IntToDecimal(i))) == Some(i)
  {
    var t := IntToDecimal(i);
    assert t[0] == '-' || IsDigit(t[0]);
    assert IsDigit(t[|t| - 1]);
    StripFixesStripped(t);
    IntDecimalRoundTrip(i);
  }
}

=== FILE: export.dfy ===
/**
 * Writing a new change ticket back into the monthly ticket workbook: the
 * backup guard, the choice of month sheet, the search for the next free row
 * and the thirteen cells of that row. The written row is laid out so that the
 * ticket importer reads it back in the classic layout.
 */
module Export {
  import opened Wrappers
  import opened Text
  import opened Cells
  import opened Workbook
  import opened MonthSheets
  import opened Records
  import opened Vocabulary
  import opened Extract

  // ---------------------------------------------------------------------------
  // Backup
  // ---------------------------------------------------------------------------

  const BACKUP_MISSING := "Arquivo original não encontrado para backup."
  const BACKUP_FAILED := "Falha ao criar backup: "
  const WRITE_FAILED := "Erro ao escrever no Excel: "

  /**
   * `backup_workbook`: a missing workbook is refused with a fixed message;
   * otherwise the copy's own outcome (the backup path, or the text of the
   * exception it raised) is the result.
   */
  function BackupWorkbook(fileExists: bool, copy: Result<string>): (r: Result<string>)
    ensures !fileExists ==> r == Raised(BACKUP_MISSING)
    ensures fileExists ==> r == copy
  {
    if !fileExists then Raised(BACKUP_MISSING) else copy
  }

  // ---------------------------------------------------------------------------
  // The next free row
  // ---------------------------------------------------------------------------

  /** A row is taken when its title (column 9) or its change number (column 8) is set. */
  predicate Occupied(ws: Sheet, r: nat) {
    Truthy(CellAt(ws, r, 9)) || Truthy(CellAt(ws, r, 8))
  }

  function Max(a: int, b: int): int {
    if a < b then b else a
  }

  /**
   * The scan down from row 2 for the first row whose title and change number
   * are both empty; rows past the end of the sheet are empty, so it stops.
   */
  method NextEmptyRow(ws: Sheet) returns (r: nat)
    ensures r >= 2 && !Occupied(ws, r)
    ensures forall k :: 2 <= k < r ==> Occupied(ws, k)
    ensures r <= Max(2, |ws.rows| + 1)
  {
    r := 2;
    while Occupied(ws, r)
      invariant 2 <= r <= Max(2, |ws.rows| + 1)
      invariant forall k :: 2 <= k < r ==> Occupied(ws, k)
      decreases |ws.rows| + 2 - r
    {
      r := r + 1;
    }
  }

  // ---------------------------------------------------------------------------
  // Writing one row
  // ---------------------------------------------------------------------------

  /**
   * One value of the submitted form: a scalar a cell can hold (string,
   * number, bool, `None`, or the parsed dates), or a JSON list or object,
   * carried as its Python `repr`.
   */
  datatype FormValue = Scalar(cell: Cell) | Composite(repr: string)

  /** The submitted form: each key the browser sent, with its value. */
  type Form = map<string, FormValue>

  /** `gmud_data.get(key, default)`: a key that is present wins, even when its value is null. */
  function Get(form: Form, key: string, default: FormValue): FormValue {
    if key in form then form[key] else default
  }

  /**
   * The values for columns 1..13 of the new row, in column order: client,
   * database type, environment, status, day name, start, end, change number,
   * title, assignee, observation, vulnerability, opened-by.
   */
  function GmudValues(form: Form, start: DateTime, end: FormValue, dayName: string): (vs: seq<FormValue>)
    ensures |vs| == 13
    ensures vs[0] == Get(form, "client", Scalar(Str("Getnet"))) && vs[1] == Get(form, "db_type", Scalar(Str("Oracle")))
    ensures vs[2] == Get(form, "environment", Scalar(Str("PROD"))) && vs[3] == Get(form, "status", Scalar(Str("Planejada")))
    ensures vs[4] == Scalar(Str(dayName)) && vs[5] == Scalar(Stamp(start)) && vs[6] == end
    ensures vs[7] == Get(form, "change_number", Scalar(Str("N/A"))) && vs[8] == Get(form, "title", Scalar(Empty))
    ensures vs[9] == Get(form, "assigned_to", Scalar(Empty)) && vs[10] == Get(form, "observation", Scalar(Str("")))
    ensures vs[11] == Get(form, "vulnerability", Scalar(Str(""))) && vs[12] == Get(form, "opened_by", Scalar(Str("")))
  {
    [Get(form, "client", Scalar(Str("Getnet"))), Get(form, "db_type", Scalar(Str("Oracle"))),
     Get(form, "environment", Scalar(Str("PROD"))), Get(form, "status", Scalar(Str("Planejada"))),
     Scalar(Str(dayName)), Scalar(Stamp(start)), end,
     Get(form, "change_number", Scalar(Str("N/A"))), Get(form, "title", Scalar(Empty)),
     Get(form, "assigned_to", Scalar(Empty)), Get(form, "observation", Scalar(Str(""))),
     Get(form, "vulnerability", Scalar(Str(""))), Get(form, "opened_by", Scalar(Str("")))]
  }

  // ---------------------------------------------------------------------------
  // Binding a value to a cell
  // ---------------------------------------------------------------------------

  /** The longest string a cell keeps; openpyxl cuts longer ones. */
  const MAX_CELL_TEXT: nat := 32767

  /** `value[:32767]`. */
  function Truncated(t: string): (r: string)
    ensures |r| == if |t| <= MAX_CELL_TEXT then |t| else MAX_CELL_TEXT
    ensures r == t[..|r|]
  {
    if |t| <= MAX_CELL_TEXT then t else t[..MAX_CELL_TEXT]
  }

  /** The control characters a cell refuses: code points 0-8, 11, 12 and 14-31. */
  predicate IllegalChar(ch: char) {
    ch as int <= 8 || ch as int == 11 || ch as int == 12 || 14 <= ch as int <= 31
  }

  predicate HasIllegalChar(t: string) {
    exists i :: 0 <= i < |t| && IllegalChar(t[i])
  }

  /** A string openpyxl stores as a formula: longer than one character, starting with "=". */
  predicate IsFormulaText(t: string) {
    |t| > 1 && t[0] == '='
  }

  /**
   * `ws.cell(row, column, value=v)` applied to the value: the cell value
   * openpyxl holds afterwards, or the exception it raises. A string is cut to
   * 32,767 characters and then refused when it holds a control character
   * (IllegalCharacterError); a list or a dict cannot be stored (ValueError).
   * Every other scalar is stored as it is. A stored formula is held as its
   * text, "=" included.
   */
  function Bind(v: FormValue): (r: Result<Cell>)
    ensures v.Composite? ==> r == Raised("Cannot convert " + v.repr + " to Excel")
    ensures v.Scalar? && !v.cell.Str? ==> r == Ok(v.cell)
    ensures v.Scalar? && v.cell.Str? ==>
              (r.Ok? <==> !HasIllegalChar(Truncated(v.cell.text)))
              && (r.Ok? ==> r.value == Str(Truncated(v.cell.text)))
              && (r.Raised? ==> r.message == Truncated(v.cell.text) + " cannot be used in worksheets.")
  {
    match v
    case Composite(repr) => Raised("Cannot convert " + repr + " to Excel")
    case Scalar(c) =>
      if !c.Str? then Ok(c)
      else
        var t := Truncated(c.text);
        if HasIllegalChar(t) then Raised(t + " cannot be used in worksheets.") else Ok(Str(t))
  }

  /**
   * The thirteen cells written in column order: the first value that cannot
   * be bound raises, and the cells before it were set in memory only.
   */
  function BindAll(vs: seq<FormValue>): (r: Result<Row>)
    ensures r.Ok? <==> forall c :: 0 <= c < |vs| ==> Bind(vs[c]).Ok?
    ensures r.Ok? ==> |r.value| == |vs| && forall c :: 0 <= c < |vs| ==> r.value[c] == Bind(vs[c]).value
    ensures r.Raised? ==> exists c :: 0 <= c < |vs| && Bind(vs[c]) == Raised(r.message)
                                     && forall j :: 0 <= j < c ==> Bind(vs[j]).Ok?
  {
    if vs == [] then Ok([])
    else
      match Bind(vs[0])
      case Raised(m) => Raised(m)
      case Ok(c) =>
        match BindAll(vs[1..])
        case Raised(m) =>
          ghost var k :| 0 <= k < |vs[1..]| && Bind(vs[1..][k]) == Raised(m)
                         && forall j :: 0 <= j < k ==> Bind(vs[1..][j]).Ok?;
          assert Bind(vs[k + 1]) == Raised(m);
          assert forall j :: 1 <= j < k + 1 ==> vs[j] == vs[1..][j - 1];
          Raised(m)
        case Ok(rest) =>
          assert forall j :: 1 <= j < |vs| ==> vs[j] == vs[1..][j - 1];
          Ok([c] + rest)
  }

  /**
   * A stored cell as the next `data_only` load reads it back: a formula
   * written by openpyxl has no cached result, so it reads as `None`; every
   * other value reads as it was stored (an error-code text such as "#N/A"
   * included).
   */
  function Reread(c: Cell): (r: Cell)
    ensures !(c.Str? && IsFormulaText(c.text)) ==> r == c
    ensures c.Str? && IsFormulaText(c.text) ==> r == Empty
  {
    if c.Str? && IsFormulaText(c.text) then Empty else c
  }

  /**
   * What the importer's `safe_str` reads back from a value that was bound: a
   * scalar other than a string comes back unchanged; a string comes back cut
   * to 32,767 characters and stripped, or empty when it was stored as a
   * formula; so a string within the limit that is no formula comes back as
   * the form gave it.
   */
  lemma BoundValueReadsBack(v: FormValue)
    requires Bind(v).Ok?
    ensures v.Scalar? && !v.cell.Str? ==> Reread(Bind(v).value) == v.cell
    ensures v.Scalar? && v.cell.Str? && IsFormulaText(Truncated(v.cell.text)) ==>
              Reread(Bind(v).value) == Empty && SafeStr(Reread(Bind(v).value)) == ""
    ensures v.Scalar? && v.cell.Str? && !IsFormulaText(Truncated(v.cell.text)) ==>
              SafeStr(Reread(Bind(v).value)) == Strip(Truncated(v.cell.text))
    ensures v.Scalar? && v.cell.Str? && |v.cell.text| <= MAX_CELL_TEXT && !IsFormulaText(v.cell.text) ==>
              Reread(Bind(v).value) == v.cell
  {
  }

  /** A value a cell holds and reads back exactly: a scalar, and for a string a short one with no control character and no formula. */
  predicate PlainValue(v: FormValue) {
    v.Scalar? && (v.cell.Str? ==> |v.cell.text| <= MAX_CELL_TEXT && !HasIllegalChar(v.cell.text) && !IsFormulaText(v.cell.text))
  }

  /** A plain value binds to itself and reads back as itself. */
  lemma PlainValueRoundTrip(v: FormValue)
    requires PlainValue(v)
    ensures Bind(v) == Ok(v.cell) && Reread(v.cell) == v.cell
  {
  }

  /**
   * A form title "=A1" is stored as a formula, and reads back as an
   * empty title.
   */
  lemma FormulaTitleReadsEmpty()
    ensures Bind(Scalar(Str("=A1"))) == Ok(Str("=A1"))
    ensures SafeStr(Reread(Bind(Scalar(Str("=A1"))).value)) == ""
  {
    var t := "=A1";
    assert Truncated(t) == t;
    assert !IllegalChar(t[0]) && !IllegalChar(t[1]) && !IllegalChar(t[2]);
  }

  /** The value in column index `c` of `row`; a column past its end holds `None`. */
  function OldAt(row: Row, c: nat): Cell {
    if c < |row| then row[c] else Empty
  }

  /**
   * `row` after `ws.cell(column=c + 1, value=v)` for every column, where
   * `cells[c]` is what `Bind` made of `v`: a bound value other than `None` is
   * stored, and a `None` leaves the cell as it was.
   */
  function Overlay(row: Row, cells: Row): (r: Row)
    ensures |r| == Max(|row|, |cells|)
    ensures forall c :: 0 <= c < |cells| ==> r[c] == if cells[c].Empty? then OldAt(row, c) else cells[c]
    ensures forall c :: |cells| <= c < |row| ==> r[c] == row[c]
    decreases |cells|
  {
    if cells == [] then row
    else
      var tail := if row == [] then [] else row[1..];
      var rest := Overlay(tail, cells[1..]);
      var r := [if cells[0].Empty? then OldAt(row, 0) else cells[0]] + rest;
      assert forall c :: 1 <= c < |r| ==> r[c] == rest[c - 1];
      assert forall c :: 1 <= c ==> OldAt(tail, c - 1) == OldAt(row, c);
      r
  }

  /** `rows` extended with empty rows up to length `n`. */
  function PadRows(rows: seq<Row>, n: nat): (r: seq<Row>)
    ensures |r| == Max(|rows|, n)
    ensures forall k :: 0 <= k < |rows| ==> r[k] == rows[k]
    ensures forall k :: |rows| <= k < |r| ==> r[k] == []
    decreases n - |rows|
  {
    if n <= |rows| then rows else PadRows(rows + [[]], n)
  }

  /** Setting cells 1..|cells| of worksheet row `r` (1-based) to bound values, growing the sheet as needed. */
  function WriteRow(ws: Sheet, r: nat, cells: Row): (w: Sheet)
    requires r >= 1
    ensures w.name == ws.name
  {
    var rows := PadRows(ws.rows, r);
    ws.(rows := rows[r - 1 := Overlay(rows[r - 1], cells)])
  }

  /**
   * A row write of bound values changes exactly the columns among 1..|cells|
   * given a value other than `None`, and no other cell: a `None` leaves the
   * old content.
   */
  lemma WriteRowCells(ws: Sheet, r: nat, cells: Row, r2: nat, c: nat)
    requires r >= 1
    ensures CellAt(WriteRow(ws, r, cells), r2, c) ==
              if r2 == r && 1 <= c <= |cells| && !cells[c - 1].Empty? then cells[c - 1] else CellAt(ws, r2, c)
  {
  }

  /** `wb[ws.name] = ws`: the first sheet of that title is replaced, the tab order is kept. */
  function PutSheet(book: Book, ws: Sheet): (r: Book)
    ensures |r| == |book|
    ensures SheetNames(r) == SheetNames(book)
  {
    if book == [] then []
    else if book[0].name == ws.name then [ws] + book[1..]
    else [book[0]] + PutSheet(book[1..], ws)
  }

  /** After a put, looking the title up finds the new sheet, and every other title finds its old sheet. */
  lemma {:induction false} PutSheetLookups(book: Book, ws: Sheet, name: string)
    requires ws.name in SheetNames(book)
    ensures GetSheet(PutSheet(book, ws), ws.name) == Some(ws)
    ensures name != ws.name ==> GetSheet(PutSheet(book, ws), name) == GetSheet(book, name)
  {
    var put := PutSheet(book, ws);
    if book[0].name == ws.name {
      assert put[0] == ws;
    } else {
      assert ws.name in SheetNames(book[1..]) by {
        var i :| 0 <= i < |book| && SheetNames(book)[i] == ws.name;
        assert SheetNames(book[1..])[i - 1] == ws.name;
      }
      PutSheetLookups(book[1..], ws, name);
      assert put[0] == book[0] && put[1..] == PutSheet(book[1..], ws);
    }
  }

  // ---------------------------------------------------------------------------
  // write_gmud_to_excel
  // ---------------------------------------------------------------------------

  /** The two outcomes: the saved workbook with the row used, or a refusal and nothing saved. */
  datatype WriteResult =
    | Written(book: Book, row: nat, message: string)
    | NotWritten(message: string)

  function NoSheetMessage(start: DateTime, book: Book): string {
    "Aba para a data " + DateTimeText(start) + " não encontrada. Abas disponíveis: " + Join(", ", SheetNames(book))
  }

  function SuccessMessage(row: nat): string {
    "GMUD criada com sucesso na linha " + NatToDecimal(row) + "!"
  }

  /**
   * The form's start date as the writer sees it. A string is parsed at once,
   * which gives the date or the parse error. Any other value is used as it is;
   * `Given` carries what reading its year and month gives, which is the date
   * itself for a datetime and the AttributeError's text for `None` or a number.
   */
  datatype StartValue = Parsed(parsed: Result<DateTime>) | Given(used: Result<DateTime>)

  /** The start date once both stages are through, or the error of the stage that raised. */
  function StartDate(start: StartValue): Result<DateTime> {
    match start
    case Parsed(p) => p
    case Given(u) => u
  }

  /**
   * `write_gmud_to_excel`. The inputs the function reads from the outside
   * world arrive already evaluated: the backup copy's outcome, the loaded
   * workbook (or the text of the exception loading raised), the start date
   * (see `StartValue`), the end date (the parsed date, the text of the
   * exception its parse raised, or the form's own value when it is not a
   * string), and the locale's day name for the start date. The start string
   * is parsed before the end string; a start that is not a string only fails
   * when the sheet lookup reads its year, after the end has been parsed. The
   * row is searched before any cell is set; a value that cannot be stored
   * stops the write before the save.
   */
  method WriteGmud(fileExists: bool, copy: Result<string>, loaded: Result<Book>, form: Form,
                   start: StartValue, end: Result<FormValue>, dayName: string)
    returns (w: WriteResult)
    ensures BackupWorkbook(fileExists, copy).Raised? ==>
              w == NotWritten(BACKUP_FAILED + BackupWorkbook(fileExists, copy).message)
    ensures BackupWorkbook(fileExists, copy).Ok? && loaded.Raised? ==> w == NotWritten(WRITE_FAILED + loaded.message)
    ensures BackupWorkbook(fileExists, copy).Ok? && loaded.Ok? && start.Parsed? && start.parsed.Raised? ==>
              w == NotWritten(WRITE_FAILED + start.parsed.message)
    ensures BackupWorkbook(fileExists, copy).Ok? && loaded.Ok? && !(start.Parsed? && start.parsed.Raised?)
            && end.Raised? ==>
              w == NotWritten(WRITE_FAILED + end.message)
    ensures BackupWorkbook(fileExists, copy).Ok? && loaded.Ok? && start.Given? && start.used.Raised? && end.Ok? ==>
              w == NotWritten(WRITE_FAILED + start.used.message)
    ensures w.Written? ==> StartDate(start).Ok? && end.Ok?
                           && BindAll(GmudValues(form, StartDate(start).value, end.value, dayName)).Ok?
    ensures BackupWorkbook(fileExists, copy).Ok? && loaded.Ok? && StartDate(start).Ok? && end.Ok? ==>
              var date := StartDate(start).value;
              var name := SheetNameForDate(date.year, date.month);
              var bound := BindAll(GmudValues(form, date, end.value, dayName));
              if name.None? || name.value !in SheetNames(loaded.value)
              then w == NotWritten(NoSheetMessage(date, loaded.value))
              else if bound.Raised? then w == NotWritten(WRITE_FAILED + bound.message)
              else
                var ws := GetSheet(loaded.value, name.value).value;
                w.Written?
                && w.row >= 2 && !Occupied(ws, w.row) && (forall k :: 2 <= k < w.row ==> Occupied(ws, k))
                && w.book == PutSheet(loaded.value, WriteRow(ws, w.row, bound.value))
                && w.message == SuccessMessage(w.row)
  {
    var backup := BackupWorkbook(fileExists, copy);
    if backup.Raised? {
      return NotWritten(BACKUP_FAILED + backup.message);
    }
    if loaded.Raised? {
      return NotWritten(WRITE_FAILED + loaded.message);
    }
    if start.Parsed? && start.parsed.Raised? {
      return NotWritten(WRITE_FAILED + start.parsed.message);
    }
    if end.Raised? {
      return NotWritten(WRITE_FAILED + end.message);
    }
    if start.Given? && start.used.Raised? {
      return NotWritten(WRITE_FAILED + start.used.message);
    }
    var date := StartDate(start).value;
    var book := loaded.value;
    var name := SheetNameForDate(date.year, date.month);
    if name.None? || name.value !in SheetNames(book) {
      return NotWritten(NoSheetMessage(date, book));
    }
    var ws := GetSheet(book, name.value).value;
    var row := NextEmptyRow(ws);
    var bound := BindAll(GmudValues(form, date, end.value, dayName));
    if bound.Raised? {
      return NotWritten(WRITE_FAILED + bound.message);
    }
    w := Written(PutSheet(book, WriteRow(ws, row, bound.value)), row, SuccessMessage(row));
  }

  // ---------------------------------------------------------------------------
  // Reading the written row back
  // ---------------------------------------------------------------------------

  /** The row a write leaves at `r`: the old row (or an empty one) overlaid with the cells. */
  lemma WrittenRowAt(ws: Sheet, r: nat, cells: Row)
    requires r >= 1
    ensures var w := WriteRow(ws, r, cells);
            r - 1 < |w.rows|
            && w.rows[r - 1] == Overlay(if r - 1 < |ws.rows| then ws.rows[r - 1] else [], cells)
  {
  }

  /**
   * The written row as the next `data_only` import reads it. The workbook is
   * loaded with its formulas and saved without their cached values, so every
   * cell reads back through `Reread`: a column the write set holds the bound
   * cell, every other column the old content, and a formula in either reads
   * as `None`.
   */
  function Reloaded(row: Row, cells: Row): (r: Row)
    ensures |r| == |row|
    ensures forall c :: 0 <= c < |row| ==>
              r[c] == if c < |cells| && !cells[c].Empty? then Reread(cells[c]) else Reread(row[c])
  {
    seq(|row|, c requires 0 <= c < |row| =>
          if c < |cells| && !cells[c].Empty? then Reread(cells[c]) else Reread(row[c]))
  }

  /**
   * A formula the write does not touch reads as `None` too: over a row of
   * two formulas, writing only the first column leaves the second empty.
   */
  lemma UnwrittenFormulaReadsEmpty()
    ensures Reloaded([Str("=B2"), Str("=C2")], [Str("x")]) == [Str("x"), Empty]
  {
    var r := Reloaded([Str("=B2"), Str("=C2")], [Str("x")]);
    assert r[0] == Str("x") && r[1] == Empty;
  }

  /** `Reread` on every cell. */
  function RereadRow(cells: Row): (r: Row)
    ensures |r| == |cells|
    ensures forall c :: 0 <= c < |cells| ==> r[c] == Reread(cells[c])
  {
    seq(|cells|, c requires 0 <= c < |cells| => Reread(cells[c]))
  }

  /**
   * What the ticket importer makes of a row that starts with the thirteen
   * cells `vals`: the start date's month, and each column's `safe_str`.
   */
  predicate ReadsAs(s: Step<TicketData>, vals: Row, start: DateTime)
    requires |vals| == 13
  {
    s.Keep?
    && s.rec.year == start.year && s.rec.month == start.month
    && s.rec.fields.client == Some(SafeStr(vals[0]))
    && s.rec.fields.dbType == Some(SafeStr(vals[1]))
    && s.rec.fields.environment == Some(SafeStr(vals[2]))
    && s.rec.fields.status == Some(NormalizeGmudStatus(SafeStr(vals[3])))
    && s.rec.dayOfWeek == SafeStr(vals[4])
    && s.rec.fields.startDate == Some(FormatDateTime(start))
    && s.rec.fields.endDate == Some(SafeDatetime(vals[6]))
    && s.rec.fields.changeNumber == Some(SafeStr(vals[7]))
    && s.rec.fields.title == Some(SafeStr(vals[8]))
    && s.rec.fields.assignedTo == Some(SafeStr(vals[9]))
    && s.rec.fields.observation == Some(SafeStr(vals[10]))
  }

  /** The same for written cells, each as it reads back. */
  predicate ReadsAsWritten(s: Step<TicketData>, cells: Row, start: DateTime)
    requires |cells| == 13
  {
    ReadsAs(s, RereadRow(cells), start)
  }

  /** The first thirteen cells of a row, one by one. */
  lemma LeadingCells(vals: Row, cells: Row)
    requires |vals| >= 13 && vals[..13] == cells
    ensures vals[0] == cells[0] && vals[1] == cells[1] && vals[2] == cells[2] && vals[3] == cells[3]
    ensures vals[4] == cells[4] && vals[5] == cells[5] && vals[6] == cells[6] && vals[7] == cells[7]
    ensures vals[8] == cells[8] && vals[9] == cells[9] && vals[10] == cells[10]
    ensures vals[11] == cells[11] && vals[12] == cells[12]
  {
    assert forall c :: 0 <= c < 13 ==> vals[..13][c] == vals[c];
  }

  /**
   * A row that starts with written cells, as they read back, is kept (its
   * start cell is a timestamp) and reads as those cells.
   */
  lemma GmudRowReads(vals: Row, cells: Row, start: DateTime)
    requires |cells| == 13 && cells[5] == Stamp(start)
    requires |vals| >= 13 && vals[..13] == RereadRow(cells)
    ensures ReadsAsWritten(TicketStep(start.year, start.month, vals), cells, start)
  {
    LeadingCells(vals, RereadRow(cells));
    assert vals[5] == Stamp(start);
    assert Take(vals, 10)[5] == Stamp(start);
    assert AnyTruthy(Take(vals, 10));
    var s := TicketStep(start.year, start.month, vals);
    assert s.Keep? && s.rec.fields.startDate == Some(SafeDatetime(Stamp(start)));
  }

  /** With columns 14 onwards blank the written row is classic, so vulnerability and opened-by come back. */
  lemma GmudRowReadsClassic(vals: Row, cells: Row, start: DateTime)
    requires |cells| == 13 && cells[5] == Stamp(start)
    requires |vals| >= 13 && vals[..13] == RereadRow(cells)
    requires forall i :: 13 <= i < |vals| ==> SafeStr(vals[i]) == ""
    ensures var s := TicketStep(start.year, start.month, vals);
            s.Keep? && s.rec.ext == NO_EXTENDED
            && s.rec.fields.vulnerability == Some(SafeStr(Reread(cells[11])))
            && s.rec.fields.openedBy == Some(SafeStr(Reread(cells[12])))
  {
    GmudRowReads(vals, cells, start);
    BlankExtendedColumnsMeanClassic(vals);
    assert vals[11] == vals[..13][11] == Reread(cells[11]);
    assert vals[12] == vals[..13][12] == Reread(cells[12]);
  }

  /** The old row holds nothing in any column the new cells leave `None`. */
  predicate BlankWhereNull(before: Row, cells: Row) {
    forall c :: 0 <= c < |cells| && cells[c].Empty? ==> OldAt(before, c).Empty?
  }

  /** Over a row that is blank wherever the new cells are `None`, the written row starts with the new cells. */
  lemma OverlayOnBlanks(before: Row, cells: Row)
    requires BlankWhereNull(before, cells)
    ensures Overlay(before, cells)[..|cells|] == cells
  {
    var r := Overlay(before, cells);
    assert forall c :: 0 <= c < |cells| ==> r[..|cells|][c] == r[c];
  }

  /** A formula text is never blank, so a cell that reads as blank reads the same after a reload. */
  lemma BlankRereadsBlank(c: Cell)
    ensures SafeStr(c) == "" ==> Reread(c) == c
  {
    if c.Str? && IsFormulaText(c.text) {
      BlankIffStripEmpty(c.text);
      assert !IsBlank(c.text) by { assert !IsPySpace(c.text[0]); }
    }
  }

  /** Columns past the written cells that were blank stay blank after the reload. */
  lemma ReloadedTailBlank(before: Row, cells: Row)
    requires forall i :: |cells| <= i < |before| ==> SafeStr(before[i]) == ""
    ensures var vals := Reloaded(Overlay(before, cells), cells);
            forall i :: |cells| <= i < |vals| ==> SafeStr(vals[i]) == ""
  {
    var o := Overlay(before, cells);
    var vals := Reloaded(o, cells);
    forall i | |cells| <= i < |vals|
      ensures SafeStr(vals[i]) == ""
    {
      assert vals[i] == Reread(before[i]);
      BlankRereadsBlank(before[i]);
    }
  }

  /** Over such a row, the written row reads back as the written cells do, one by one. */
  lemma ReloadedOnBlanks(before: Row, cells: Row)
    requires BlankWhereNull(before, cells)
    ensures var vals := Reloaded(Overlay(before, cells), cells);
            |vals| >= |cells| && vals[..|cells|] == RereadRow(cells)
  {
    OverlayOnBlanks(before, cells);
    var o := Overlay(before, cells);
    var vals := Reloaded(o, cells);
    forall c | 0 <= c < |cells|
      ensures vals[..|cells|][c] == RereadRow(cells)[c]
    {
      assert o[c] == o[..|cells|][c] == cells[c];
    }
  }

  /**
   * A field the form leaves null does not erase the target row: a submission
   * without an assignee keeps whatever column J held.
   */
  lemma NullAssigneeKeepsOldCell(ws: Sheet, r: nat, form: Form, start: DateTime, end: FormValue, dayName: string)
    requires r >= 1
    requires "assigned_to" !in form || form["assigned_to"] == Scalar(Empty)
    requires BindAll(GmudValues(form, start, end, dayName)).Ok?
    ensures CellAt(WriteRow(ws, r, BindAll(GmudValues(form, start, end, dayName)).value), r, 10) == CellAt(ws, r, 10)
  {
    var cells := BindAll(GmudValues(form, start, end, dayName)).value;
    assert cells[9] == Empty;
    WriteRowCells(ws, r, cells, r, 10);
  }

  /**
   * The importer reads a written row back as the cells written, each as it
   * reads back (`Reread`), provided the target row held nothing where a
   * cell was `None` (always so for a row past the end of the sheet): the
   * start date's month, client through observation, the status normalised,
   * the dates as timestamps.
   */
  lemma WrittenRowReadsBack(ws: Sheet, r: nat, cells: Row, start: DateTime)
    requires r >= 2 && |cells| == 13 && cells[5] == Stamp(start)
    ensures var rows := DataRows(WriteRow(ws, r, cells));
            r - 2 < |rows|
    ensures r - 1 >= |ws.rows| ==> BlankWhereNull([], cells)
    ensures var old_ := if r - 1 < |ws.rows| then ws.rows[r - 1] else [];
            BlankWhereNull(old_, cells) ==>
              ReadsAsWritten(TicketStep(start.year, start.month,
                                        Reloaded(DataRows(WriteRow(ws, r, cells))[r - 2], cells)),
                             cells, start)
  {
    var w := WriteRow(ws, r, cells);
    WrittenRowAt(ws, r, cells);
    var old_ := if r - 1 < |ws.rows| then ws.rows[r - 1] else [];
    var row := DataRows(w)[r - 2];
    assert row == Overlay(old_, cells);
    if BlankWhereNull(old_, cells) {
      ReloadedOnBlanks(old_, cells);
      GmudRowReads(Reloaded(row, cells), cells, start);
    }
  }

  /**
   * When the target row also held nothing in columns 14 onwards, the written
   * row is read in the classic layout, so vulnerability and opened-by come
   * back too.
   */
  lemma WrittenRowReadsBackClassic(ws: Sheet, r: nat, cells: Row, start: DateTime)
    requires r >= 2 && |cells| == 13 && cells[5] == Stamp(start)
    requires var old_ := if r - 1 < |ws.rows| then ws.rows[r - 1] else [];
             BlankWhereNull(old_, cells)
             && forall i :: 13 <= i < |old_| ==> SafeStr(old_[i]) == ""
    ensures var rows := DataRows(WriteRow(ws, r, cells));
            r - 2 < |rows|
            && var s := TicketStep(start.year, start.month, Reloaded(rows[r - 2], cells));
               s.Keep? && s.rec.ext == NO_EXTENDED
               && s.rec.fields.vulnerability == Some(SafeStr(Reread(cells[11])))
               && s.rec.fields.openedBy == Some(SafeStr(Reread(cells[12])))
  {
    var w := WriteRow(ws, r, cells);
    WrittenRowAt(ws, r, cells);
    var old_ := if r - 1 < |ws.rows| then ws.rows[r - 1] else [];
    var row := DataRows(w)[r - 2];
    assert row == Overlay(old_, cells);
    ReloadedOnBlanks(old_, cells);
    ReloadedTailBlank(old_, cells);
    GmudRowReadsClassic(Reloaded(row, cells), cells, start);
  }

  /**
   * A stored ticket has thirteen cells, the start timestamp in column 6, and
   * in each column the stored form of the value that column takes.
   */
  lemma BoundFormCells(form: Form, start: DateTime, end: FormValue, dayName: string)
    requires BindAll(GmudValues(form, start, end, dayName)).Ok?
    ensures var cells := BindAll(GmudValues(form, start, end, dayName)).value;
            |cells| == 13 && cells[5] == Stamp(start)
            && forall c :: 0 <= c < 13 ==> Bind(GmudValues(form, start, end, dayName)[c]) == Ok(cells[c])
  {
    var vs := GmudValues(form, start, end, dayName);
    assert Bind(vs[5]) == Ok(Stamp(start));
  }

  /** The cells of the scalar values, `None` for a list or an object. */
  function ScalarCells(vs: seq<FormValue>): (r: Row)
    ensures |r| == |vs|
    ensures forall c :: 0 <= c < |vs| && vs[c].Scalar? ==> r[c] == vs[c].cell
  {
    seq(|vs|, c requires 0 <= c < |vs| => if vs[c].Scalar? then vs[c].cell else Empty)
  }

  /** Plain values bind to their own cells, which read back unchanged. */
  lemma PlainValuesBind(vs: seq<FormValue>)
    requires forall c :: 0 <= c < |vs| ==> PlainValue(vs[c])
    ensures BindAll(vs) == Ok(ScalarCells(vs))
    ensures RereadRow(ScalarCells(vs)) == ScalarCells(vs)
  {
    var cells := ScalarCells(vs);
    forall c | 0 <= c < |vs|
      ensures Bind(vs[c]) == Ok(cells[c]) && Reread(cells[c]) == cells[c]
    {
      PlainValueRoundTrip(vs[c]);
    }
    var b := BindAll(vs);
    assert b.Ok?;
    assert forall c :: 0 <= c < |vs| ==> b.value[c] == cells[c];
    assert b.value == cells;
    var back := RereadRow(cells);
    assert forall c :: 0 <= c < |vs| ==> back[c] == cells[c];
  }

  /**
   * A form whose thirteen values are all plain (no list or object, and no
   * string over 32,767 characters, with a control character or stored as a
   * formula) is written as it is, and the importer reads the row back as the
   * submitted form: client through observation as given or defaulted, the
   * status normalised, the dates as timestamps.
   */
  lemma PlainFormReadsBack(ws: Sheet, r: nat, form: Form, start: DateTime, end: FormValue, dayName: string)
    requires r >= 2
    requires forall c :: 0 <= c < 13 ==> PlainValue(GmudValues(form, start, end, dayName)[c])
    requires BlankWhereNull(if r - 1 < |ws.rows| then ws.rows[r - 1] else [],
                            ScalarCells(GmudValues(form, start, end, dayName)))
    ensures var vs := GmudValues(form, start, end, dayName);
            var cells := ScalarCells(vs);
            BindAll(vs) == Ok(cells)
            && ReadsAs(TicketStep(start.year, start.month,
                                  Reloaded(DataRows(WriteRow(ws, r, cells))[r - 2], cells)),
                       cells, start)
  {
    var vs := GmudValues(form, start, end, dayName);
    var cells := ScalarCells(vs);
    PlainValuesBind(vs);
    assert cells[5] == Stamp(start);
    WrittenRowReadsBack(ws, r, cells, start);
  }
}

=== FILE: extract.dfy ===
/**
 * The row → record mapping of every spreadsheet source: which rows are
 * skipped, which column feeds which field, and which rows are too short for
 * the columns the source reads without a length guard (Python raises
 * IndexError there and the whole import stops).
 */
module Extract {
  import opened Wrappers
  import opened Text
  import opened Cells
  import opened Vocabulary
  import opened Records

  /** What one pass of an import loop body does with a row. */
  datatype Step<T> = Skip | Keep(rec: T) | Fail(message: string)

  /** The IndexError text for a row read as a list of cell values. */
  const LIST_INDEX_ERROR: string := "list index out of range"
  /** The IndexError text for a row read as a tuple of values. */
  const TUPLE_INDEX_ERROR: string := "tuple index out of range"

  /** The records one sheet yields, and the error that stopped the loop, if any. */
  datatype Extraction<T> = Extraction(recs: seq<T>, error: Option<string>)

  /** The records of every kept row of `rows`, in row order; a row that raises contributes nothing. */
  function KeptRecords<T>(rows: seq<Row>, step: Row -> Step<T>): seq<T> {
    if rows == [] then []
    else (if step(rows[0]).Keep? then [step(rows[0]).rec] else []) + KeptRecords(rows[1..], step)
  }

  /** The position of the first row of `rows` that raises, or `|rows|` when none does. */
  function FirstFail<T>(rows: seq<Row>, step: Row -> Step<T>): (n: nat)
    ensures n <= |rows|
    ensures forall i :: 0 <= i < n ==> !step(rows[i]).Fail?
    ensures n < |rows| ==> step(rows[n]).Fail?
  {
    if rows == [] || step(rows[0]).Fail? then 0
    else
      var m := FirstFail(rows[1..], step);
      assert forall i :: 1 <= i < 1 + m ==> rows[i] == rows[1..][i - 1];
      1 + m
  }

  /** Past a first row that does not raise, the rows before the first failure are that row and the rest's. */
  lemma KeptBeforeFailStep<T>(rows: seq<Row>, step: Row -> Step<T>)
    requires rows != [] && !step(rows[0]).Fail?
    ensures FirstFail(rows, step) == 1 + FirstFail(rows[1..], step)
    ensures KeptRecords(rows[..FirstFail(rows, step)], step) ==
              (if step(rows[0]).Keep? then [step(rows[0]).rec] else [])
              + KeptRecords(rows[1..][..FirstFail(rows[1..], step)], step)
  {
    var n := FirstFail(rows, step);
    assert rows[..n][0] == rows[0];
    assert rows[..n][1..] == rows[1..][..n - 1];
  }

  /**
   * What the loop over `rows` yields: the records of the kept rows before the
   * first row that raises, and that row's message, if any.
   */
  ghost predicate Extracts<T>(rows: seq<Row>, step: Row -> Step<T>, e: Extraction<T>) {
    e.recs == KeptRecords(rows[..FirstFail(rows, step)], step)
    && e.error == (if FirstFail(rows, step) < |rows| then Some(step(rows[FirstFail(rows, step)]).message) else None)
    && (e.error.None? <==> forall i :: 0 <= i < |rows| ==> !step(rows[i]).Fail?)
    && (e.error.Some? ==> exists i :: 0 <= i < |rows| && step(rows[i]) == Fail(e.error.value))
    && (forall k :: 0 <= k < |e.recs| ==> exists i :: 0 <= i < |rows| && step(rows[i]) == Keep(e.recs[k]))
    && |e.recs| <= |rows|
  }

  /**
   * The loop over a sheet's rows: records of kept rows in row order, stopping
   * at the first row that raises.
   */
  function ExtractRows<T>(rows: seq<Row>, step: Row -> Step<T>): (e: Extraction<T>)
    ensures e.recs == KeptRecords(rows[..FirstFail(rows, step)], step)
    ensures e.error == if FirstFail(rows, step) < |rows|
                       then Some(step(rows[FirstFail(rows, step)]).message) else None
    ensures e.error.None? <==> forall i :: 0 <= i < |rows| ==> !step(rows[i]).Fail?
    ensures e.error.Some? ==> exists i :: 0 <= i < |rows| && step(rows[i]) == Fail(e.error.value)
    ensures forall k :: 0 <= k < |e.recs| ==>
              exists i :: 0 <= i < |rows| && step(rows[i]) == Keep(e.recs[k])
    ensures |e.recs| <= |rows|
  {
    if rows == [] then Extraction([], None)
    else
      var rest := ExtractRows(rows[1..], step);
      match step(rows[0])
      case Fail(msg) => Extraction([], Some(msg))
      case Skip =>
        SkipExtracts(rows, step, rest);
        rest
      case Keep(rec) =>
        KeepExtracts(rows, step, rest);
        Extraction([rec] + rest.recs, rest.error)
  }

  /** A first row that is skipped adds nothing to what the rest of the rows yield. */
  lemma SkipExtracts<T>(rows: seq<Row>, step: Row -> Step<T>, rest: Extraction<T>)
    requires rows != [] && step(rows[0]).Skip? && Extracts(rows[1..], step, rest)
    ensures Extracts(rows, step, rest)
  {
    KeptBeforeFailStep(rows, step);
    assert forall i :: 1 <= i < |rows| ==> rows[i] == rows[1..][i - 1];
  }

  /** A first row that is kept puts its record in front of what the rest of the rows yield. */
  lemma KeepExtracts<T>(rows: seq<Row>, step: Row -> Step<T>, rest: Extraction<T>)
    requires rows != [] && step(rows[0]).Keep? && Extracts(rows[1..], step, rest)
    ensures Extracts(rows, step, Extraction([step(rows[0]).rec] + rest.recs, rest.error))
  {
    KeptBeforeFailStep(rows, step);
    assert forall i :: 1 <= i < |rows| ==> rows[i] == rows[1..][i - 1];
    var recs := [step(rows[0]).rec] + rest.recs;
    assert forall k :: 1 <= k < |recs| ==> recs[k] == rest.recs[k - 1];
  }

  /** When no row raises, the loop keeps the record of every kept row, in row order. */
  lemma ExtractAllKept<T>(rows: seq<Row>, step: Row -> Step<T>)
    requires forall i :: 0 <= i < |rows| ==> !step(rows[i]).Fail?
    ensures ExtractRows(rows, step) == Extraction(KeptRecords(rows, step), None)
  {
    assert rows[..|rows|] == rows;
  }

  /** A property every kept record has also holds of every extracted record. */
  lemma ExtractedSatisfy<T>(rows: seq<Row>, step: Row -> Step<T>, P: T -> bool)
    requires forall row :: step(row).Keep? ==> P(step(row).rec)
    ensures forall k :: 0 <= k < |ExtractRows(rows, step).recs| ==> P(ExtractRows(rows, step).recs[k])
  {
    var e := ExtractRows(rows, step);
    forall k | 0 <= k < |e.recs|
      ensures P(e.recs[k])
    {
      var i :| 0 <= i < |rows| && step(rows[i]) == Keep(e.recs[k]);
    }
  }

  /** A length-guarded text column: the `safe_str` of column `k`, or "" when the row is shorter. */
  function StrAt(vals: Row, k: nat): (r: string)
    ensures k < |vals| ==> r == SafeStr(vals[k])
    ensures k >= |vals| ==> r == ""
  {
    if k < |vals| then SafeStr(vals[k]) else ""
  }

  /** A length-guarded date column: the `safe_datetime` of column `k`, or "" when the row is shorter. */
  function DatetimeAt(vals: Row, k: nat): (r: string)
    ensures k < |vals| ==> r == SafeDatetime(vals[k])
    ensures k >= |vals| ==> r == ""
  {
    if k < |vals| then SafeDatetime(vals[k]) else ""
  }

  /** The normalised texts of a row's first `n` columns, "" for each column past its end. */
  function CellTexts(vals: Row, n: nat): (r: seq<string>)
    ensures |r| == n
    ensures forall k :: 0 <= k < n ==> r[k] == StrAt(vals, k)
  {
    seq(n, k requires 0 <= k < n => StrAt(vals, k))
  }

  // ---------------------------------------------------------------------------
  // Oracle inventory
  // ---------------------------------------------------------------------------

  /** Standby cells that mean "no standby". */
  const NO_STANDBY: set<string> := {"N/A", "", "None"}

  /** One row of the Oracle inventory sheet. */
  function ServerStep(vals: Row): (s: Step<Server>)
    ensures s.Skip? <==> !AnyTruthy(Take(vals, 5))
    ensures s.Fail? <==> AnyTruthy(Take(vals, 5)) && |vals| < 14
    ensures s.Fail? ==> s.message == LIST_INDEX_ERROR
    ensures s.Keep? ==> s.rec.primaryHostname == SafeStr(vals[1]) && s.rec.standbyHostname == SafeStr(vals[2])
    ensures s.Keep? ==> (s.rec.hasStandby == 1 <==> s.rec.standbyHostname !in NO_STANDBY)
    ensures s.Keep? ==> s.rec.hasStandby in {0, 1} && s.rec.hasGgs in {0, 1}
    ensures s.Keep? ==> s.rec.totalServers == 1 + s.rec.hasStandby
    ensures s.Keep? ==> (s.rec.hasGgs == 1 <==>
                         Contains(s.rec.primaryHostname, "(G)") || Contains(s.rec.standbyHostname, "(G)"))
    ensures s.Keep? ==> Lower(s.rec.psuVersion) != "descontinuado"
    ensures s.Keep? && Lower(SafeStr(vals[3])) != "descontinuado" ==> s.rec.psuVersion == SafeStr(vals[3])
    ensures s.Keep? ==> ServerColumns(s.rec) == CellTexts(vals, 14)[3 := s.rec.psuVersion]
  {
    if !AnyTruthy(Take(vals, 5)) then Skip
    else if |vals| < 14 then Fail(LIST_INDEX_ERROR)
    else
      var primary := SafeStr(vals[1]);
      var standby := SafeStr(vals[2]);
      var hasStandby := if standby != "" && standby !in NO_STANDBY then 1 else 0;
      var hasGgs := if Contains(primary, "(G)") || Contains(standby, "(G)") then 1 else 0;
      var psu := SafeStr(vals[3]);
      var psuVersion := if Lower(psu) == "descontinuado" then "" else psu;
      Keep(ServerOf(CellTexts(vals, 14)[3 := psuVersion], if hasStandby == 1 then 2 else 1, hasStandby, hasGgs))
  }

  // ---------------------------------------------------------------------------
  // Legacy CMDB
  // ---------------------------------------------------------------------------

  /** One row of the legacy CMDB sheet: columns 0-23, all read without a guard. */
  function LegacyCmdbStep(vals: Row): (s: Step<LegacyCmdb>)
    ensures s.Skip? <==> !AnyTruthy(Take(vals, 5))
    ensures s.Fail? <==> AnyTruthy(Take(vals, 5)) && |vals| < 24
    ensures s.Fail? ==> s.message == LIST_INDEX_ERROR
    ensures s.Keep? ==> s.rec.environment == SafeStr(vals[0]) && s.rec.name == SafeStr(vals[1])
                        && s.rec.dbType == SafeStr(vals[3]) && s.rec.status == SafeStr(vals[6])
                        && s.rec.ipAddress == SafeStr(vals[23])
    ensures s.Keep? ==> LegacyCmdbColumns(s.rec) == CellTexts(vals, 24)
  {
    if !AnyTruthy(Take(vals, 5)) then Skip
    else if |vals| < 24 then Fail(LIST_INDEX_ERROR)
    else
      Keep(LegacyCmdbOf(CellTexts(vals, 24)))
  }

  // ---------------------------------------------------------------------------
  // Monthly ticket sheets
  // ---------------------------------------------------------------------------

  function Min(a: int, b: int): int {
    if a < b then a else b
  }

  /**
   * Layout detection: a row is in the extended layout when it has more than
   * 13 cells and one of columns 13 .. min(18, len) - 1 is non-blank.
   */
  predicate IsExtended(vals: Row) {
    |vals| > 13 && exists i :: 13 <= i < Min(18, |vals|) && SafeStr(vals[i]) != ""
  }

  /** One row of a monthly ticket sheet whose table entry is (`year`, `month`). */
  function TicketStep(year: int, month: int, vals: Row): (s: Step<TicketData>)
    ensures s.Skip? <==> !AnyTruthy(Take(vals, 10))
    ensures s.Fail? <==> AnyTruthy(Take(vals, 10)) && |vals| < 10
    ensures s.Fail? ==> s.message == LIST_INDEX_ERROR
    ensures s.Keep? ==> s.rec.year == year && s.rec.month == month
    ensures s.Keep? ==> s.rec.fields.status == Some(NormalizeGmudStatus(SafeStr(vals[3])))
    ensures s.Keep? ==> s.rec.fields.startDate == Some(SafeDatetime(vals[5]))
                        && s.rec.fields.endDate == Some(SafeDatetime(vals[6]))
    ensures s.Keep? && IsExtended(vals) ==>
              s.rec.fields.vulnerability == Some("") && s.rec.fields.openedBy == Some("")
              && s.rec.ext.vulnerabilityBefore == SafeStr(vals[11])
              && s.rec.ext.closingCode == SafeStr(vals[13])
              && s.rec.ext.newGmud == StrAt(vals, 17)
    ensures s.Keep? ==> s.rec.dayOfWeek == SafeStr(vals[4])
    ensures s.Keep? ==> s.rec.fields.client == Some(SafeStr(vals[0])) && s.rec.fields.dbType == Some(SafeStr(vals[1]))
                        && s.rec.fields.environment == Some(SafeStr(vals[2]))
    ensures s.Keep? ==> s.rec.fields.changeNumber == Some(SafeStr(vals[7])) && s.rec.fields.title == Some(SafeStr(vals[8]))
                        && s.rec.fields.assignedTo == Some(SafeStr(vals[9]))
                        && s.rec.fields.observation == Some(StrAt(vals, 10))
    ensures s.Keep? && IsExtended(vals) ==>
              s.rec.ext == ExtendedFields(SafeStr(vals[11]), SafeStr(vals[12]), SafeStr(vals[13]), StrAt(vals, 14),
                                          DatetimeAt(vals, 15), DatetimeAt(vals, 16), StrAt(vals, 17))
    ensures s.Keep? && !IsExtended(vals) ==>
              s.rec.ext == NO_EXTENDED
              && s.rec.fields.vulnerability == Some(StrAt(vals, 11))
              && s.rec.fields.openedBy == Some(StrAt(vals, 12))
  {
    if !AnyTruthy(Take(vals, 10)) then Skip
    else if |vals| < 10 then Fail(LIST_INDEX_ERROR)
    else
      var extended := IsExtended(vals);
      var fields := TicketFields(
        Some(SafeStr(vals[0])), Some(SafeStr(vals[1])), Some(SafeStr(vals[2])),
        Some(NormalizeGmudStatus(SafeStr(vals[3]))),
        Some(SafeDatetime(vals[5])), Some(SafeDatetime(vals[6])),
        Some(SafeStr(vals[7])), Some(SafeStr(vals[8])), Some(SafeStr(vals[9])),
        Some(StrAt(vals, 10)),
        Some(if extended then "" else StrAt(vals, 11)),
        Some(if extended then "" else StrAt(vals, 12)));
      var ext := if extended then
          ExtendedFields(StrAt(vals, 11), StrAt(vals, 12), StrAt(vals, 13), StrAt(vals, 14),
                         DatetimeAt(vals, 15), DatetimeAt(vals, 16), StrAt(vals, 17))
        else NO_EXTENDED;
      Keep(TicketData(year, month, SafeStr(vals[4]), fields, ext))
  }

  /** A kept ticket's status is never blank: a blank status cell reads as "NOVO". */
  lemma TicketStatusNeverBlank(year: int, month: int, vals: Row)
    requires TicketStep(year, month, vals).Keep?
    ensures TicketStep(year, month, vals).rec.fields.status.Some?
    ensures TicketStep(year, month, vals).rec.fields.status.value != ""
    ensures IsBlank(SafeStr(vals[3])) ==> TicketStep(year, month, vals).rec.fields.status == Some("NOVO")
  {
    GmudStatusNeverEmpty(SafeStr(vals[3]));
  }

  /** A row whose extended columns are all blank reads in the classic layout. */
  lemma BlankExtendedColumnsMeanClassic(vals: Row)
    requires forall i :: 13 <= i < |vals| ==> SafeStr(vals[i]) == ""
    ensures !IsExtended(vals)
  {
  }

  // ---------------------------------------------------------------------------
  // Planning and PagoNxt inventory
  // ---------------------------------------------------------------------------

  /** One row of the planning sheet: columns 0-9 unguarded, 10-15 guarded. */
  function PlanningStep(vals: Row): (s: Step<Planning>)
    ensures s.Skip? <==> !AnyTruthy(Take(vals, 5))
    ensures s.Fail? <==> AnyTruthy(Take(vals, 5)) && |vals| < 10
    ensures s.Fail? ==> s.message == LIST_INDEX_ERROR
    ensures s.Keep? ==> s.rec.hostname == SafeStr(vals[0]) && s.rec.system == SafeStr(vals[9])
                        && s.rec.systemProduct == StrAt(vals, 10)
                        && s.rec.validationContact == StrAt(vals, 15)
    ensures s.Keep? ==> PlanningColumns(s.rec) == CellTexts(vals, 16)
  {
    if !AnyTruthy(Take(vals, 5)) then Skip
    else if |vals| < 10 then Fail(LIST_INDEX_ERROR)
    else
      Keep(PlanningOf(CellTexts(vals, 16)))
  }

  /** One row of the PagoNxt inventory sheet: columns 0-9 unguarded, 10-14 guarded. */
  function PagoNxtStep(vals: Row): (s: Step<PagoNxtDb>)
    ensures s.Skip? <==> !AnyTruthy(Take(vals, 5))
    ensures s.Fail? <==> AnyTruthy(Take(vals, 5)) && |vals| < 10
    ensures s.Fail? ==> s.message == LIST_INDEX_ERROR
    ensures s.Keep? ==> s.rec.environment == SafeStr(vals[0]) && s.rec.name == SafeStr(vals[1])
                        && s.rec.service == SafeStr(vals[9])
                        && s.rec.observation == StrAt(vals, 10) && s.rec.os == StrAt(vals, 14)
    ensures s.Keep? ==> PagoNxtColumns(s.rec) == CellTexts(vals, 15)
  {
    if !AnyTruthy(Take(vals, 5)) then Skip
    else if |vals| < 10 then Fail(LIST_INDEX_ERROR)
    else
      Keep(PagoNxtDbOf(CellTexts(vals, 15)))
  }

  // ---------------------------------------------------------------------------
  // Full CMDB (GetNet Brasil and LATAM sheets)
  // ---------------------------------------------------------------------------

  const GETNET_FULL_SHEET: string := "CMDB Geral GETNET Brasil"
  const LATAM_FULL_SHEET: string := "CMDB Geral LATAM"

  /** The raw database-product cell of a full-CMDB row (column 11), "" when falsy. */
  function RawDbType(row: Row): string
    requires |row| > 11
  {
    if Truthy(row[11]) then Strip(SafeStr(row[11])) else ""
  }

  /** The rule both full-CMDB sheets share for dropping a row that is not a database server. */
  predicate NotADatabase(raw: string) {
    raw == "" || raw == "None" || raw == "N/A" || NormalizeDbType(raw) == ""
  }

  /**
   * The database product a full-CMDB row is kept under: `None` for a row that
   * is not a database server, otherwise the normalised, non-empty product.
   */
  function FullCmdbDbType(row: Row): (r: Option<string>)
    requires |row| > 11
    ensures r.None? <==> NotADatabase(RawDbType(row))
    ensures r.Some? ==> r.value != "" && r.value == NormalizeDbType(RawDbType(row))
  {
    var raw := RawDbType(row);
    if raw == "" || raw == "None" || raw == "N/A" then None
    else
      var dbType := NormalizeDbType(raw);
      if dbType == "" then None else Some(dbType)
  }

  /** The record a kept GetNet full-CMDB row inserts. */
  function GetNetFullRecord(row: Row, dbType: string): (r: CmdbFull)
    requires |row| >= 28
    ensures r.client == "GetNet" && r.dbType == dbType && r.hostname == SafeStr(row[8])
    ensures r.status == NormalizeCmdbStatus(SafeStr(row[18])) && r.environment == SafeStr(row[20])
    ensures r.zone.None? && r.country.None? && r.sourceSheet == GETNET_FULL_SHEET
  {
    CmdbFull(
      "GetNet", SafeStr(row[8]), SafeStr(row[9]), dbType, SafeStr(row[12]),
      NormalizeCmdbStatus(SafeStr(row[18])),
      SafeStr(row[19]), SafeStr(row[20]), SafeStr(row[21]), SafeStr(row[22]),
      SafeStr(row[23]), SafeStr(row[24]), SafeStr(row[25]), SafeStr(row[26]),
      SafeStr(row[27]),
      StrAt(row, 28), StrAt(row, 29), StrAt(row, 30), StrAt(row, 32),
      StrAt(row, 33), StrAt(row, 34), StrAt(row, 35), StrAt(row, 36),
      StrAt(row, 37), StrAt(row, 38), StrAt(row, 39), StrAt(row, 40),
      StrAt(row, 41), StrAt(row, 53), StrAt(row, 54), StrAt(row, 55),
      None, None, GETNET_FULL_SHEET)
  }

  /** The record a kept LATAM full-CMDB row inserts. */
  function LatamFullRecord(row: Row, dbType: string): (r: CmdbFull)
    requires |row| >= 28
    ensures r.client == "PagoNxt" && r.dbType == dbType && r.hostname == SafeStr(row[8])
    ensures r.status == NormalizeCmdbStatus(SafeStr(row[20])) && r.environment == SafeStr(row[22])
    ensures r.zone == Some(SafeStr(row[18])) && r.country == Some(SafeStr(row[19]))
    ensures r.sourceSheet == LATAM_FULL_SHEET
  {
    CmdbFull(
      "PagoNxt", SafeStr(row[8]), SafeStr(row[9]), dbType, SafeStr(row[12]),
      NormalizeCmdbStatus(SafeStr(row[20])),
      SafeStr(row[21]), SafeStr(row[22]), SafeStr(row[23]), SafeStr(row[24]),
      SafeStr(row[25]), SafeStr(row[26]), SafeStr(row[27]),
      StrAt(row, 28), StrAt(row, 29), StrAt(row, 30), StrAt(row, 31),
      StrAt(row, 32), StrAt(row, 34), StrAt(row, 35), StrAt(row, 36),
      StrAt(row, 37), StrAt(row, 38), StrAt(row, 39), StrAt(row, 40),
      StrAt(row, 41), StrAt(row, 42), StrAt(row, 43), StrAt(row, 55),
      StrAt(row, 56), StrAt(row, 57),
      Some(StrAt(row, 18)), Some(StrAt(row, 19)), LATAM_FULL_SHEET)
  }

  /**
   * One row of a full-CMDB sheet: column 11 is read first, a row that is not
   * a database server is skipped, and a kept row needs columns up to 27.
   */
  function FullCmdbStep(row: Row, latam: bool): (s: Step<CmdbFull>)
    ensures |row| <= 11 ==> s == Fail(TUPLE_INDEX_ERROR)
    ensures |row| > 11 ==> (s.Skip? <==> FullCmdbDbType(row).None?)
    ensures s.Fail? ==> s.message == TUPLE_INDEX_ERROR && |row| < 28
    ensures s.Keep? ==> |row| >= 28 && FullCmdbDbType(row).Some?
    ensures s.Keep? && !latam ==> s.rec == GetNetFullRecord(row, FullCmdbDbType(row).value)
    ensures s.Keep? && latam ==> s.rec == LatamFullRecord(row, FullCmdbDbType(row).value)
  {
    if |row| <= 11 then Fail(TUPLE_INDEX_ERROR)
    else
      var kept := FullCmdbDbType(row);
      if kept.None? then Skip
      else if |row| < 28 then Fail(TUPLE_INDEX_ERROR)
      else if latam then Keep(LatamFullRecord(row, kept.value))
      else Keep(GetNetFullRecord(row, kept.value))
  }

  /** Every kept full-CMDB record names a database product and one of the two clients. */
  lemma FullCmdbKeptInvariant(row: Row, latam: bool)
    requires FullCmdbStep(row, latam).Keep?
    ensures FullCmdbStep(row, latam).rec.dbType != ""
    ensures FullCmdbStep(row, latam).rec.client == (if latam then "PagoNxt" else "GetNet")
    ensures !NotADatabase(RawDbType(row))
  {
  }
}

=== FILE: headers.dfy ===
/**
 * The header survey of the scan workbooks: for every sheet, the first of its
 * top ten rows with more than three non-blank cells is taken as its header
 * row, and its non-blank cells, as text, are the sheet's headers.
 */
module Headers {
  import opened Wrappers
  import opened Text
  import opened Cells
  import opened Workbook

  /** Only the top rows of a sheet are examined. */
  const SCANNED_ROWS := 10

  /** A row is taken as the header row when it has more than this many non-blank cells. */
  const MIN_HEADER_CELLS := 3

  /** A cell counts when it holds a value whose text is not blank. */
  predicate Filled(c: Cell) {
    !c.Empty? && Strip(PyStr(c)) != ""
  }

  /** The text of the counted cells of a row, in column order and unstripped. */
  function FilledTexts(row: Row): (r: seq<string>)
    ensures |r| <= |row|
    ensures forall k :: 0 <= k < |r| ==> Strip(r[k]) != ""
  {
    if row == [] then []
    else (if Filled(row[0]) then [PyStr(row[0])] else []) + FilledTexts(row[1..])
  }

  /** Every counted cell appears, in order: the texts are exactly the counted cells' texts. */
  lemma {:induction false} FilledTextsAreTheFilledCells(row: Row)
    ensures FilledTexts(row) == Texts(FilledCells(row))
  {
    if row != [] {
      FilledTextsAreTheFilledCells(row[1..]);
      if Filled(row[0]) {
        assert FilledCells(row) == [row[0]] + FilledCells(row[1..]);
        assert Texts([row[0]] + FilledCells(row[1..])) == [PyStr(row[0])] + Texts(FilledCells(row[1..]));
      }
    }
  }

  /** The counted cells of a row, in column order. */
  function FilledCells(row: Row): (r: seq<Cell>)
    ensures forall c :: c in r <==> c in row && Filled(c)
  {
    if row == [] then []
    else (if Filled(row[0]) then [row[0]] else []) + FilledCells(row[1..])
  }

  function Texts(cells: seq<Cell>): (r: seq<string>)
    ensures |r| == |cells|
    ensures forall k :: 0 <= k < |cells| ==> r[k] == PyStr(cells[k])
  {
    if cells == [] then [] else [PyStr(cells[0])] + Texts(cells[1..])
  }

  predicate IsHeaderRow(row: Row) {
    |FilledTexts(row)| > MIN_HEADER_CELLS
  }

  /** The first header row among `rows`, as its texts; none gives the empty list. */
  function FirstHeader(rows: seq<Row>): (r: seq<string>)
    ensures r == [] <==> forall i :: 0 <= i < |rows| ==> !IsHeaderRow(rows[i])
    ensures r != [] ==> exists i :: 0 <= i < |rows| && IsHeaderRow(rows[i]) && r == FilledTexts(rows[i])
                                    && forall j :: 0 <= j < i ==> !IsHeaderRow(rows[j])
  {
    if rows == [] then []
    else if IsHeaderRow(rows[0]) then FilledTexts(rows[0])
    else
      var rest := FirstHeader(rows[1..]);
      assert forall i :: 1 <= i < |rows| ==> rows[i] == rows[1..][i - 1];
      if rest != [] then
        ghost var i :| 0 <= i < |rows[1..]| && IsHeaderRow(rows[1..][i]) && rest == FilledTexts(rows[1..][i])
                       && forall j :: 0 <= j < i ==> !IsHeaderRow(rows[1..][j]);
        assert rows[i + 1] == rows[1..][i];
        rest
      else rest
  }

  /** The rows the survey examines: worksheet rows 1 to 10, or fewer on a short sheet. */
  function TopRows(ws: Sheet): (r: seq<Row>)
    ensures |r| == if |ws.rows| < SCANNED_ROWS then |ws.rows| else SCANNED_ROWS
    ensures r == ws.rows[..|r|]
  {
    if |ws.rows| < SCANNED_ROWS then ws.rows else ws.rows[..SCANNED_ROWS]
  }

  /**
   * A sheet's headers: the counted cells of the first of its top ten rows
   * with more than three of them, or nothing when no top row has that many.
   */
  function SheetHeaders(ws: Sheet): (r: seq<string>)
    ensures r == [] <==> forall i :: 0 <= i < |ws.rows| && i < SCANNED_ROWS ==> !IsHeaderRow(ws.rows[i])
    ensures r != [] ==> |r| > MIN_HEADER_CELLS
                        && exists i :: 0 <= i < |ws.rows| && i < SCANNED_ROWS && r == FilledTexts(ws.rows[i])
                                       && forall j :: 0 <= j < i ==> !IsHeaderRow(ws.rows[j])
  {
    var top := TopRows(ws);
    var r := FirstHeader(top);
    assert forall i :: 0 <= i < |top| ==> top[i] == ws.rows[i];
    r
  }

  /** Rows below the tenth never matter: a sheet's headers depend on its top ten rows only. */
  lemma HeadersIgnoreLowerRows(ws: Sheet, more: seq<Row>)
    requires |ws.rows| >= SCANNED_ROWS
    ensures SheetHeaders(ws.(rows := ws.rows + more)) == SheetHeaders(ws)
  {
    var ws2 := ws.(rows := ws.rows + more);
    assert TopRows(ws2) == TopRows(ws);
  }

  /** What the survey records for one file: each sheet's headers, or the error that stopped it. */
  datatype FileSurvey = Surveyed(sheets: seq<(string, seq<string>)>) | SurveyError(message: string)

  /**
   * One file of the survey: a workbook that cannot be read is recorded as
   * "Error: " and the exception's text; otherwise every sheet in tab order
   * with its headers.
   */
  function SurveyFile(loaded: Result<Book>): (s: FileSurvey)
    ensures loaded.Raised? ==> s == SurveyError("Error: " + loaded.message)
    ensures loaded.Ok? ==> s.Surveyed? && |s.sheets| == |loaded.value|
    ensures loaded.Ok? ==> forall k :: 0 <= k < |loaded.value| ==>
              s.sheets[k] == (loaded.value[k].name, SheetHeaders(loaded.value[k]))
  {
    match loaded
    case Raised(m) => SurveyError("Error: " + m)
    case Ok(book) => Surveyed(seq(|book|, k requires 0 <= k < |book| => (book[k].name, SheetHeaders(book[k]))))
  }
}

=== FILE: load.dfy ===
/**
 * The two import runs: the main workbook (server inventory, legacy CMDB,
 * monthly tickets, planning, PagoNxt inventory) and the full CMDB workbook.
 * Each importer empties its table and reloads it from one worksheet; what
 * survives a failure follows the runs' commit points.
 */
module Load {
  import opened Wrappers
  import opened Text
  import opened Cells
  import opened Workbook
  import opened MonthSheets
  import opened Records
  import opened Extract

  const SERVERS_SHEET: string := "GetNet - Oracle Databases"
  const CMDB_SHEET: string := "GetNet CMDB - Databases"
  const PLANNING_SHEET: string := "Planejamento oracle"
  const PAGONXT_SHEET: string := "PagoNxt - Databases"

  /**
   * How one importer ends: with the number of rows it inserted, or raising,
   * together with the (not yet committed) state of the connection.
   */
  datatype Outcome = Done(db: Db, count: nat) | Crashed(db: Db, message: string)

  /** What reloading one table from one worksheet leaves in the table. */
  datatype Refresh<T> = Refresh(table: seq<T>, count: nat, error: Option<string>)

  /**
   * A single-sheet importer: a missing sheet leaves the table alone and
   * counts 0; otherwise the table is emptied and refilled with the kept rows,
   * up to the first row that raises.
   */
  function RefreshTable<T>(book: Book, name: string, step: Row -> Step<T>, current: seq<T>): (r: Refresh<T>)
    ensures name !in SheetNames(book) ==> r == Refresh(current, 0, None)
    ensures name in SheetNames(book) ==>
              var rows := DataRows(GetSheet(book, name).value);
              r.table == ExtractRows(rows, step).recs
              && (r.error.None? <==> forall i :: 0 <= i < |rows| ==> !step(rows[i]).Fail?)
    ensures r.error.Some? ==> name in SheetNames(book)
    ensures r.error.None? && name in SheetNames(book) ==> r.count == |r.table|
  {
    match GetSheet(book, name)
    case None => Refresh(current, 0, None)
    case Some(ws) =>
      var e := ExtractRows(DataRows(ws), step);
      Refresh(e.recs, if e.error.None? then |e.recs| else 0, e.error)
  }

  /** Turns a refresh into an importer outcome over the updated state. */
  function Finish<T>(db: Db, r: Refresh<T>): (o: Outcome)
    ensures o.db == db
    ensures o.Done? <==> r.error.None?
    ensures o.Done? ==> o.count == r.count
  {
    if r.error.Some? then Crashed(db, r.error.value) else Done(db, r.count)
  }

  /** `import_servers`. */
  function ImportServers(book: Book, db: Db): (o: Outcome)
    ensures o.db == db.(servers := o.db.servers)
    ensures SERVERS_SHEET !in SheetNames(book) ==> o == Done(db, 0)
    ensures SERVERS_SHEET in SheetNames(book) ==>
              o.db.servers == ExtractRows(DataRows(GetSheet(book, SERVERS_SHEET).value), ServerStep).recs
    ensures o.Done? && SERVERS_SHEET in SheetNames(book) ==> o.count == |o.db.servers|
  {
    var r := RefreshTable(book, SERVERS_SHEET, ServerStep, db.servers);
    Finish(db.(servers := r.table), r)
  }

  /** `import_cmdb`. */
  function ImportCmdb(book: Book, db: Db): (o: Outcome)
    ensures o.db == db.(cmdb := o.db.cmdb)
    ensures CMDB_SHEET !in SheetNames(book) ==> o == Done(db, 0)
    ensures CMDB_SHEET in SheetNames(book) ==>
              o.db.cmdb == ExtractRows(DataRows(GetSheet(book, CMDB_SHEET).value), LegacyCmdbStep).recs
    ensures o.Done? && CMDB_SHEET in SheetNames(book) ==> o.count == |o.db.cmdb|
  {
    var r := RefreshTable(book, CMDB_SHEET, LegacyCmdbStep, db.cmdb);
    Finish(db.(cmdb := r.table), r)
  }

  /** `import_planning`. */
  function ImportPlanning(book: Book, db: Db): (o: Outcome)
    ensures o.db == db.(planning := o.db.planning)
    ensures PLANNING_SHEET !in SheetNames(book) ==> o == Done(db, 0)
    ensures PLANNING_SHEET in SheetNames(book) ==>
              o.db.planning == ExtractRows(DataRows(GetSheet(book, PLANNING_SHEET).value), PlanningStep).recs
    ensures o.Done? && PLANNING_SHEET in SheetNames(book) ==> o.count == |o.db.planning|
  {
    var r := RefreshTable(book, PLANNING_SHEET, PlanningStep, db.planning);
    Finish(db.(planning := r.table), r)
  }

  /** `import_pagonxt`. */
  function ImportPagoNxt(book: Book, db: Db): (o: Outcome)
    ensures o.db == db.(pagonxt := o.db.pagonxt)
    ensures PAGONXT_SHEET !in SheetNames(book) ==> o == Done(db, 0)
    ensures PAGONXT_SHEET in SheetNames(book) ==>
              o.db.pagonxt == ExtractRows(DataRows(GetSheet(book, PAGONXT_SHEET).value), PagoNxtStep).recs
    ensures o.Done? && PAGONXT_SHEET in SheetNames(book) ==> o.count == |o.db.pagonxt|
  {
    var r := RefreshTable(book, PAGONXT_SHEET, PagoNxtStep, db.pagonxt);
    Finish(db.(pagonxt := r.table), r)
  }

  /** Every server an import stores counts itself and its standby, and carries 0/1 flags. */
  lemma ImportedServersConsistent(book: Book, db: Db)
    requires SERVERS_SHEET in SheetNames(book)
    ensures forall k :: 0 <= k < |ImportServers(book, db).db.servers| ==>
              var s := ImportServers(book, db).db.servers[k];
              s.hasStandby in {0, 1} && s.hasGgs in {0, 1} && s.totalServers == 1 + s.hasStandby
  {
    var rows := DataRows(GetSheet(book, SERVERS_SHEET).value);
    ExtractedSatisfy(rows, ServerStep,
      (s: Server) => s.hasStandby in {0, 1} && s.hasGgs in {0, 1} && s.totalServers == 1 + s.hasStandby);
  }

  // ---------------------------------------------------------------------------
  // Monthly tickets
  // ---------------------------------------------------------------------------

  /** The payloads of stored tickets, without their keys. */
  function Payloads(ts: seq<Ticket>): (r: seq<TicketData>)
    ensures |r| == |ts|
    ensures forall i :: 0 <= i < |ts| ==> r[i] == ts[i].data
  {
    seq(|ts|, i requires 0 <= i < |ts| => ts[i].data)
  }

  /** Inserting tickets: each takes the next key of the counter. */
  function AppendTickets(db: Db, datas: seq<TicketData>): (r: Db)
    ensures r == db.(gmuds := r.gmuds, nextTicketId := r.nextTicketId)
    ensures r.nextTicketId == db.nextTicketId + |datas|
    ensures |r.gmuds| == |db.gmuds| + |datas| && r.gmuds[..|db.gmuds|] == db.gmuds
    ensures forall i :: 0 <= i < |datas| ==> r.gmuds[|db.gmuds| + i] == Ticket(db.nextTicketId + i, datas[i])
  {
    db.(gmuds := db.gmuds + seq(|datas|, i requires 0 <= i < |datas| => Ticket(db.nextTicketId + i, datas[i])),
        nextTicketId := db.nextTicketId + |datas|)
  }

  /** The tickets appended after position `from` carry consecutive keys starting at `first`. */
  predicate FreshKeys(gmuds: seq<Ticket>, from: nat, first: nat)
    requires from <= |gmuds|
  {
    forall i :: from <= i < |gmuds| ==> gmuds[i].id == first + (i - from)
  }

  /** The tickets one month sheet yields, each tagged with the sheet's year and month. */
  function MonthTickets(ws: Sheet, ym: YearMonth): (e: Extraction<TicketData>)
    ensures forall k :: 0 <= k < |e.recs| ==> e.recs[k].year == ym.year && e.recs[k].month == ym.month
  {
    var step := (row: Row) => TicketStep(ym.year, ym.month, row);
    ExtractedSatisfy(DataRows(ws), step, (t: TicketData) => t.year == ym.year && t.month == ym.month);
    ExtractRows(DataRows(ws), step)
  }

  /** Ticket `t` carries the month of an entry whose sheet the workbook has. */
  predicate TaggedFrom(t: TicketData, book: Book, entries: seq<(string, YearMonth)>) {
    exists k :: 0 <= k < |entries| && entries[k].0 in SheetNames(book) && entries[k].1 == YearMonth(t.year, t.month)
  }

  /** Every ticket of `ts` is tagged from `entries`. */
  predicate AllTagged(ts: seq<Ticket>, book: Book, entries: seq<(string, YearMonth)>) {
    forall i :: 0 <= i < |ts| ==> TaggedFrom(ts[i].data, book, entries)
  }

  /** A tag from the rest of the table is a tag from the whole table. */
  lemma TaggedFromTail(book: Book, entries: seq<(string, YearMonth)>, ts: seq<Ticket>)
    requires entries != []
    requires AllTagged(ts, book, entries[1..])
    ensures AllTagged(ts, book, entries)
  {
    forall i | 0 <= i < |ts|
      ensures TaggedFrom(ts[i].data, book, entries)
    {
      var k :| 0 <= k < |entries[1..]| && entries[1..][k].0 in SheetNames(book)
               && entries[1..][k].1 == YearMonth(ts[i].data.year, ts[i].data.month);
      assert entries[k + 1] == entries[1..][k];
    }
  }

  /** Consecutive keys from `first` are strictly increasing and below `first + |gmuds|`. */
  lemma FreshKeysOrdered(gmuds: seq<Ticket>, first: nat)
    requires FreshKeys(gmuds, 0, first)
    ensures TicketKeysOrdered(gmuds, first + |gmuds|)
    ensures forall i :: 0 <= i < |gmuds| ==> gmuds[i].id >= first
  {
  }

  /**
   * The loop over the month table: every listed sheet that the workbook has
   * appends its kept rows, each under the next key of the counter.
   */
  function ImportTicketSheets(book: Book, entries: seq<(string, YearMonth)>, db: Db): (o: Outcome)
    ensures o.db == db.(gmuds := o.db.gmuds, nextTicketId := o.db.nextTicketId)
    ensures |db.gmuds| <= |o.db.gmuds| && o.db.gmuds[..|db.gmuds|] == db.gmuds
    ensures o.db.nextTicketId == db.nextTicketId + (|o.db.gmuds| - |db.gmuds|)
    ensures FreshKeys(o.db.gmuds, |db.gmuds|, db.nextTicketId)
    ensures o.Done? ==> o.count == |o.db.gmuds| - |db.gmuds|
    decreases |entries|
  {
    if entries == [] then Done(db, 0)
    else
      match GetSheet(book, entries[0].0)
      case None => ImportTicketSheets(book, entries[1..], db)
      case Some(ws) =>
        var e := MonthTickets(ws, entries[0].1);
        var db1 := AppendTickets(db, e.recs);
        if e.error.Some? then Crashed(db1, e.error.value)
        else
          var o := ImportTicketSheets(book, entries[1..], db1);
          AppendedTwice(db, db1, o.db);
          match o
          case Done(db2, n) => Done(db2, |e.recs| + n)
          case Crashed(_, _) => o
  }

  /** Appending tickets after appending tickets is one append with consecutive keys. */
  lemma AppendedTwice(db: Db, db1: Db, db2: Db)
    requires db1 == db.(gmuds := db1.gmuds, nextTicketId := db1.nextTicketId)
    requires |db.gmuds| <= |db1.gmuds| && db1.gmuds[..|db.gmuds|] == db.gmuds
    requires db1.nextTicketId == db.nextTicketId + (|db1.gmuds| - |db.gmuds|)
    requires FreshKeys(db1.gmuds, |db.gmuds|, db.nextTicketId)
    requires db2 == db1.(gmuds := db2.gmuds, nextTicketId := db2.nextTicketId)
    requires |db1.gmuds| <= |db2.gmuds| && db2.gmuds[..|db1.gmuds|] == db1.gmuds
    requires db2.nextTicketId == db1.nextTicketId + (|db2.gmuds| - |db1.gmuds|)
    requires FreshKeys(db2.gmuds, |db1.gmuds|, db1.nextTicketId)
    ensures db2 == db.(gmuds := db2.gmuds, nextTicketId := db2.nextTicketId)
    ensures |db.gmuds| <= |db2.gmuds| && db2.gmuds[..|db.gmuds|] == db.gmuds
    ensures db2.nextTicketId == db.nextTicketId + (|db2.gmuds| - |db.gmuds|)
    ensures FreshKeys(db2.gmuds, |db.gmuds|, db.nextTicketId)
  {
    assert db2.gmuds[..|db.gmuds|] == db2.gmuds[..|db1.gmuds|][..|db.gmuds|];
    forall i | |db.gmuds| <= i < |db1.gmuds|
      ensures db2.gmuds[i] == db1.gmuds[i]
    {
      assert db2.gmuds[..|db1.gmuds|][i] == db2.gmuds[i];
    }
  }

  /** Every ticket the month loop appends carries the month of a listed sheet the workbook has. */
  lemma {:induction false} TicketSheetsTagged(book: Book, entries: seq<(string, YearMonth)>, db: Db)
    ensures AllTagged(ImportTicketSheets(book, entries, db).db.gmuds[|db.gmuds|..], book, entries)
    decreases |entries|
  {
    var o := ImportTicketSheets(book, entries, db);
    if entries != [] {
      var tail := entries[1..];
      match GetSheet(book, entries[0].0)
      case None =>
        TicketSheetsTagged(book, tail, db);
        assert o == ImportTicketSheets(book, tail, db);
        TaggedFromTail(book, entries, o.db.gmuds[|db.gmuds|..]);
      case Some(ws) =>
        var e := MonthTickets(ws, entries[0].1);
        var db1 := AppendTickets(db, e.recs);
        MonthSheetTagged(book, entries, ws, db);
        if e.error.None? {
          var o1 := ImportTicketSheets(book, tail, db1);
          assert o.db == o1.db;
          TicketSheetsTagged(book, tail, db1);
          TaggedFromTail(book, entries, o1.db.gmuds[|db1.gmuds|..]);
          TaggedAcrossPrefix(o1.db.gmuds, db1.gmuds, |db.gmuds|, book, entries);
        }
    }
  }

  /** Tickets tagged after position `from` of a prefix, and tagged after the prefix, are all tagged. */
  lemma TaggedAcrossPrefix(gs: seq<Ticket>, prefix: seq<Ticket>, from: nat, book: Book, entries: seq<(string, YearMonth)>)
    requires from <= |prefix| <= |gs| && gs[..|prefix|] == prefix
    requires AllTagged(prefix[from..], book, entries) && AllTagged(gs[|prefix|..], book, entries)
    ensures AllTagged(gs[from..], book, entries)
  {
    forall i | 0 <= i < |gs| - from
      ensures TaggedFrom(gs[from..][i].data, book, entries)
    {
      if from + i < |prefix| {
        assert gs[from..][i] == prefix[from..][i];
      } else {
        assert gs[from..][i] == gs[|prefix|..][from + i - |prefix|];
      }
    }
  }

  /** The tickets of a present listed sheet are tagged from the table. */
  lemma MonthSheetTagged(book: Book, entries: seq<(string, YearMonth)>, ws: Sheet, db: Db)
    requires entries != [] && GetSheet(book, entries[0].0) == Some(ws)
    ensures AllTagged(AppendTickets(db, MonthTickets(ws, entries[0].1).recs).gmuds[|db.gmuds|..], book, entries)
  {
    var e := MonthTickets(ws, entries[0].1);
    var added := AppendTickets(db, e.recs).gmuds[|db.gmuds|..];
    forall i | 0 <= i < |added|
      ensures TaggedFrom(added[i].data, book, entries)
    {
      assert added[i].data == e.recs[i];
      assert entries[0].0 in SheetNames(book);
      assert entries[0].1 == YearMonth(added[i].data.year, added[i].data.month);
    }
  }

  /**
   * The tickets the month table yields, without keys or database: the kept
   * rows of every listed sheet the workbook has, in table order, ending with
   * the rows kept before the first row that raises (and its error).
   */
  function ListedTickets(book: Book, entries: seq<(string, YearMonth)>): Extraction<TicketData>
    decreases |entries|
  {
    if entries == [] then Extraction([], None)
    else
      match GetSheet(book, entries[0].0)
      case None => ListedTickets(book, entries[1..])
      case Some(ws) =>
        var m := MonthTickets(ws, entries[0].1);
        if m.error.Some? then m
        else
          var rest := ListedTickets(book, entries[1..]);
          Extraction(m.recs + rest.recs, rest.error)
  }

  /**
   * The month loop appends exactly the listed tickets, in order, and ends as
   * they do: finished with their number, or raising their error.
   */
  lemma {:induction false} TicketSheetsAppendListed(book: Book, entries: seq<(string, YearMonth)>, db: Db)
    ensures var o := ImportTicketSheets(book, entries, db);
            var l := ListedTickets(book, entries);
            Payloads(o.db.gmuds[|db.gmuds|..]) == l.recs
            && (o.Done? <==> l.error.None?)
            && (o.Crashed? ==> o.message == l.error.value)
    decreases |entries|
  {
    var o := ImportTicketSheets(book, entries, db);
    if entries == [] {
      assert o.db.gmuds[|db.gmuds|..] == [];
    } else {
      match GetSheet(book, entries[0].0)
      case None =>
        assert o == ImportTicketSheets(book, entries[1..], db);
        TicketSheetsAppendListed(book, entries[1..], db);
      case Some(ws) =>
        var e := MonthTickets(ws, entries[0].1);
        var d1 := AppendTickets(db, e.recs);
        TicketSheetUnfold(book, entries, db, ws);
        if e.error.None? {
          TicketSheetsAppendListed(book, entries[1..], d1);
        }
    }
  }

  /** Empties the ticket table, then runs the month loop over `entries`. */
  function ReloadTickets(book: Book, entries: seq<(string, YearMonth)>, db: Db): (o: Outcome)
    ensures o.db == db.(gmuds := o.db.gmuds, nextTicketId := o.db.nextTicketId)
    ensures o.Done? ==> o.count == |o.db.gmuds|
    ensures TicketKeysOrdered(o.db.gmuds, o.db.nextTicketId)
    ensures forall i :: 0 <= i < |o.db.gmuds| ==> o.db.gmuds[i].id >= db.nextTicketId
    ensures forall i :: 0 <= i < |o.db.gmuds| ==> TaggedFrom(o.db.gmuds[i].data, book, entries)
    ensures o.db.nextTicketId == db.nextTicketId + |o.db.gmuds|
    ensures Payloads(o.db.gmuds) == ListedTickets(book, entries).recs
    ensures o.Done? <==> ListedTickets(book, entries).error.None?
    ensures o.Crashed? ==> o.message == ListedTickets(book, entries).error.value
  {
    var cleared := db.(gmuds := []);
    var o := ImportTicketSheets(book, entries, cleared);
    FreshKeysOrdered(o.db.gmuds, db.nextTicketId);
    TicketSheetsTagged(book, entries, cleared);
    TicketSheetsAppendListed(book, entries, cleared);
    assert o.db.gmuds[0..] == o.db.gmuds;
    o
  }

  /**
   * `import_gmuds`: the ticket table is emptied whether or not any month sheet
   * exists, then refilled from the month sheets in table order.
   */
  function ImportGmuds(book: Book, db: Db): (o: Outcome)
    ensures o.db == db.(gmuds := o.db.gmuds, nextTicketId := o.db.nextTicketId)
    ensures o.Done? ==> o.count == |o.db.gmuds|
    ensures TicketKeysOrdered(o.db.gmuds, o.db.nextTicketId)
    ensures forall i :: 0 <= i < |o.db.gmuds| ==> o.db.gmuds[i].id >= db.nextTicketId
    ensures forall i :: 0 <= i < |o.db.gmuds| ==> TaggedFrom(o.db.gmuds[i].data, book, MONTH_SHEETS)
    ensures o.db.nextTicketId == db.nextTicketId + |o.db.gmuds|
    ensures Payloads(o.db.gmuds) == ListedTickets(book, MONTH_SHEETS).recs
    ensures o.Done? <==> ListedTickets(book, MONTH_SHEETS).error.None?
    ensures o.Crashed? ==> o.message == ListedTickets(book, MONTH_SHEETS).error.value
  {
    ReloadTickets(book, MONTH_SHEETS, db)
  }

  // ---------------------------------------------------------------------------
  // The main import run
  // ---------------------------------------------------------------------------

  /** The source labels the success log lists, in import order. */
  const SOURCE_NAMES: seq<string> := ["servers", "cmdb", "gmuds", "planning", "pagonxt"]

  /** The five importers run in order, up to the first that raises. */
  datatype Run = Ran(db: Db, counts: seq<nat>) | Stopped(db: Db, message: string)

  /** A source's label when it counted rows, and nothing otherwise. */
  function Listed(name: string, count: nat): seq<string> {
    if count > 0 then [name] else []
  }

  /** The labels of the sources whose count is positive, in source order. */
  function ImportedNames(names: seq<string>, counts: seq<nat>): (r: seq<string>)
    requires |names| == |counts|
    ensures |r| <= |names|
  {
    if names == [] then []
    else Listed(names[0], counts[0]) + ImportedNames(names[1..], counts[1..])
  }

  /** A label is listed exactly when some source with that label counted rows. */
  lemma {:induction false} ImportedNamesMembers(names: seq<string>, counts: seq<nat>)
    requires |names| == |counts|
    ensures forall n :: n in ImportedNames(names, counts) <==>
              exists i :: 0 <= i < |names| && names[i] == n && counts[i] > 0
  {
    if names != [] {
      ImportedNamesMembers(names[1..], counts[1..]);
      assert forall i :: 1 <= i < |names| ==> names[i] == names[1..][i - 1] && counts[i] == counts[1..][i - 1];
    }
  }

  function Sum(counts: seq<nat>): nat {
    if counts == [] then 0 else counts[0] + Sum(counts[1..])
  }

  /** The log entry of a run that finished; `counts` are the five importers' counts. */
  function SuccessEntry(fileName: string, counts: seq<nat>): ImportLogEntry
    requires |counts| == |SOURCE_NAMES|
  {
    var names := ImportedNames(SOURCE_NAMES, counts);
    ImportLogEntry(fileName, Join(", ", names), Sum(counts), "success",
      "Imported " + NatToDecimal(Sum(counts)) + " total records from " + NatToDecimal(|names|) + " data sources")
  }

  /** The log entry of a run that raised `message`. */
  function ErrorEntry(fileName: string, message: string): ImportLogEntry {
    ImportLogEntry(fileName, "", 0, "error", message)
  }

  /** Servers, legacy CMDB, tickets, planning and PagoNxt, in that order; stops at the first failure. */
  function ImportAll(book: Book, db: Db): (r: Run)
    ensures r.Ran? ==> |r.counts| == |SOURCE_NAMES|
    ensures r.db.cmdbFull == db.cmdbFull && r.db.importLog == db.importLog
    ensures r.db.vulns == db.vulns && r.db.detections == db.detections
    ensures TicketKeysOrdered(db.gmuds, db.nextTicketId) ==> TicketKeysOrdered(r.db.gmuds, r.db.nextTicketId)
    ensures r.db.nextTicketId >= db.nextTicketId
  {
    var o1 := ImportServers(book, db);
    if o1.Crashed? then Stopped(o1.db, o1.message) else
    var o2 := ImportCmdb(book, o1.db);
    if o2.Crashed? then Stopped(o2.db, o2.message) else
    var o3 := ImportGmuds(book, o2.db);
    if o3.Crashed? then Stopped(o3.db, o3.message) else
    var o4 := ImportPlanning(book, o3.db);
    if o4.Crashed? then Stopped(o4.db, o4.message) else
    var o5 := ImportPagoNxt(book, o4.db);
    if o5.Crashed? then Stopped(o5.db, o5.message) else
    Ran(o5.db, [o1.count, o2.count, o3.count, o4.count, o5.count])
  }

  /** What `run_import` leaves in the database and reports. */
  datatype RunResult =
    | FileMissing
    | Completed(db: Db)
    | Failed(db: Db, message: string)

  /**
   * `run_import` with the file's existence and its base name as inputs. Each
   * importer commits on success; when one raises, the error entry is logged
   * and committed together with whatever the failing importer had already
   * written, and the exception propagates.
   */
  function RunImport(fileExists: bool, fileName: string, book: Book, db: Db): (r: RunResult)
    ensures r.FileMissing? <==> !fileExists
    ensures !r.FileMissing? ==>
              |r.db.importLog| == |db.importLog| + 1 && r.db.importLog[..|db.importLog|] == db.importLog
              && r.db.cmdbFull == db.cmdbFull && r.db.vulns == db.vulns && r.db.detections == db.detections
    ensures r.Completed? ==> r.db.importLog[|db.importLog|].status == "success"
    ensures r.Failed? ==> r.db.importLog[|db.importLog|] == ImportLogEntry(fileName, "", 0, "error", r.message)
    ensures !r.FileMissing? && TicketKeysOrdered(db.gmuds, db.nextTicketId) ==>
              TicketKeysOrdered(r.db.gmuds, r.db.nextTicketId)
  {
    if !fileExists then FileMissing
    else
      match ImportAll(book, db)
      case Ran(db1, counts) => Completed(db1.(importLog := db1.importLog + [SuccessEntry(fileName, counts)]))
      case Stopped(db1, msg) => Failed(db1.(importLog := db1.importLog + [ErrorEntry(fileName, msg)]), msg)
  }

  /** The labels of the non-empty tables among the five the main run fills, in import order. */
  function LoadedNames(db: Db): seq<string> {
    Listed("servers", |db.servers|) + (Listed("cmdb", |db.cmdb|) + (Listed("gmuds", |db.gmuds|)
    + (Listed("planning", |db.planning|) + Listed("pagonxt", |db.pagonxt|))))
  }

  /** The number of rows in the five tables the main run fills. */
  function TableTotal(db: Db): nat {
    |db.servers| + |db.cmdb| + |db.gmuds| + |db.planning| + |db.pagonxt|
  }

  /** One step of the label filter. */
  lemma ImportedNamesStep(names: seq<string>, counts: seq<nat>)
    requires |names| == |counts| && names != []
    ensures ImportedNames(names, counts) == Listed(names[0], counts[0]) + ImportedNames(names[1..], counts[1..])
    ensures Sum(counts) == counts[0] + Sum(counts[1..])
  {
  }

  /** The label filter over five sources, position by position. */
  lemma ImportedNamesOfFive(n: seq<string>, c: seq<nat>)
    requires |n| == 5 && |c| == 5
    ensures ImportedNames(n, c) ==
              Listed(n[0], c[0]) + (Listed(n[1], c[1]) + (Listed(n[2], c[2]) + (Listed(n[3], c[3]) + Listed(n[4], c[4]))))
    ensures Sum(c) == c[0] + c[1] + c[2] + c[3] + c[4]
  {
    var n1, c1 := n[1..], c[1..];
    var n2, c2 := n1[1..], c1[1..];
    var n3, c3 := n2[1..], c2[1..];
    var n4, c4 := n3[1..], c3[1..];
    assert n1[0] == n[1] && n2[0] == n[2] && n3[0] == n[3] && n4[0] == n[4];
    assert c1[0] == c[1] && c2[0] == c[2] && c3[0] == c[3] && c4[0] == c[4];
    ImportedNamesStep(n4, c4);
    assert n4[1..] == [] && c4[1..] == [];
    assert ImportedNames(n4, c4) == Listed(n[4], c[4]);
    ImportedNamesStep(n3, c3);
    ImportedNamesStep(n2, c2);
    ImportedNamesStep(n1, c1);
    ImportedNamesStep(n, c);
  }

  /** With all four single-sheet sources present, each count of a finished run is its table's size. */
  lemma RunCountsAreTableSizes(book: Book, db: Db)
    requires ImportAll(book, db).Ran?
    requires SERVERS_SHEET in SheetNames(book) && CMDB_SHEET in SheetNames(book)
    requires PLANNING_SHEET in SheetNames(book) && PAGONXT_SHEET in SheetNames(book)
    ensures var r := ImportAll(book, db);
            r.counts == [|r.db.servers|, |r.db.cmdb|, |r.db.gmuds|, |r.db.planning|, |r.db.pagonxt|]
  {
    var o1 := ImportServers(book, db);
    var o2 := ImportCmdb(book, o1.db);
    var o3 := ImportGmuds(book, o2.db);
    var o4 := ImportPlanning(book, o3.db);
    var o5 := ImportPagoNxt(book, o4.db);
    assert ImportAll(book, db) == Ran(o5.db, [o1.count, o2.count, o3.count, o4.count, o5.count]);
  }

  /**
   * When the workbook has all four single-sheet sources, a finished run logs
   * exactly the non-empty tables and their total row count.
   */
  lemma SuccessLogMatchesTables(fileName: string, book: Book, db: Db)
    requires RunImport(true, fileName, book, db).Completed?
    requires SERVERS_SHEET in SheetNames(book) && CMDB_SHEET in SheetNames(book)
    requires PLANNING_SHEET in SheetNames(book) && PAGONXT_SHEET in SheetNames(book)
    ensures var after := RunImport(true, fileName, book, db).db;
            var names := LoadedNames(after);
            after.importLog[|db.importLog|] ==
              ImportLogEntry(fileName, Join(", ", names), TableTotal(after), "success",
                "Imported " + NatToDecimal(TableTotal(after)) + " total records from "
                + NatToDecimal(|names|) + " data sources")
  {
    var r := ImportAll(book, db);
    RunCountsAreTableSizes(book, db);
    ImportedNamesOfFive(SOURCE_NAMES, r.counts);
    var after := RunImport(true, fileName, book, db).db;
    assert after == r.db.(importLog := r.db.importLog + [SuccessEntry(fileName, r.counts)]);
    assert LoadedNames(after) == ImportedNames(SOURCE_NAMES, r.counts);
    assert TableTotal(after) == Sum(r.counts);
  }

  /** The month loop finds nothing when the workbook has none of the listed sheets. */
  lemma {:induction false} NoListedSheetsNoTickets(book: Book, entries: seq<(string, YearMonth)>, db: Db)
    requires forall k :: 0 <= k < |entries| ==> entries[k].0 !in SheetNames(book)
    ensures ImportTicketSheets(book, entries, db) == Done(db, 0)
    decreases |entries|
  {
    if entries != [] {
      assert entries[0].0 !in SheetNames(book);
      assert forall k :: 0 <= k < |entries[1..]| ==> entries[1..][k] == entries[k + 1];
      NoListedSheetsNoTickets(book, entries[1..], db);
    }
  }

  /** Reloading from a workbook with none of the listed sheets leaves the ticket table empty. */
  lemma NoListedSheetsEmptyTable(book: Book, entries: seq<(string, YearMonth)>, db: Db)
    requires forall k :: 0 <= k < |entries| ==> entries[k].0 !in SheetNames(book)
    ensures ReloadTickets(book, entries, db) == Done(db.(gmuds := []), 0)
  {
    NoListedSheetsNoTickets(book, entries, db.(gmuds := []));
  }

  /**
   * A workbook with none of the known sheets still empties the ticket table,
   * leaves the other tables as they were, and logs a success with no sources.
   */
  lemma WorkbookWithoutSources(fileName: string, book: Book, db: Db)
    requires SERVERS_SHEET !in SheetNames(book) && CMDB_SHEET !in SheetNames(book)
    requires PLANNING_SHEET !in SheetNames(book) && PAGONXT_SHEET !in SheetNames(book)
    requires forall k :: 0 <= k < |MONTH_SHEETS| ==> MONTH_SHEETS[k].0 !in SheetNames(book)
    ensures RunImport(true, fileName, book, db) ==
              Completed(db.(gmuds := [], importLog := db.importLog +
                [ImportLogEntry(fileName, "", 0, "success", "Imported 0 total records from 0 data sources")]))
  {
    NoMonthSheetsEmptiesGmuds(book, db);
    ImportAllWithoutSources(book, db);
    RunWithZeroCounts(fileName, book, db);
  }

  /** A run whose importers all counted 0 logs a success with no sources. */
  lemma RunWithZeroCounts(fileName: string, book: Book, db: Db)
    requires var a := ImportAll(book, db);
             a.Ran? && a.db == db.(gmuds := []) && forall i :: 0 <= i < |a.counts| ==> a.counts[i] == 0
    ensures RunImport(true, fileName, book, db) ==
              Completed(db.(gmuds := [], importLog := db.importLog +
                [ImportLogEntry(fileName, "", 0, "success", "Imported 0 total records from 0 data sources")]))
  {
    var a := ImportAll(book, db);
    RunImportOfRan(fileName, book, db, a.db, a.counts);
    var e := SuccessEntry(fileName, a.counts);
    NothingImportedEntry(fileName, a.counts);
    assert a.db.(importLog := a.db.importLog + [e]) == db.(gmuds := [], importLog := db.importLog + [e]);
  }

  /** A run whose importers all finished logs its success entry after them. */
  lemma RunImportOfRan(fileName: string, book: Book, db: Db, db1: Db, counts: seq<nat>)
    requires ImportAll(book, db) == Ran(db1, counts)
    ensures |counts| == |SOURCE_NAMES|
    ensures RunImport(true, fileName, book, db) ==
              Completed(db1.(importLog := db1.importLog + [SuccessEntry(fileName, counts)]))
  {
  }

  /** `import_gmuds` on a workbook with no month sheet only empties the table. */
  lemma NoMonthSheetsEmptiesGmuds(book: Book, db: Db)
    requires forall k :: 0 <= k < |MONTH_SHEETS| ==> MONTH_SHEETS[k].0 !in SheetNames(book)
    ensures ImportGmuds(book, db) == Done(db.(gmuds := []), 0)
  {
    NoListedSheetsEmptyTable(book, MONTH_SHEETS, db);
  }

  /** With no single-sheet source and an empty ticket reload, every importer counts 0. */
  lemma ImportAllWithoutSources(book: Book, db: Db)
    requires SERVERS_SHEET !in SheetNames(book) && CMDB_SHEET !in SheetNames(book)
    requires PLANNING_SHEET !in SheetNames(book) && PAGONXT_SHEET !in SheetNames(book)
    requires ImportGmuds(book, db) == Done(db.(gmuds := []), 0)
    ensures var a := ImportAll(book, db);
            a.Ran? && a.db == db.(gmuds := []) && forall i :: 0 <= i < |a.counts| ==> a.counts[i] == 0
  {
    var zeros: seq<nat> := [0, 0, 0, 0, 0];
    ImportAllZeros(book, db, zeros);
    RanWithZeros(ImportAll(book, db), db.(gmuds := []), zeros);
  }

  /** A run holding five literal zeros counted nothing anywhere. */
  lemma RanWithZeros(a: Run, db: Db, zeros: seq<nat>)
    requires zeros == [0, 0, 0, 0, 0] && a == Ran(db, zeros)
    ensures a.Ran? && a.db == db && forall i :: 0 <= i < |a.counts| ==> a.counts[i] == 0
  {
  }

  /** The five counts of a run without sources, as one sequence. */
  lemma ImportAllZeros(book: Book, db: Db, zeros: seq<nat>)
    requires SERVERS_SHEET !in SheetNames(book) && CMDB_SHEET !in SheetNames(book)
    requires PLANNING_SHEET !in SheetNames(book) && PAGONXT_SHEET !in SheetNames(book)
    requires ImportGmuds(book, db) == Done(db.(gmuds := []), 0)
    requires zeros == [0, 0, 0, 0, 0]
    ensures ImportAll(book, db) == Ran(db.(gmuds := []), zeros)
  {
  }

  /** The success entry of a run in which every importer counted 0. */
  lemma NothingImportedEntry(fileName: string, c: seq<nat>)
    requires |c| == |SOURCE_NAMES| && forall i :: 0 <= i < |c| ==> c[i] == 0
    ensures SuccessEntry(fileName, c) ==
              ImportLogEntry(fileName, "", 0, "success", "Imported 0 total records from 0 data sources")
  {
    var names := ImportedNames(SOURCE_NAMES, c);
    assert names == [] && Sum(c) == 0 by {
      ImportedNamesOfFive(SOURCE_NAMES, c);
    }
    ZeroRecordsMessage();
  }

  lemma ZeroRecordsMessage()
    ensures "Imported " + NatToDecimal(0) + " total records from " + NatToDecimal(0) + " data sources"
            == "Imported 0 total records from 0 data sources"
    ensures Join(", ", []) == ""
  {
    assert NatToDecimal(0) == "0";
  }

  /** Two outcomes agree on how the importer ended: same kind, same count, same message. */
  predicate SameEnd(o1: Outcome, o2: Outcome) {
    o1.Done? == o2.Done?
    && (o1.Done? ==> o1.count == o2.count)
    && (o1.Crashed? ==> o1.message == o2.message)
  }

  /** How a single-sheet importer ends depends on the workbook only. */
  lemma RefreshDeterministic<T>(book: Book, name: string, step: Row -> Step<T>, c1: seq<T>, c2: seq<T>)
    ensures var r1 := RefreshTable(book, name, step, c1);
            var r2 := RefreshTable(book, name, step, c2);
            r1.error == r2.error && r1.count == r2.count
  {
  }

  /** The four single-sheet importers end the same way on any database. */
  lemma SingleSheetImportersDeterministic(book: Book, d1: Db, d2: Db)
    ensures SameEnd(ImportServers(book, d1), ImportServers(book, d2))
    ensures SameEnd(ImportCmdb(book, d1), ImportCmdb(book, d2))
    ensures SameEnd(ImportPlanning(book, d1), ImportPlanning(book, d2))
    ensures SameEnd(ImportPagoNxt(book, d1), ImportPagoNxt(book, d2))
  {
    RefreshDeterministic(book, SERVERS_SHEET, ServerStep, d1.servers, d2.servers);
    RefreshDeterministic(book, CMDB_SHEET, LegacyCmdbStep, d1.cmdb, d2.cmdb);
    RefreshDeterministic(book, PLANNING_SHEET, PlanningStep, d1.planning, d2.planning);
    RefreshDeterministic(book, PAGONXT_SHEET, PagoNxtStep, d1.pagonxt, d2.pagonxt);
  }

  /** The month loop ends the same way and appends the same tickets (up to keys) on any database. */
  lemma {:induction false} TicketSheetsDeterministic(book: Book, entries: seq<(string, YearMonth)>, d1: Db, d2: Db)
    ensures var o1 := ImportTicketSheets(book, entries, d1);
            var o2 := ImportTicketSheets(book, entries, d2);
            SameEnd(o1, o2) && Payloads(o1.db.gmuds[|d1.gmuds|..]) == Payloads(o2.db.gmuds[|d2.gmuds|..])
    decreases |entries|, 1
  {
    var o1 := ImportTicketSheets(book, entries, d1);
    var o2 := ImportTicketSheets(book, entries, d2);
    if entries != [] {
      var tail := entries[1..];
      match GetSheet(book, entries[0].0)
      case None =>
        assert o1 == ImportTicketSheets(book, tail, d1) && o2 == ImportTicketSheets(book, tail, d2);
        TicketSheetsDeterministic(book, tail, d1, d2);
      case Some(ws) =>
        TicketSheetStepDeterministic(book, entries, d1, d2, ws);
    }
  }

  /** The inductive step of `TicketSheetsDeterministic` when the first listed sheet exists. */
  lemma {:induction false} TicketSheetStepDeterministic(book: Book, entries: seq<(string, YearMonth)>,
                                                        d1: Db, d2: Db, ws: Sheet)
    requires entries != [] && GetSheet(book, entries[0].0) == Some(ws)
    ensures var o1 := ImportTicketSheets(book, entries, d1);
            var o2 := ImportTicketSheets(book, entries, d2);
            SameEnd(o1, o2) && Payloads(o1.db.gmuds[|d1.gmuds|..]) == Payloads(o2.db.gmuds[|d2.gmuds|..])
    decreases |entries|, 0
  {
    var e := MonthTickets(ws, entries[0].1);
    var e1 := AppendTickets(d1, e.recs);
    var e2 := AppendTickets(d2, e.recs);
    TicketSheetUnfold(book, entries, d1, ws);
    TicketSheetUnfold(book, entries, d2, ws);
    if e.error.None? {
      TicketSheetsDeterministic(book, entries[1..], e1, e2);
    }
  }

  /**
   * One pass of the month loop over an existing sheet: its tickets come first,
   * then whatever the rest of the table appends.
   */
  lemma TicketSheetUnfold(book: Book, entries: seq<(string, YearMonth)>, d: Db, ws: Sheet)
    requires entries != [] && GetSheet(book, entries[0].0) == Some(ws)
    ensures var e := MonthTickets(ws, entries[0].1);
            var d1 := AppendTickets(d, e.recs);
            var o := ImportTicketSheets(book, entries, d);
            var t := ImportTicketSheets(book, entries[1..], d1);
            Payloads(d1.gmuds[|d.gmuds|..]) == e.recs
            && (e.error.Some? ==> o == Crashed(d1, e.error.value))
            && (e.error.None? ==> SameEndShifted(o, t, |e.recs|)
                                  && Payloads(o.db.gmuds[|d.gmuds|..]) == e.recs + Payloads(t.db.gmuds[|d1.gmuds|..]))
  {
    var e := MonthTickets(ws, entries[0].1);
    var d1 := AppendTickets(d, e.recs);
    AppendedPayloads(d, e.recs);
    if e.error.None? {
      var t := ImportTicketSheets(book, entries[1..], d1);
      assert ImportTicketSheets(book, entries, d).db == t.db;
      LaterPayloads(d, d1, t.db);
    }
  }

  /** The tickets `AppendTickets` adds carry exactly the given payloads. */
  lemma AppendedPayloads(d: Db, datas: seq<TicketData>)
    ensures Payloads(AppendTickets(d, datas).gmuds[|d.gmuds|..]) == datas
  {
    var d1 := AppendTickets(d, datas);
    assert forall i :: 0 <= i < |datas| ==> d1.gmuds[|d.gmuds|..][i] == d1.gmuds[|d.gmuds| + i];
  }

  /** What is appended after `d` is what `d1` added, then what came after `d1`. */
  lemma LaterPayloads(d: Db, d1: Db, d2: Db)
    requires |d.gmuds| <= |d1.gmuds| <= |d2.gmuds| && d2.gmuds[..|d1.gmuds|] == d1.gmuds
    ensures Payloads(d2.gmuds[|d.gmuds|..]) == Payloads(d1.gmuds[|d.gmuds|..]) + Payloads(d2.gmuds[|d1.gmuds|..])
  {
    assert d2.gmuds[|d.gmuds|..] == d1.gmuds[|d.gmuds|..] + d2.gmuds[|d1.gmuds|..];
    PayloadsConcat(d1.gmuds[|d.gmuds|..], d2.gmuds[|d1.gmuds|..]);
  }

  /** `o` ends like `t`, with `n` more rows counted. */
  predicate SameEndShifted(o: Outcome, t: Outcome, n: nat) {
    o.Done? == t.Done?
    && (o.Done? ==> o.count == t.count + n)
    && (o.Crashed? ==> o.message == t.message)
  }

  lemma PayloadsConcat(a: seq<Ticket>, b: seq<Ticket>)
    ensures Payloads(a + b) == Payloads(a) + Payloads(b)
  {
  }

  /** `import_gmuds` ends the same way and loads the same tickets (up to keys) on any database. */
  lemma ImportGmudsDeterministic(book: Book, d1: Db, d2: Db)
    ensures SameEnd(ImportGmuds(book, d1), ImportGmuds(book, d2))
    ensures Payloads(ImportGmuds(book, d1).db.gmuds) == Payloads(ImportGmuds(book, d2).db.gmuds)
  {
    var c1 := d1.(gmuds := []);
    var c2 := d2.(gmuds := []);
    TicketSheetsDeterministic(book, MONTH_SHEETS, c1, c2);
    var o1 := ImportTicketSheets(book, MONTH_SHEETS, c1);
    var o2 := ImportTicketSheets(book, MONTH_SHEETS, c2);
    assert o1.db.gmuds[0..] == o1.db.gmuds && o2.db.gmuds[0..] == o2.db.gmuds;
    assert ImportGmuds(book, d1) == o1 && ImportGmuds(book, d2) == o2;
  }

  /**
   * Running the five importers again, over any database that holds what the
   * first run loaded, reloads the same content and counts; only the ticket
   * keys move on.
   */
  lemma ImportAllRerun(book: Book, db: Db, again: Db)
    requires ImportAll(book, db).Ran?
    requires var r1 := ImportAll(book, db);
             again.servers == r1.db.servers && again.cmdb == r1.db.cmdb
             && again.planning == r1.db.planning && again.pagonxt == r1.db.pagonxt
    ensures var r1 := ImportAll(book, db);
            var r2 := ImportAll(book, again);
            r2.Ran? && r2.counts == r1.counts
            && r2.db.servers == r1.db.servers && r2.db.cmdb == r1.db.cmdb
            && r2.db.planning == r1.db.planning && r2.db.pagonxt == r1.db.pagonxt
            && Payloads(r2.db.gmuds) == Payloads(r1.db.gmuds)
            && r2.db.importLog == again.importLog
            && forall i :: 0 <= i < |r2.db.gmuds| ==> r2.db.gmuds[i].id >= again.nextTicketId
  {
    var o1 := ImportServers(book, db);
    var o2 := ImportCmdb(book, o1.db);
    var o3 := ImportGmuds(book, o2.db);
    var o4 := ImportPlanning(book, o3.db);
    var o5 := ImportPagoNxt(book, o4.db);
    var p1 := ImportServers(book, again);
    var p2 := ImportCmdb(book, p1.db);
    var p3 := ImportGmuds(book, p2.db);
    var p4 := ImportPlanning(book, p3.db);
    var p5 := ImportPagoNxt(book, p4.db);
    SingleSheetImportersDeterministic(book, db, again);
    SingleSheetImportersDeterministic(book, o1.db, p1.db);
    ImportGmudsDeterministic(book, o2.db, p2.db);
    SingleSheetImportersDeterministic(book, o3.db, p3.db);
    SingleSheetImportersDeterministic(book, o4.db, p4.db);
    assert ImportAll(book, db) == Ran(o5.db, [o1.count, o2.count, o3.count, o4.count, o5.count]);
    assert ImportAll(book, again) == Ran(p5.db, [p1.count, p2.count, p3.count, p4.count, p5.count]);
  }

  /**
   * Re-running the main import on the same workbook is a full refresh: the
   * five tables hold the same content as after the first run (tickets under
   * new, never reused keys) and the log gains an identical entry.
   */
  lemma RerunReloadsSameContent(fileName: string, book: Book, db: Db)
    requires RunImport(true, fileName, book, db).Completed?
    ensures var db1 := RunImport(true, fileName, book, db).db;
            var r2 := RunImport(true, fileName, book, db1);
            r2.Completed?
            && r2.db.servers == db1.servers && r2.db.cmdb == db1.cmdb
            && r2.db.planning == db1.planning && r2.db.pagonxt == db1.pagonxt
            && Payloads(r2.db.gmuds) == Payloads(db1.gmuds)
            && r2.db.importLog == db1.importLog + [db1.importLog[|db1.importLog| - 1]]
            && forall i :: 0 <= i < |r2.db.gmuds| ==> r2.db.gmuds[i].id >= db1.nextTicketId
  {
    var r1 := ImportAll(book, db);
    var db1 := RunImport(true, fileName, book, db).db;
    assert db1 == r1.db.(importLog := r1.db.importLog + [SuccessEntry(fileName, r1.counts)]);
    ImportAllRerun(book, db, db1);
  }

  /**
   * A server row that raises stops the whole run, yet the error commit keeps
   * the emptied server table with the rows kept before the failing one; no
   * other table is touched.
   */
  lemma ServersFailureKeepsPartialRows(fileName: string, book: Book, db: Db)
    requires SERVERS_SHEET in SheetNames(book)
    requires ExtractRows(DataRows(GetSheet(book, SERVERS_SHEET).value), ServerStep).error.Some?
    ensures var e := ExtractRows(DataRows(GetSheet(book, SERVERS_SHEET).value), ServerStep);
            RunImport(true, fileName, book, db) ==
              Failed(db.(servers := e.recs, importLog := db.importLog + [ErrorEntry(fileName, e.error.value)]),
                     e.error.value)
  {
  }

  /**
   * A legacy CMDB row that raises, after the servers finished: the error
   * commit keeps the new server table and the legacy CMDB rows kept before
   * the failing one.
   */
  lemma CmdbFailureKeepsPartialRows(fileName: string, book: Book, db: Db)
    requires ImportServers(book, db).Done?
    requires CMDB_SHEET in SheetNames(book)
    requires ExtractRows(DataRows(GetSheet(book, CMDB_SHEET).value), LegacyCmdbStep).error.Some?
    ensures var before := ImportServers(book, db).db;
            var e := ExtractRows(DataRows(GetSheet(book, CMDB_SHEET).value), LegacyCmdbStep);
            RunImport(true, fileName, book, db) ==
              Failed(before.(cmdb := e.recs, importLog := db.importLog + [ErrorEntry(fileName, e.error.value)]),
                     e.error.value)
  {
    var o1 := ImportServers(book, db);
    var o2 := ImportCmdb(book, o1.db);
    assert ImportAll(book, db) == Stopped(o2.db, o2.message);
  }

  /**
   * A month sheet row that raises, after servers and legacy CMDB finished:
   * the error commit keeps the tickets listed up to that row, under fresh
   * keys, and the two tables already reloaded.
   */
  lemma TicketsFailureKeepsPartialRows(fileName: string, book: Book, db: Db)
    requires ImportServers(book, db).Done? && ImportCmdb(book, ImportServers(book, db).db).Done?
    requires ListedTickets(book, MONTH_SHEETS).error.Some?
    ensures var before := ImportCmdb(book, ImportServers(book, db).db).db;
            var r := RunImport(true, fileName, book, db);
            r.Failed? && r.message == ListedTickets(book, MONTH_SHEETS).error.value
            && r.db == before.(gmuds := r.db.gmuds, nextTicketId := r.db.nextTicketId,
                               importLog := db.importLog + [ErrorEntry(fileName, r.message)])
            && Payloads(r.db.gmuds) == ListedTickets(book, MONTH_SHEETS).recs
  {
    var o1 := ImportServers(book, db);
    var o2 := ImportCmdb(book, o1.db);
    var o3 := ImportGmuds(book, o2.db);
    assert ImportAll(book, db) == Stopped(o3.db, o3.message);
  }

  /** A planning row that raises, after the first three importers finished. */
  lemma PlanningFailureKeepsPartialRows(fileName: string, book: Book, db: Db)
    requires ImportServers(book, db).Done? && ImportCmdb(book, ImportServers(book, db).db).Done?
    requires ImportGmuds(book, ImportCmdb(book, ImportServers(book, db).db).db).Done?
    requires PLANNING_SHEET in SheetNames(book)
    requires ExtractRows(DataRows(GetSheet(book, PLANNING_SHEET).value), PlanningStep).error.Some?
    ensures var before := ImportGmuds(book, ImportCmdb(book, ImportServers(book, db).db).db).db;
            var e := ExtractRows(DataRows(GetSheet(book, PLANNING_SHEET).value), PlanningStep);
            RunImport(true, fileName, book, db) ==
              Failed(before.(planning := e.recs, importLog := db.importLog + [ErrorEntry(fileName, e.error.value)]),
                     e.error.value)
  {
    var o1 := ImportServers(book, db);
    var o2 := ImportCmdb(book, o1.db);
    var o3 := ImportGmuds(book, o2.db);
    var o4 := ImportPlanning(book, o3.db);
    assert ImportAll(book, db) == Stopped(o4.db, o4.message);
  }

  /** A PagoNxt row that raises, after the first four importers finished. */
  lemma PagoNxtFailureKeepsPartialRows(fileName: string, book: Book, db: Db)
    requires ImportServers(book, db).Done? && ImportCmdb(book, ImportServers(book, db).db).Done?
    requires ImportGmuds(book, ImportCmdb(book, ImportServers(book, db).db).db).Done?
    requires ImportPlanning(book, ImportGmuds(book, ImportCmdb(book, ImportServers(book, db).db).db).db).Done?
    requires PAGONXT_SHEET in SheetNames(book)
    requires ExtractRows(DataRows(GetSheet(book, PAGONXT_SHEET).value), PagoNxtStep).error.Some?
    ensures var before := ImportPlanning(book, ImportGmuds(book, ImportCmdb(book, ImportServers(book, db).db).db).db).db;
            var e := ExtractRows(DataRows(GetSheet(book, PAGONXT_SHEET).value), PagoNxtStep);
            RunImport(true, fileName, book, db) ==
              Failed(before.(pagonxt := e.recs, importLog := db.importLog + [ErrorEntry(fileName, e.error.value)]),
                     e.error.value)
  {
    var o1 := ImportServers(book, db);
    var o2 := ImportCmdb(book, o1.db);
    var o3 := ImportGmuds(book, o2.db);
    var o4 := ImportPlanning(book, o3.db);
    var o5 := ImportPagoNxt(book, o4.db);
    assert ImportAll(book, db) == Stopped(o5.db, o5.message);
  }

  // ---------------------------------------------------------------------------
  // The full CMDB run
  // ---------------------------------------------------------------------------

  /** The records one full-CMDB sheet yields; a missing sheet yields none. */
  function FullSheetRecords(book: Book, name: string, latam: bool): (e: Extraction<CmdbFull>)
    ensures name !in SheetNames(book) ==> e == Extraction([], None)
    ensures forall k :: 0 <= k < |e.recs| ==>
              e.recs[k].dbType != "" && e.recs[k].client == (if latam then "PagoNxt" else "GetNet")
  {
    match GetSheet(book, name)
    case None => Extraction([], None)
    case Some(ws) =>
      var step := (row: Row) => FullCmdbStep(row, latam);
      forall row | step(row).Keep?
        ensures step(row).rec.dbType != "" && step(row).rec.client == (if latam then "PagoNxt" else "GetNet")
      {
        FullCmdbKeptInvariant(row, latam);
      }
      ExtractedSatisfy(DataRows(ws), step,
        (c: CmdbFull) => c.dbType != "" && c.client == (if latam then "PagoNxt" else "GetNet"));
      ExtractRows(DataRows(ws), step)
  }

  /** Every PagoNxt row comes after every GetNet row. */
  predicate GetNetFirst(rows: seq<CmdbFull>) {
    forall i, j :: 0 <= i < j < |rows| && rows[i].client == "PagoNxt" ==> rows[j].client == "PagoNxt"
  }

  /** A database-server row of one of the two clients. */
  predicate ServerOfClient(c: CmdbFull) {
    c.dbType != "" && (c.client == "GetNet" || c.client == "PagoNxt")
  }

  /** GetNet rows followed by PagoNxt rows keep the clients in that order. */
  lemma GetNetThenPagoNxt(g: seq<CmdbFull>, l: seq<CmdbFull>)
    requires forall k :: 0 <= k < |g| ==> g[k].dbType != "" && g[k].client == "GetNet"
    requires forall k :: 0 <= k < |l| ==> l[k].dbType != "" && l[k].client == "PagoNxt"
    ensures forall k :: 0 <= k < |g + l| ==> ServerOfClient((g + l)[k])
    ensures GetNetFirst(g + l)
  {
    var rows := g + l;
    assert forall k :: 0 <= k < |rows| ==> rows[k] == if k < |g| then g[k] else l[k - |g|];
  }

  /**
   * `run_cmdb_full_import`: the table is emptied and committed first; each
   * sheet commits its own rows, so a failure loses only the rows of the sheet
   * being read. No import log entry is written.
   */
  function RunCmdbFullImport(fileExists: bool, book: Book, db: Db): (r: RunResult)
    ensures r.FileMissing? <==> !fileExists
    ensures !r.FileMissing? ==> r.db == db.(cmdbFull := r.db.cmdbFull)
    ensures !r.FileMissing? ==> forall k :: 0 <= k < |r.db.cmdbFull| ==> ServerOfClient(r.db.cmdbFull[k])
    ensures !r.FileMissing? ==> GetNetFirst(r.db.cmdbFull)
    ensures r.Failed? ==> forall k :: 0 <= k < |r.db.cmdbFull| ==> r.db.cmdbFull[k].client == "GetNet"
  {
    if !fileExists then FileMissing
    else
      CommitFullSheets(db.(cmdbFull := []), FullSheetRecords(book, GETNET_FULL_SHEET, false),
                       FullSheetRecords(book, LATAM_FULL_SHEET, true))
  }

  /**
   * The two sheets' commits on an emptied table: the GetNet rows go in unless
   * that sheet raised, then the LATAM rows unless that one raised.
   */
  function CommitFullSheets(cleared: Db, g: Extraction<CmdbFull>, l: Extraction<CmdbFull>): (r: RunResult)
    requires forall k :: 0 <= k < |g.recs| ==> g.recs[k].dbType != "" && g.recs[k].client == "GetNet"
    requires forall k :: 0 <= k < |l.recs| ==> l.recs[k].dbType != "" && l.recs[k].client == "PagoNxt"
    ensures r.Completed? || r.Failed?
    ensures r.db == cleared.(cmdbFull := r.db.cmdbFull)
    ensures forall k :: 0 <= k < |r.db.cmdbFull| ==> ServerOfClient(r.db.cmdbFull[k])
    ensures GetNetFirst(r.db.cmdbFull)
    ensures r.Failed? ==> forall k :: 0 <= k < |r.db.cmdbFull| ==> r.db.cmdbFull[k].client == "GetNet"
  {
    if g.error.Some? then Failed(cleared.(cmdbFull := []), g.error.value)
    else if l.error.Some? then Failed(cleared.(cmdbFull := g.recs), l.error.value)
    else
      GetNetThenPagoNxt(g.recs, l.recs);
      Completed(cleared.(cmdbFull := g.recs + l.recs))
  }

  /** The full CMDB run does not depend on what the table held before: a re-run reloads the same rows. */
  lemma CmdbFullRerun(book: Book, db: Db)
    requires RunCmdbFullImport(true, book, db).Completed?
    ensures var db1 := RunCmdbFullImport(true, book, db).db;
            RunCmdbFullImport(true, book, db1) == RunCmdbFullImport(true, book, db)
  {
  }

  /** When the LATAM sheet raises, the committed GetNet rows stay and nothing else is in the table. */
  lemma LatamFailureKeepsGetNet(book: Book, db: Db)
    requires FullSheetRecords(book, GETNET_FULL_SHEET, false).error.None?
    requires FullSheetRecords(book, LATAM_FULL_SHEET, true).error.Some?
    ensures RunCmdbFullImport(true, book, db) ==
              Failed(db.(cmdbFull := FullSheetRecords(book, GETNET_FULL_SHEET, false).recs),
                     FullSheetRecords(book, LATAM_FULL_SHEET, true).error.value)
  {
  }
}

=== FILE: month_sheets.dfy ===
/**
 * The table of monthly ticket worksheets (sheet title → year and month) and
 * its reverse lookup by date, which the exporter uses to choose the sheet a
 * new ticket goes into.
 */
module MonthSheets {
  import opened Wrappers

  datatype YearMonth = YearMonth(year: int, month: int)

  /** The monthly worksheets in the table's own order, February 2025 to February 2026. */
  const MONTH_SHEETS: seq<(string, YearMonth)> := [
    ("FEVEREIRO-25", YearMonth(2025, 2)),
    ("MAR\U{C7}O-25", YearMonth(2025, 3)),
    ("ABRIL-25", YearMonth(2025, 4)),
    ("MAIO-25", YearMonth(2025, 5)),
    ("JUNHO-25", YearMonth(2025, 6)),
    ("JULHO-25", YearMonth(2025, 7)),
    ("AGOSTO-25", YearMonth(2025, 8)),
    ("SETEMBRO-25", YearMonth(2025, 9)),
    ("OUTUBRO-25", YearMonth(2025, 10)),
    ("NOVEMBRO-25", YearMonth(2025, 11)),
    ("DEZEMBRO-25", YearMonth(2025, 12)),
    ("JANEIRO-26", YearMonth(2026, 1)),
    ("FEVEREIRO-26", YearMonth(2026, 2))
  ]

  /** The `i`-th month counted from February 2025. */
  function NthMonth(i: int): YearMonth {
    YearMonth(2025 + (i + 1) / 12, (i + 1) % 12 + 1)
  }

  /** No two entries share a month, and no two share a title. */
  predicate Injective(entries: seq<(string, YearMonth)>) {
    (forall i, j :: 0 <= i < j < |entries| ==> entries[i].1 != entries[j].1)
    && (forall i, j :: 0 <= i < j < |entries| ==> entries[i].0 != entries[j].0)
  }

  /** The table has thirteen entries, one per consecutive month from February 2025 to February 2026. */
  lemma MonthSheetsConsecutive()
    ensures |MONTH_SHEETS| == 13
    ensures forall i :: 0 <= i < |MONTH_SHEETS| ==> MONTH_SHEETS[i].1 == NthMonth(i)
  {
  }

  /** Neither months nor titles repeat in the table. */
  lemma MonthSheetsInjective()
    ensures Injective(MONTH_SHEETS)
  {
    MonthSheetsConsecutive();
    forall i, j | 0 <= i < j < |MONTH_SHEETS|
      ensures MONTH_SHEETS[i].1 != MONTH_SHEETS[j].1
    {
      NthMonthInjective(i, j);
    }
    MonthTitlesDistinct();
  }

  /** Counting months from February 2025 never revisits one. */
  lemma NthMonthInjective(i: int, j: int)
    requires 0 <= i < j
    ensures NthMonth(i) != NthMonth(j)
  {
  }

  /** No two entries of the table share a title. */
  lemma MonthTitlesDistinct()
    ensures forall i, j :: 0 <= i < j < |MONTH_SHEETS| ==> MONTH_SHEETS[i].0 != MONTH_SHEETS[j].0
  {
  }

  /**
   * The table has thirteen entries, every month in 1..12, every year 2025 or
   * 2026, and neither months nor titles repeat.
   */
  lemma MonthSheetsShape()
    ensures |MONTH_SHEETS| == 13
    ensures forall i :: 0 <= i < |MONTH_SHEETS| ==> MONTH_SHEETS[i].1 == NthMonth(i)
    ensures forall i :: 0 <= i < |MONTH_SHEETS| ==>
              1 <= MONTH_SHEETS[i].1.month <= 12 && MONTH_SHEETS[i].1.year in {2025, 2026}
    ensures Injective(MONTH_SHEETS)
  {
    MonthSheetsConsecutive();
    MonthSheetsInjective();
  }

  /** Linear search in table order for the first entry of month `ym`. */
  function SheetForMonth(entries: seq<(string, YearMonth)>, ym: YearMonth): (r: Option<string>)
    ensures r.None? <==> forall i :: 0 <= i < |entries| ==> entries[i].1 != ym
    ensures r.Some? ==> exists i :: 0 <= i < |entries| && entries[i] == (r.value, ym)
  {
    if entries == [] then None
    else if entries[0].1 == ym then Some(entries[0].0)
    else
      var rest := SheetForMonth(entries[1..], ym);
      assert forall i :: 1 <= i < |entries| ==> entries[i] == entries[1..][i - 1];
      rest
  }

  /** Linear search in table order for the month of the entry titled `name` (`MONTH_SHEETS[name]`). */
  function MonthForSheet(entries: seq<(string, YearMonth)>, name: string): (r: Option<YearMonth>)
    ensures r.None? <==> forall i :: 0 <= i < |entries| ==> entries[i].0 != name
    ensures r.Some? ==> exists i :: 0 <= i < |entries| && entries[i] == (name, r.value)
  {
    if entries == [] then None
    else if entries[0].0 == name then Some(entries[0].1)
    else
      var rest := MonthForSheet(entries[1..], name);
      assert forall i :: 1 <= i < |entries| ==> entries[i] == entries[1..][i - 1];
      rest
  }

  /** `get_sheet_name_for_date`: the title of the month sheet for a date's year and month. */
  function SheetNameForDate(year: int, month: int): Option<string> {
    SheetForMonth(MONTH_SHEETS, YearMonth(year, month))
  }

  /** In an injective table every entry is found by its own month and by its own title. */
  lemma {:induction false} LookupsFindEntry(entries: seq<(string, YearMonth)>, i: nat)
    requires Injective(entries) && i < |entries|
    ensures SheetForMonth(entries, entries[i].1) == Some(entries[i].0)
    ensures MonthForSheet(entries, entries[i].0) == Some(entries[i].1)
  {
    if i > 0 {
      var tail := entries[1..];
      assert Injective(tail) by {
        assert forall a :: 0 <= a < |tail| ==> tail[a] == entries[a + 1];
      }
      assert tail[i - 1] == entries[i];
      LookupsFindEntry(tail, i - 1);
    }
  }

  /**
   * The reverse lookup is exact: it finds a sheet precisely for the months the
   * table covers, and the sheet it finds maps back to that month.
   */
  lemma SheetNameForDateRoundTrip(year: int, month: int)
    ensures SheetNameForDate(year, month).Some? <==>
              (year == 2025 && 2 <= month <= 12) || (year == 2026 && 1 <= month <= 2)
    ensures SheetNameForDate(year, month).Some? ==>
              MonthForSheet(MONTH_SHEETS, SheetNameForDate(year, month).value) == Some(YearMonth(year, month))
  {
    MonthSheetsShape();
    var ym := YearMonth(year, month);
    var r := SheetNameForDate(year, month);
    if (year == 2025 && 2 <= month <= 12) || (year == 2026 && 1 <= month <= 2) {
      var i := (year - 2025) * 12 + month - 2;
      assert MONTH_SHEETS[i].1 == ym;
    }
    if r.Some? {
      var i :| 0 <= i < |MONTH_SHEETS| && MONTH_SHEETS[i] == (r.value, ym);
      LookupsFindEntry(MONTH_SHEETS, i);
    }
  }

  /** Every title in the table maps to its month, and that month maps back to the title. */
  lemma SheetTitleRoundTrip(i: nat)
    requires i < |MONTH_SHEETS|
    ensures MonthForSheet(MONTH_SHEETS, MONTH_SHEETS[i].0) == Some(MONTH_SHEETS[i].1)
    ensures SheetNameForDate(MONTH_SHEETS[i].1.year, MONTH_SHEETS[i].1.month) == Some(MONTH_SHEETS[i].0)
  {
    MonthSheetsShape();
    LookupsFindEntry(MONTH_SHEETS, i);
  }
}

=== FILE: presentation.dfy ===
/**
 * The small pure pieces of the web front: the change-ticket title builder and
 * the import endpoints' answers on the server side; the badge classifiers,
 * the page selector and the export link in the browser.
 */
module Presentation {
  import opened Wrappers
  import opened Text
  import opened Workbook
  import opened Records
  import opened Extract
  import opened Load

  // ---------------------------------------------------------------------------
  // Ticket title
  // ---------------------------------------------------------------------------

  /** A JSON request body: each key sent, with its string value or null. */
  type Json = map<string, Option<string>>

  /** Python `str()` of a JSON string or null. */
  function Show(v: Option<string>): string {
    if v.Some? then v.value else "None"
  }

  /** `data.get(key, default)`: a key that is present wins, even when it is null. */
  function GetOr(data: Json, key: string, default: string): Option<string> {
    if key in data then data[key] else Some(default)
  }

  /** The bracketed head of a title: type, "BD" and, when there is one, the priority. */
  function TitlePrefix(gmudType: string, priority: Option<string>): string {
    "[" + gmudType + " - BD" + (if priority.Some? && priority.value != "" then " - " + priority.value else "") + "]"
  }

  const TITLE_MIDDLE := " Atualização PSU "
  const TITLE_TAIL := " conforme orientação Oracle | "

  /**
   * `api_generate_gmud_title`: the prefix, the PSU version and the host list
   * in a fixed sentence; a missing type is "Escopo Fechado", a missing version
   * "19.29", missing hosts and priority are empty.
   */
  function GenerateTitle(data: Json): (title: string)
    ensures var prefix := TitlePrefix(Show(GetOr(data, "type", "Escopo Fechado")), GetOr(data, "priority", ""));
            var hosts := Show(GetOr(data, "hostnames", ""));
            var mid := TITLE_MIDDLE + Show(GetOr(data, "psu_version", "19.29")) + TITLE_TAIL;
            |title| == |prefix| + |mid| + |hosts|
            && title[..|prefix|] == prefix
            && title[|title| - |hosts|..] == hosts
            && title[|prefix|..|title| - |hosts|] == mid
  {
    var prefix := TitlePrefix(Show(GetOr(data, "type", "Escopo Fechado")), GetOr(data, "priority", ""));
    var psu := Show(GetOr(data, "psu_version", "19.29"));
    var hosts := Show(GetOr(data, "hostnames", ""));
    var title := prefix + (TITLE_MIDDLE + psu + TITLE_TAIL) + hosts;
    assert title[..|prefix|] == prefix;
    assert title[|title| - |hosts|..] == hosts;
    assert title[|prefix|..|title| - |hosts|] == TITLE_MIDDLE + psu + TITLE_TAIL;
    title
  }

  /** An empty request yields the default title. */
  lemma DefaultTitle()
    ensures GenerateTitle(map[]) == "[Escopo Fechado - BD]" + TITLE_MIDDLE + "19.29" + TITLE_TAIL
  {
    var t := GenerateTitle(map[]);
    var prefix := TitlePrefix("Escopo Fechado", Some(""));
    assert prefix == "[Escopo Fechado - BD]";
    assert t == t[..|prefix|] + t[|prefix|..|t|];
  }

  /**
   * Two requests that agree on type, priority and version produce the same
   * title exactly when they carry the same host list text: the hosts can be
   * read back off the end of the title.
   */
  lemma TitleDeterminesHosts(a: Json, b: Json)
    requires GetOr(a, "type", "Escopo Fechado") == GetOr(b, "type", "Escopo Fechado")
    requires GetOr(a, "priority", "") == GetOr(b, "priority", "")
    requires GetOr(a, "psu_version", "19.29") == GetOr(b, "psu_version", "19.29")
    ensures GenerateTitle(a) == GenerateTitle(b) <==>
              Show(GetOr(a, "hostnames", "")) == Show(GetOr(b, "hostnames", ""))
  {
    var ta := GenerateTitle(a);
    var tb := GenerateTitle(b);
    var ha := Show(GetOr(a, "hostnames", ""));
    var hb := Show(GetOr(b, "hostnames", ""));
    var prefix := TitlePrefix(Show(GetOr(a, "type", "Escopo Fechado")), GetOr(a, "priority", ""));
    var mid := TITLE_MIDDLE + Show(GetOr(a, "psu_version", "19.29")) + TITLE_TAIL;
    assert ta == ta[..|prefix|] + ta[|prefix|..|ta| - |ha|] + ta[|ta| - |ha|..];
    assert tb == tb[..|prefix|] + tb[|prefix|..|tb| - |hb|] + tb[|tb| - |hb|..];
    assert ta == prefix + mid + ha;
    assert tb == prefix + mid + hb;
    if ta == tb {
      assert |ha| == |hb|;
      assert ha == ta[|prefix + mid|..] == tb[|prefix + mid|..] == hb;
    }
  }

  // ---------------------------------------------------------------------------
  // Import endpoints
  // ---------------------------------------------------------------------------

  /** A JSON answer with its HTTP status code. */
  datatype Response = Response(status: string, message: string, code: nat)

  /**
   * `api_import` / `api_import_cmdb_full`: a completed run is a success, a
   * missing file a client error (400) with the endpoint's hint, and a run
   * that raised a server error (500) carrying the exception text.
   */
  function ImportResponse(r: RunResult, success: string, hint: string): (resp: Response)
    ensures resp.status == "success" <==> r.Completed?
    ensures resp.status == "success" ==> resp.code == 200 && resp.message == success
    ensures r.FileMissing? ==> resp == Response("error", hint, 400)
    ensures r.Failed? ==> resp == Response("error", r.message, 500)
  {
    match r
    case Completed(_) => Response("success", success, 200)
    case FileMissing => Response("error", hint, 400)
    case Failed(_, m) => Response("error", m, 500)
  }

  const IMPORT_SUCCESS := "Import completed successfully!"
  const IMPORT_HINT := "Import failed. Check the Excel file path."
  const CMDB_FULL_SUCCESS := "CMDB Full import completed successfully!"
  const CMDB_FULL_HINT := "Import failed. Check the CMDB Full file path."

  /**
   * `api_import` end to end: 200 exactly when the workbook is there and all
   * five importers finish, 400 exactly when it is missing, and otherwise 500
   * with the message of the first importer that raised.
   */
  lemma ApiImportAnswers(fileExists: bool, fileName: string, book: Book, db: Db)
    ensures var resp := ImportResponse(RunImport(fileExists, fileName, book, db), IMPORT_SUCCESS, IMPORT_HINT);
            (resp.code == 200 <==> fileExists && ImportAll(book, db).Ran?)
            && (resp.code == 400 <==> !fileExists)
            && (resp.code == 500 <==> fileExists && ImportAll(book, db).Stopped?)
            && (resp.code == 500 ==> resp.message == ImportAll(book, db).message)
            && (resp.code == 200 ==> resp.message == IMPORT_SUCCESS)
  {
  }

  /**
   * `api_import_cmdb_full` end to end: 200 exactly when both full-CMDB sheets
   * read without raising; a 500 carries the GetNet sheet's error when that
   * sheet raised, and the LATAM sheet's otherwise.
   */
  lemma ApiImportCmdbFullAnswers(fileExists: bool, book: Book, db: Db)
    ensures var resp := ImportResponse(RunCmdbFullImport(fileExists, book, db), CMDB_FULL_SUCCESS, CMDB_FULL_HINT);
            var g := FullSheetRecords(book, GETNET_FULL_SHEET, false);
            var l := FullSheetRecords(book, LATAM_FULL_SHEET, true);
            (resp.code == 200 <==> fileExists && g.error.None? && l.error.None?)
            && (resp.code == 400 <==> !fileExists)
            && (resp.code == 500 ==> resp.message == if g.error.Some? then g.error.value else l.error.value)
  {
  }

  // ---------------------------------------------------------------------------
  // Badges
  // ---------------------------------------------------------------------------

  /** The text a badge classifier tests: JavaScript's `toLowerCase().trim()`. */
  function Key(s: string): string {
    JsTrim(Lower(s))
  }

  /** The text names either keyword of a badge group. */
  predicate Mentions(text: string, a: string, b: string) {
    Contains(text, a) || Contains(text, b)
  }

  /**
   * `getStatusBadge`: an empty status gets the plain badge (`None`); otherwise
   * the first keyword group the status contains decides the class, and a
   * status that matches none is shown as "implementar".
   */
  function StatusBadge(status: string): (cls: Option<string>)
    ensures cls.None? <==> status == ""
    ensures cls.Some? ==> cls.value in {"encerrada", "implementar", "replanejar", "cancelada", "ativo", "aberta"}
    ensures var k := Key(status);
            cls == Some("encerrada") <==> status != "" && Mentions(k, "encerrada", "conclu")
    ensures var k := Key(status);
            cls == Some("implementar") <==>
              status != "" && !Mentions(k, "encerrada", "conclu")
              && (Mentions(k, "implementar", "em andamento")
                  || (!Mentions(k, "replanejar", "replanejada") && !Contains(k, "cancel")
                      && !Mentions(k, "ativo", "ativa") && !Mentions(k, "aberta", "aberto")))
    ensures var k := Key(status);
            cls == Some("replanejar") <==>
              status != "" && !Mentions(k, "encerrada", "conclu") && !Mentions(k, "implementar", "em andamento")
              && Mentions(k, "replanejar", "replanejada")
    ensures var k := Key(status);
            cls == Some("cancelada") <==>
              status != "" && !Mentions(k, "encerrada", "conclu") && !Mentions(k, "implementar", "em andamento")
              && !Mentions(k, "replanejar", "replanejada") && Contains(k, "cancel")
    ensures var k := Key(status);
            cls == Some("ativo") <==>
              status != "" && !Mentions(k, "encerrada", "conclu") && !Mentions(k, "implementar", "em andamento")
              && !Mentions(k, "replanejar", "replanejada") && !Contains(k, "cancel") && Mentions(k, "ativo", "ativa")
    ensures var k := Key(status);
            cls == Some("aberta") <==>
              status != "" && !Mentions(k, "encerrada", "conclu") && !Mentions(k, "implementar", "em andamento")
              && !Mentions(k, "replanejar", "replanejada") && !Contains(k, "cancel") && !Mentions(k, "ativo", "ativa")
              && Mentions(k, "aberta", "aberto")
  {
    if status == "" then None
    else
      var s := Key(status);
      if Contains(s, "encerrada") || Contains(s, "conclu") then Some("encerrada")
      else if Contains(s, "implementar") || Contains(s, "em andamento") then Some("implementar")
      else if Contains(s, "replanejar") || Contains(s, "replanejada") then Some("replanejar")
      else if Contains(s, "cancel") then Some("cancelada")
      else if Contains(s, "ativo") || Contains(s, "ativa") then Some("ativo")
      else if Contains(s, "aberta") || Contains(s, "aberto") then Some("aberta")
      else Some("implementar")
  }

  /**
   * `getEnvBadge`: an empty environment gets no badge; otherwise the class is
   * "prod" for production and transition names, "hml" for homologation names,
   * and "dev" for everything else.
   */
  function EnvBadge(env: string): (cls: Option<string>)
    ensures cls.None? <==> env == ""
    ensures cls.Some? ==> cls.value in {"prod", "hml", "dev"}
    ensures cls == Some("prod") <==>
              env != "" && (StartsWith(Key(env), "prod") || Key(env) == "p" || StartsWith(Key(env), "trans") || Key(env) == "t")
    ensures cls == Some("hml") <==>
              env != "" && (StartsWith(Key(env), "hom") || Key(env) == "h" || Key(env) == "hml")
  {
    if env == "" then None
    else
      var e := Key(env);
      if StartsWith(e, "prod") || e == "p" then Some("prod")
      else if StartsWith(e, "hom") || e == "h" || e == "hml" then Some("hml")
      else if StartsWith(e, "trans") || e == "t" then Some("prod")
      else Some("dev")
  }

  /**
   * `getPsuBadge`: an empty version gets no badge; the three newest patch
   * levels are "latest", the two before them "outdated", anything else
   * "critical". The version text is searched as given, without trimming.
   */
  function PsuBadge(version: string): (cls: Option<string>)
    ensures cls.None? <==> version == ""
    ensures cls == Some("latest") <==>
              version != "" && (Contains(version, "19.30") || Contains(version, "19.29") || Contains(version, "19.28"))
    ensures cls == Some("outdated") <==>
              version != "" && !Contains(version, "19.30") && !Contains(version, "19.29") && !Contains(version, "19.28")
              && (Contains(version, "19.27") || Contains(version, "19.26"))
    ensures cls.Some? ==> cls.value in {"latest", "outdated", "critical"}
  {
    if version == "" then None
    else if Contains(version, "19.30") || Contains(version, "19.29") || Contains(version, "19.28") then Some("latest")
    else if Contains(version, "19.27") || Contains(version, "19.26") then Some("outdated")
    else Some("critical")
  }

  /** The title builder's default version is shown with the "latest" badge. */
  lemma DefaultVersionIsLatest()
    ensures PsuBadge("19.29") == Some("latest")
  {
    assert "19.29" <= "19.29";
  }

  // ---------------------------------------------------------------------------
  // Page selector
  // ---------------------------------------------------------------------------

  /** One element between the arrows: a numbered button or an ellipsis. */
  datatype PageItem = PageButton(target: int, active: bool) | Gap

  /** The two arrows (each with its target and whether it is disabled) and the items between them. */
  datatype Pager = Pager(prevDisabled: bool, prevTarget: int, items: seq<PageItem>, nextDisabled: bool, nextTarget: int)

  /** The numbered buttons `from .. to`, the current page marked. */
  function Window(from: int, to: int, page: int): (r: seq<PageItem>)
    ensures |r| == if to < from then 0 else to - from + 1
    ensures forall k :: 0 <= k < |r| ==> r[k].PageButton? && r[k].target == from + k
    ensures forall k :: 0 <= k < |r| ==> (r[k].active <==> r[k].target == page)
  {
    if to < from then [] else seq(to - from + 1, k requires 0 <= k <= to - from => PageButton(from + k, from + k == page))
  }

  /** Button 1 and an ellipsis before a window that starts later. */
  function Lead(from: int): seq<PageItem> {
    if from > 2 then [PageButton(1, false), Gap] else if from > 1 then [PageButton(1, false)] else []
  }

  /** An ellipsis and the last page's button after a window that ends early. */
  function Trail(to: int, pages: int): seq<PageItem> {
    if to < pages - 1 then [Gap, PageButton(pages, false)] else if to < pages then [PageButton(pages, false)] else []
  }

  function MaxInt(a: int, b: int): int {
    if a < b then b else a
  }

  function MinInt(a: int, b: int): int {
    if a < b then a else b
  }

  /**
   * `createPagination`: nothing for a single page; otherwise the previous
   * arrow, up to two pages either side of the current one, the first and
   * last pages when the window misses them (with an ellipsis when pages are
   * skipped), and the next arrow.
   */
  function CreatePagination(page: int, pages: int): (r: Option<Pager>)
    ensures r.None? <==> pages <= 1
    ensures r.Some? ==> (r.value.prevDisabled <==> page <= 1) && (r.value.nextDisabled <==> page >= pages)
    ensures r.Some? ==> r.value.prevTarget == page - 1 && r.value.nextTarget == page + 1
  {
    if pages <= 1 then None
    else
      var from := MaxInt(1, page - 2);
      var to := MinInt(pages, page + 2);
      Some(Pager(page <= 1, page - 1, Lead(from) + Window(from, to, page) + Trail(to, pages), page >= pages, page + 1))
  }

  /** The numbered buttons of a selector are strictly increasing and lie within `lo .. hi`. */
  predicate AscendingIn(items: seq<PageItem>, lo: int, hi: int) {
    (forall a, b :: 0 <= a < b < |items| && items[a].PageButton? && items[b].PageButton? ==>
       items[a].target < items[b].target)
    && (forall k :: 0 <= k < |items| && items[k].PageButton? ==> lo <= items[k].target <= hi)
  }

  /** An ellipsis stands exactly where pages are skipped between two buttons. */
  predicate GapsMarkSkips(items: seq<PageItem>) {
    |items| > 0 && items[0].PageButton? && items[|items| - 1].PageButton?
    && forall k :: 0 <= k < |items| - 1 ==>
         (items[k].PageButton? && items[k + 1].PageButton? ==> items[k + 1].target == items[k].target + 1)
         && (items[k].Gap? ==> 0 < k && items[k - 1].PageButton? && items[k + 1].PageButton?
                               && items[k + 1].target > items[k - 1].target + 1)
  }

  /** Page `p` has a button, marked active exactly when it is the current page. */
  predicate Shown(items: seq<PageItem>, p: int, page: int) {
    exists k :: 0 <= k < |items| && items[k] == PageButton(p, p == page)
  }

  /** Two well-spaced runs joined directly, when the second continues the first. */
  lemma GapsAdjacent(x: seq<PageItem>, y: seq<PageItem>)
    requires GapsMarkSkips(x) && GapsMarkSkips(y)
    requires y[0].target == x[|x| - 1].target + 1
    ensures GapsMarkSkips(x + y)
  {
    var z := x + y;
    forall k | 0 <= k < |z| - 1
      ensures (z[k].PageButton? && z[k + 1].PageButton? ==> z[k + 1].target == z[k].target + 1)
              && (z[k].Gap? ==> 0 < k && z[k - 1].PageButton? && z[k + 1].PageButton?
                                && z[k + 1].target > z[k - 1].target + 1)
    {
      if k < |x| - 1 {
        assert z[k] == x[k] && z[k + 1] == x[k + 1];
      } else if k == |x| - 1 {
        assert z[k] == x[k] && z[k + 1] == y[0];
      } else {
        assert z[k] == y[k - |x|] && z[k + 1] == y[k - |x| + 1];
      }
    }
  }

  /** Two well-spaced runs joined by an ellipsis, when pages lie between them. */
  lemma GapsSkipped(x: seq<PageItem>, y: seq<PageItem>)
    requires GapsMarkSkips(x) && GapsMarkSkips(y)
    requires y[0].target > x[|x| - 1].target + 1
    ensures GapsMarkSkips(x + [Gap] + y)
  {
    var z := x + [Gap] + y;
    forall k | 0 <= k < |z| - 1
      ensures (z[k].PageButton? && z[k + 1].PageButton? ==> z[k + 1].target == z[k].target + 1)
              && (z[k].Gap? ==> 0 < k && z[k - 1].PageButton? && z[k + 1].PageButton?
                                && z[k + 1].target > z[k - 1].target + 1)
    {
      if k < |x| - 1 {
        assert z[k] == x[k] && z[k + 1] == x[k + 1];
      } else if k == |x| - 1 {
        assert z[k] == x[k] && z[k + 1] == Gap;
      } else if k == |x| {
        assert z[k - 1] == x[|x| - 1] && z[k + 1] == y[0];
      } else {
        assert z[k] == y[k - |x| - 1] && z[k + 1] == y[k - |x|];
      }
    }
  }

  /** Two ascending runs, the second entirely above the first, form one ascending run. */
  lemma AscendingConcat(x: seq<PageItem>, y: seq<PageItem>, lo: int, mid: int, hi: int)
    requires AscendingIn(x, lo, mid) && AscendingIn(y, mid + 1, hi) && lo <= mid < hi
    ensures AscendingIn(x + y, lo, hi)
  {
    var z := x + y;
    forall k | 0 <= k < |z| && z[k].PageButton?
      ensures lo <= z[k].target <= hi
    {
      if k < |x| {
        assert z[k] == x[k];
      } else {
        assert z[k] == y[k - |x|];
      }
    }
    forall a, b | 0 <= a < b < |z| && z[a].PageButton? && z[b].PageButton?
      ensures z[a].target < z[b].target
    {
      if b < |x| {
        assert z[a] == x[a] && z[b] == x[b];
      } else if a < |x| {
        assert z[a] == x[a] && z[b] == y[b - |x|];
      } else {
        assert z[a] == y[a - |x|] && z[b] == y[b - |x|];
      }
    }
  }

  /** The window run on its own: consecutive buttons, `from .. to`, only the current page active. */
  lemma WindowShape(from: int, to: int, page: int)
    requires from <= to
    ensures var w := Window(from, to, page);
            GapsMarkSkips(w) && AscendingIn(w, from, to) && w[0].target == from && w[|w| - 1].target == to
  {
  }

  /** The selector's items before the trailing part: button 1 reached, then the window. */
  lemma LeadAndWindow(from: int, to: int, page: int)
    requires 1 <= from <= to
    ensures var x := Lead(from) + Window(from, to, page);
            GapsMarkSkips(x) && AscendingIn(x, 1, to) && x[0].target == 1 && x[|x| - 1].target == to
  {
    WindowShape(from, to, page);
    LeadBefore(Window(from, to, page), from, to);
  }

  /** Button 1, with an ellipsis only over skipped pages, before any well-spaced run starting at `from`. */
  lemma LeadBefore(w: seq<PageItem>, from: int, to: int)
    requires 1 <= from <= to
    requires GapsMarkSkips(w) && AscendingIn(w, from, to) && w[0].target == from && w[|w| - 1].target == to
    ensures var x := Lead(from) + w;
            GapsMarkSkips(x) && AscendingIn(x, 1, to) && x[0].target == 1 && x[|x| - 1].target == to
  {
    if from == 1 {
      assert Lead(from) + w == w;
    } else if from == 2 {
      LeadTouching(w, to);
      assert Lead(from) == [PageButton(1, false)];
    } else {
      LeadSkipping(w, from, to);
      assert Lead(from) == [PageButton(1, false), Gap];
    }
  }

  lemma LeadTouching(w: seq<PageItem>, to: int)
    requires GapsMarkSkips(w) && AscendingIn(w, 2, to) && w[0].target == 2 && w[|w| - 1].target == to
    ensures var x := [PageButton(1, false)] + w;
            GapsMarkSkips(x) && AscendingIn(x, 1, to) && x[0].target == 1 && x[|x| - 1].target == to
  {
    var one := [PageButton(1, false)];
    assert GapsMarkSkips(one) && AscendingIn(one, 1, 1);
    GapsAdjacent(one, w);
    AscendingConcat(one, w, 1, 1, to);
  }

  lemma LeadSkipping(w: seq<PageItem>, from: int, to: int)
    requires from > 2
    requires GapsMarkSkips(w) && AscendingIn(w, from, to) && w[0].target == from && w[|w| - 1].target == to
    ensures var x := [PageButton(1, false), Gap] + w;
            GapsMarkSkips(x) && AscendingIn(x, 1, to) && x[0].target == 1 && x[|x| - 1].target == to
  {
    var one := [PageButton(1, false)];
    assert GapsMarkSkips(one);
    GapsSkipped(one, w);
    assert [PageButton(1, false), Gap] + w == one + [Gap] + w;
    var head := [PageButton(1, false), Gap];
    assert AscendingIn(head, 1, 1);
    assert AscendingIn(w, 2, to);
    AscendingConcat(head, w, 1, 1, to);
  }

  /**
   * For a current page within range the selector runs from page 1 to the
   * last page in increasing order and puts an ellipsis exactly where pages
   * are left out.
   */
  lemma PaginationSpacing(page: int, pages: int)
    requires 1 <= page <= pages && pages > 1
    ensures var items := CreatePagination(page, pages).value.items;
            GapsMarkSkips(items) && AscendingIn(items, 1, pages)
            && items[0].target == 1 && items[|items| - 1].target == pages
  {
    var from := MaxInt(1, page - 2);
    var to := MinInt(pages, page + 2);
    var x := Lead(from) + Window(from, to, page);
    LeadAndWindow(from, to, page);
    assert CreatePagination(page, pages).value.items == x + Trail(to, pages);
    TrailAfter(x, to, pages);
  }

  /** The last page, with an ellipsis only over skipped pages, goes after any well-spaced run ending at `to`. */
  lemma TrailAfter(x: seq<PageItem>, to: int, pages: int)
    requires 1 <= to <= pages
    requires GapsMarkSkips(x) && AscendingIn(x, 1, to) && x[0].target == 1 && x[|x| - 1].target == to
    ensures var y := x + Trail(to, pages);
            GapsMarkSkips(y) && AscendingIn(y, 1, pages) && y[0].target == 1 && y[|y| - 1].target == pages
  {
    if to == pages - 1 {
      TrailTouching(x, pages);
    } else if to < pages - 1 {
      TrailSkipping(x, to, pages);
    } else {
      assert x + Trail(to, pages) == x;
    }
  }

  lemma TrailTouching(x: seq<PageItem>, pages: int)
    requires GapsMarkSkips(x) && AscendingIn(x, 1, pages - 1) && x[0].target == 1 && x[|x| - 1].target == pages - 1
    ensures var items := x + [PageButton(pages, false)];
            GapsMarkSkips(items) && AscendingIn(items, 1, pages)
            && items[0].target == 1 && items[|items| - 1].target == pages
  {
    var last := [PageButton(pages, false)];
    assert GapsMarkSkips(last) && AscendingIn(last, pages, pages);
    GapsAdjacent(x, last);
    AscendingConcat(x, last, 1, pages - 1, pages);
  }

  lemma TrailSkipping(x: seq<PageItem>, to: int, pages: int)
    requires to < pages - 1
    requires GapsMarkSkips(x) && AscendingIn(x, 1, to) && x[0].target == 1 && x[|x| - 1].target == to
    ensures var items := x + [Gap, PageButton(pages, false)];
            GapsMarkSkips(items) && AscendingIn(items, 1, pages)
            && items[0].target == 1 && items[|items| - 1].target == pages
  {
    var last := [PageButton(pages, false)];
    assert GapsMarkSkips(last);
    GapsSkipped(x, last);
    assert x + [Gap, PageButton(pages, false)] == x + [Gap] + last;
    var tail := [Gap, PageButton(pages, false)];
    assert AscendingIn(tail, to + 1, pages);
    AscendingConcat(x, tail, 1, to, pages);
  }

  /**
   * For a current page within range exactly the current page is marked, and
   * every page within two of it has its button.
   */
  lemma PaginationWindow(page: int, pages: int)
    requires 1 <= page <= pages && pages > 1
    ensures var items := CreatePagination(page, pages).value.items;
            (forall k :: 0 <= k < |items| && items[k].PageButton? ==> (items[k].active <==> items[k].target == page))
            && (forall p :: 1 <= p <= pages && page - 2 <= p <= page + 2 ==> Shown(items, p, page))
  {
    var from := MaxInt(1, page - 2);
    var to := MinInt(pages, page + 2);
    var lead := Lead(from);
    var w := Window(from, to, page);
    var items := lead + w + Trail(to, pages);
    assert forall k :: 0 <= k < |items| ==> items[k] in lead || items[k] in w || items[k] in Trail(to, pages);
    forall p | 1 <= p <= pages && page - 2 <= p <= page + 2
      ensures Shown(items, p, page)
    {
      assert items[|lead| + (p - from)] == w[p - from];
    }
  }

  // ---------------------------------------------------------------------------
  // Export link
  // ---------------------------------------------------------------------------

  /** A JavaScript value as a filter parameter can hold it. */
  datatype JsValue = JsString(s: string) | JsNumber(text: string) | JsBool(b: bool) | JsNull | JsUndefined

  /** The values `exportCSV` drops: the empty string, null and undefined (`0` and `false` stay). */
  predicate Blank(v: JsValue) {
    v == JsString("") || v.JsNull? || v.JsUndefined?
  }

  /**
   * The filter parameters that are kept, in their original order. The
   * parameters come in the object's entry order; each key of an object occurs
   * once, but nothing below needs that.
   */
  function KeptParams(params: seq<(string, JsValue)>): (r: seq<(string, JsValue)>)
    ensures forall p :: p in r <==> p in params && !Blank(p.1)
    ensures |r| <= |params|
    ensures |params| == 1 ==> r == if Blank(params[0].1) then [] else params
  {
    if params == [] then []
    else (if Blank(params[0].1) then [] else [params[0]]) + KeptParams(params[1..])
  }

  /**
   * Filtering keeps the order: the kept parameters of a list split in two are
   * the first part's kept parameters followed by the second part's.
   */
  lemma {:induction false} KeptParamsConcat(a: seq<(string, JsValue)>, b: seq<(string, JsValue)>)
    ensures KeptParams(a + b) == KeptParams(a) + KeptParams(b)
  {
    if a == [] {
      assert a + b == b;
    } else {
      assert (a + b)[0] == a[0];
      assert (a + b)[1..] == a[1..] + b;
      KeptParamsConcat(a[1..], b);
    }
  }

  /** `String(v)` for a kept value. */
  function JsText(v: JsValue): string {
    match v
    case JsString(s) => s
    case JsNumber(t) => t
    case JsBool(b) => if b then "true" else "false"
    case JsNull => "null"
    case JsUndefined => "undefined"
  }

  /** One `key=value` pair of the query; the percent-encoding of a text is the parameter `encode`. */
  function QueryPair(p: (string, JsValue), encode: string -> string): string {
    encode(p.0) + "=" + encode(JsText(p.1))
  }

  /** The pair of every parameter, in order. */
  function QueryPairs(params: seq<(string, JsValue)>, encode: string -> string): (r: seq<string>)
    ensures |r| == |params|
    ensures forall k :: 0 <= k < |params| ==> r[k] == QueryPair(params[k], encode)
  {
    seq(|params|, k requires 0 <= k < |params| => QueryPair(params[k], encode))
  }

  /** `URLSearchParams(...).toString()`: the `key=value` pairs joined by "&". */
  function QueryString(params: seq<(string, JsValue)>, encode: string -> string): (q: string)
    ensures params != [] ==> q != []
    ensures |params| == 1 ==> q == QueryPair(params[0], encode)
  {
    Join("&", QueryPairs(params, encode))
  }

  /**
   * The query of two non-empty parameter lists one after the other is the
   * first list's query, "&", and the second's: the pairs come in parameter
   * order, one "&" between neighbours.
   */
  lemma QueryStringConcat(a: seq<(string, JsValue)>, b: seq<(string, JsValue)>, encode: string -> string)
    requires a != [] && b != []
    ensures QueryString(a + b, encode) == QueryString(a, encode) + "&" + QueryString(b, encode)
  {
    assert QueryPairs(a + b, encode) == QueryPairs(a, encode) + QueryPairs(b, encode);
    JoinConcat("&", QueryPairs(a, encode), QueryPairs(b, encode));
  }

  /**
   * `exportCSV`: the address opened is the endpoint itself when every
   * parameter is blank, and the endpoint, "?" and the kept parameters otherwise.
   */
  function ExportUrl(apiUrl: string, params: seq<(string, JsValue)>, encode: string -> string): (url: string)
    ensures (forall p :: p in params ==> Blank(p.1)) ==> url == apiUrl
    ensures (exists p :: p in params && !Blank(p.1)) ==>
              url == apiUrl + "?" + QueryString(KeptParams(params), encode)
  {
    var kept := KeptParams(params);
    var qs := QueryString(kept, encode);
    if qs == [] then apiUrl else apiUrl + "?" + qs
  }
}

=== FILE: qualys.dfy ===
/**
 * The vulnerability-scan importer: a global catalogue of vulnerability
 * definitions keyed by QID, where the first writer wins, and an append-only
 * log of detections. The two scan formats differ only in their sheet, column
 * positions and skip sentinels.
 */
module Qualys {
  import opened Wrappers
  import opened Cells
  import opened Workbook
  import opened Records
  import opened Extract

  /** The two scan layouts. */
  datatype ScanFormat = PagoNxtScan | GetNetScan

  /** The worksheet each layout reads. */
  function ScanSheet(f: ScanFormat): string {
    match f
    case PagoNxtScan => "DEMANDAS PM"
    case GetNetScan => "PROCV"
  }

  /** The `source` tag every detection of the layout carries. */
  function SourceTag(f: ScanFormat): string {
    match f
    case PagoNxtScan => "PagoNxt"
    case GetNetScan => "GetNet"
  }

  /**
   * Column of each `data` field in the layout: asset name, title, results,
   * detection age, first detected, environment, OS, OS version, severity,
   * last detected, asset IP, solution, QID, overdue.
   */
  function Columns(f: ScanFormat): (cols: seq<nat>)
    ensures |cols| == 14
    ensures forall i, j :: 0 <= i < j < 14 ==> cols[i] < cols[j]
  {
    match f
    case PagoNxtScan => [0, 1, 2, 3, 4, 6, 7, 8, 12, 13, 14, 15, 16, 17]
    case GetNetScan => [1, 2, 3, 4, 5, 8, 9, 10, 14, 15, 16, 17, 18, 19]
  }

  /** The asset-name cell values that mark a row to skip besides a falsy one. */
  function Sentinels(f: ScanFormat): set<Cell> {
    match f
    case PagoNxtScan => {Str("Asset Name")}
    case GetNetScan => {Str("Asset Name"), Str("#N/D")}
  }

  /** The `data` dictionary one scan row builds. */
  datatype ScanData = ScanData(
    assetName: Cell,
    title: Cell,
    results: Cell,
    detectionAge: Cell,
    firstDetected: Cell,
    environment: Cell,
    os: Cell,
    osVersion: Cell,
    severity: Cell,
    lastDetected: Cell,
    assetIp: Cell,
    solution: Cell,
    qid: Cell,
    overdue: Cell,
    source: string)

  /** The fields of a row long enough for every column of the layout. */
  function ScanDataOf(f: ScanFormat, row: Row): (d: ScanData)
    requires |row| > Columns(f)[13]
    ensures d.assetName == row[Columns(f)[0]] && d.qid == row[Columns(f)[12]] && d.source == SourceTag(f)
    ensures Truthy(row[Columns(f)[3]]) ==> d.detectionAge == row[Columns(f)[3]]
    ensures !Truthy(row[Columns(f)[3]]) ==> d.detectionAge == Int(0)
  {
    var c := Columns(f);
    ScanData(
      row[c[0]], row[c[1]], row[c[2]],
      if Truthy(row[c[3]]) then row[c[3]] else Int(0),
      row[c[4]], row[c[5]], row[c[6]], row[c[7]], row[c[8]], row[c[9]],
      row[c[10]], row[c[11]], row[c[12]], row[c[13]],
      SourceTag(f))
  }

  /**
   * One row of a scan sheet: an empty row, a falsy asset name or a sentinel is
   * skipped; reading a column the row does not have raises IndexError.
   */
  function ScanStep(f: ScanFormat, row: Row): (s: Step<ScanData>)
    ensures row == [] ==> s.Skip?
    ensures row != [] && |row| <= Columns(f)[0] ==> s == Fail(TUPLE_INDEX_ERROR)
    ensures |row| > Columns(f)[0] ==>
              (s.Skip? <==> !Truthy(row[Columns(f)[0]]) || row[Columns(f)[0]] in Sentinels(f))
    ensures s.Fail? ==> s.message == TUPLE_INDEX_ERROR && |row| <= Columns(f)[13]
    ensures s.Keep? ==> |row| > Columns(f)[13] && s.rec == ScanDataOf(f, row)
    ensures s.Keep? ==> Truthy(s.rec.assetName) && s.rec.source == SourceTag(f)
  {
    var k := Columns(f)[0];
    if row == [] then Skip
    else if |row| <= k then Fail(TUPLE_INDEX_ERROR)
    else if !Truthy(row[k]) || row[k] in Sentinels(f) then Skip
    else if |row| <= Columns(f)[13] then Fail(TUPLE_INDEX_ERROR)
    else Keep(ScanDataOf(f, row))
  }

  /**
   * The QID guard both helpers share (`int(x) if x else 0`, then `if not
   * qid`, with a failed conversion caught): the QID when it is a non-zero
   * integer.
   */
  function ValidQid(c: Cell): (r: Option<int>)
    ensures r.Some? <==> Truthy(c) && PyInt(c).Some? && PyInt(c).value != 0
    ensures r.Some? ==> r.value == PyInt(c).value && r.value != 0
  {
    if !Truthy(c) then None
    else match PyInt(c)
      case None => None
      case Some(q) => if q == 0 then None else Some(q)
  }

  // ---------------------------------------------------------------------------
  // Binding the parameters
  // ---------------------------------------------------------------------------

  /** sqlite3 binds a Python int as a signed 64-bit INTEGER. */
  predicate FitsInt64(n: int) {
    -0x8000_0000_0000_0000 <= n <= 0x7fff_ffff_ffff_ffff
  }

  /** The OverflowError sqlite3 raises for an int outside the 64-bit range. */
  const SQLITE_OVERFLOW: string := "Python int too large to convert to SQLite INTEGER"
  /** The ProgrammingError for a time of day in the detection-age parameter, the INSERT's tenth. */
  const UNSUPPORTED_TIME: string := "Error binding parameter 10: type 'datetime.time' is not supported"

  /**
   * What binding the detection age raises, if anything: it is passed as the
   * cell holds it, so an int must fit in 64 bits and a time of day has no
   * adapter. Strings, floats, bools and datetimes bind.
   */
  function AgeBindError(c: Cell): (r: Option<string>)
    ensures r.Some? <==> (c.Int? && !FitsInt64(c.n)) || c.Clock?
  {
    match c
    case Int(n) => if FitsInt64(n) then None else Some(SQLITE_OVERFLOW)
    case Clock(_, _, _, _) => Some(UNSUPPORTED_TIME)
    case _ => None
  }

  /**
   * The exception a kept row raises in the database, if any: the upsert's
   * SELECT binds a valid QID first, then the insert binds the detection age
   * of a row that has an asset name.
   */
  function BindError(d: ScanData): (r: Option<string>)
    ensures ValidQid(d.qid).None? ==> r.None?
    ensures ValidQid(d.qid).Some? && !FitsInt64(ValidQid(d.qid).value) ==> r == Some(SQLITE_OVERFLOW)
    ensures ValidQid(d.qid).Some? && FitsInt64(ValidQid(d.qid).value) ==>
              r == if Truthy(d.assetName) then AgeBindError(d.detectionAge) else None
  {
    if ValidQid(d.qid).None? then None
    else if !FitsInt64(ValidQid(d.qid).value) then Some(SQLITE_OVERFLOW)
    else if Truthy(d.assetName) then AgeBindError(d.detectionAge)
    else None
  }

  /** The catalogue entry a new QID gets: threat and category are never read from the scan. */
  function Definition(d: ScanData): VulnDef {
    VulnDef(PyStr(d.title), PyStr(d.severity), "", PyStr(d.solution), "")
  }

  /**
   * `_upsert_vulnerability`: insert the row's definition unless its QID is
   * invalid or already known. The lookup binds the QID outside the helper's
   * `try`, so a QID beyond 64 bits raises out of the helper.
   */
  function UpsertVulnerability(vulns: map<int, VulnDef>, d: ScanData): (r: Result<map<int, VulnDef>>)
    ensures r.Raised? <==> ValidQid(d.qid).Some? && !FitsInt64(ValidQid(d.qid).value)
    ensures r.Raised? ==> r.message == SQLITE_OVERFLOW
    ensures r.Ok? ==> forall q :: q in vulns ==> q in r.value && r.value[q] == vulns[q]
    ensures ValidQid(d.qid).None? ==> r == Ok(vulns)
    ensures r.Ok? && ValidQid(d.qid).Some? ==> r.value.Keys == vulns.Keys + {ValidQid(d.qid).value}
    ensures r.Ok? && ValidQid(d.qid).Some? && ValidQid(d.qid).value !in vulns ==>
              r.value[ValidQid(d.qid).value] == Definition(d)
  {
    match ValidQid(d.qid)
    case None => Ok(vulns)
    case Some(q) =>
      if !FitsInt64(q) then Raised(SQLITE_OVERFLOW)
      else if q in vulns then Ok(vulns) else Ok(vulns[q := Definition(d)])
  }

  /** Whether `_insert_detection` writes a row for `d`. */
  predicate Detected(d: ScanData) {
    ValidQid(d.qid).Some? && Truthy(d.assetName)
  }

  /** The detection row written for `d`; the status is always "Active". */
  function DetectionOf(d: ScanData): (r: Detection)
    requires ValidQid(d.qid).Some?
    ensures r.qid == ValidQid(d.qid).value && r.status == "Active" && r.source == d.source
    ensures r.assetName == PyStr(d.assetName) && r.detectionAge == d.detectionAge
  {
    Detection(
      ValidQid(d.qid).value, PyStr(d.assetName), PyStr(d.assetIp), PyStr(d.environment),
      PyStr(d.os), PyStr(d.osVersion), "Active", PyStr(d.firstDetected), PyStr(d.lastDetected),
      d.detectionAge, PyStr(d.results), PyStr(d.overdue), d.source)
  }

  /**
   * `_insert_detection`: the log with at most one row appended, and the 0/1
   * the helper returns. The INSERT binds the QID first and the detection age
   * tenth; either can raise.
   */
  function InsertDetection(dets: seq<Detection>, d: ScanData): (r: Result<(seq<Detection>, nat)>)
    ensures r.Raised? <==> Detected(d) && (!FitsInt64(ValidQid(d.qid).value) || AgeBindError(d.detectionAge).Some?)
    ensures r.Raised? ==> r.message == if FitsInt64(ValidQid(d.qid).value) then AgeBindError(d.detectionAge).value
                                       else SQLITE_OVERFLOW
    ensures r.Ok? ==> r.value.1 == (if Detected(d) then 1 else 0)
    ensures r.Ok? ==> |r.value.0| == |dets| + r.value.1 && r.value.0[..|dets|] == dets
    ensures r.Ok? && Detected(d) ==> r.value.0[|dets|] == DetectionOf(d)
  {
    if !Detected(d) then Ok((dets, 0))
    else if !FitsInt64(ValidQid(d.qid).value) then Raised(SQLITE_OVERFLOW)
    else match AgeBindError(d.detectionAge)
      case Some(m) => Raised(m)
      case None => Ok((dets + [DetectionOf(d)], 1))
  }

  /** The foreign key of the detection log: every detection's QID is in the catalogue. */
  predicate Covered(vulns: map<int, VulnDef>, dets: seq<Detection>) {
    forall i :: 0 <= i < |dets| ==> dets[i].qid in vulns
  }

  /** The catalogue, the detection log and the loop's two counters. */
  datatype ScanState = ScanState(vulns: map<int, VulnDef>, detections: seq<Detection>, countDet: nat, countRows: nat)

  /** What `_insert_detection` appends for `d`. */
  function NewDetections(d: ScanData): seq<Detection> {
    if Detected(d) then [DetectionOf(d)] else []
  }

  /**
   * One kept row: upsert first, then insert the detection, so the QID it
   * needs is always there. It raises exactly when a parameter does not bind.
   */
  function ScanRowUpdate(st: ScanState, d: ScanData): (r: Result<ScanState>)
    ensures r.Raised? <==> BindError(d).Some?
    ensures r.Raised? ==> r.message == BindError(d).value
    ensures r.Ok? && Covered(st.vulns, st.detections) ==> Covered(r.value.vulns, r.value.detections)
    ensures r.Ok? ==> forall q :: q in st.vulns ==> q in r.value.vulns && r.value.vulns[q] == st.vulns[q]
    ensures r.Ok? ==> r.value.vulns.Keys == st.vulns.Keys + RowQids(d)
    ensures r.Ok? ==> r.value.detections == st.detections + NewDetections(d)
    ensures r.Ok? ==> r.value.countDet == st.countDet + |r.value.detections| - |st.detections|
    ensures r.Ok? ==> r.value.countRows == st.countRows + 1
  {
    match UpsertVulnerability(st.vulns, d)
    case Raised(m) => Raised(m)
    case Ok(vulns) =>
      match InsertDetection(st.detections, d)
      case Raised(m) => Raised(m)
      case Ok((dets, added)) =>
        assert dets == st.detections + NewDetections(d);
        Ok(ScanState(vulns, dets, st.countDet + added, st.countRows + 1))
  }

  /**
   * One row as the loop meets it: the row's own checks (`ScanStep`), then,
   * for a kept row, the database's binding of its parameters.
   */
  function RowStep(f: ScanFormat, row: Row): (s: Step<ScanData>)
    ensures ScanStep(f, row).Fail? ==> s == ScanStep(f, row)
    ensures ScanStep(f, row).Skip? ==> s.Skip?
    ensures ScanStep(f, row).Keep? ==>
              s == if BindError(ScanStep(f, row).rec).Some? then Fail(BindError(ScanStep(f, row).rec).value)
                   else ScanStep(f, row)
  {
    match ScanStep(f, row)
    case Keep(d) => if BindError(d).Some? then Fail(BindError(d).value) else Keep(d)
    case s => s
  }

  /**
   * A kept row whose QID cell is an int of 2^63 or more makes the loop raise
   * OverflowError, whatever the rest of the row holds.
   */
  lemma QidOverflowRaises(f: ScanFormat, row: Row, n: int)
    requires ScanStep(f, row).Keep? && ScanStep(f, row).rec.qid == Int(n) && n >= 0x8000_0000_0000_0000
    ensures RowStep(f, row) == Fail(SQLITE_OVERFLOW)
  {
  }

  /** A kept row with a valid QID whose detection age is an int of 2^63 or more raises OverflowError too. */
  lemma AgeOverflowRaises(f: ScanFormat, row: Row, n: int)
    requires ScanStep(f, row).Keep? && ScanStep(f, row).rec.detectionAge == Int(n) && n >= 0x8000_0000_0000_0000
    requires ValidQid(ScanStep(f, row).rec.qid).Some? && FitsInt64(ValidQid(ScanStep(f, row).rec.qid).value)
    ensures RowStep(f, row) == Fail(SQLITE_OVERFLOW)
  {
  }

  /** What one row appends to the detection log when it does not raise. */
  function RowDetections(f: ScanFormat, row: Row): seq<Detection> {
    match RowStep(f, row)
    case Keep(d) => NewDetections(d)
    case _ => []
  }

  /** The detections a pass over `rows` appends; they depend on the rows alone. */
  function AddedDetections(f: ScanFormat, rows: seq<Row>): seq<Detection> {
    if rows == [] then [] else RowDetections(f, rows[0]) + AddedDetections(f, rows[1..])
  }

  /** The valid QIDs of the kept rows of a pass. */
  function ScanQids(f: ScanFormat, rows: seq<Row>): set<int> {
    if rows == [] then {}
    else
      var here := match RowStep(f, rows[0])
        case Keep(d) => RowQids(d)
        case _ => {};
      here + ScanQids(f, rows[1..])
  }

  /** The number of kept rows of a pass. */
  function KeptRows(f: ScanFormat, rows: seq<Row>): nat {
    if rows == [] then 0
    else (if RowStep(f, rows[0]).Keep? then 1 else 0) + KeptRows(f, rows[1..])
  }

  /** Row `i` is the first row of `rows` that raises, and it raises `message`. */
  predicate RaisesFirst(f: ScanFormat, rows: seq<Row>, i: int, message: string) {
    0 <= i < |rows| && RowStep(f, rows[i]) == Fail(message)
    && forall j :: 0 <= j < i ==> !RowStep(f, rows[j]).Fail?
  }

  /** When the first row does not raise, some row raises exactly when some later row does. */
  lemma FailLater(f: ScanFormat, rows: seq<Row>)
    requires rows != [] && !RowStep(f, rows[0]).Fail?
    ensures (exists i :: 0 <= i < |rows| && RowStep(f, rows[i]).Fail?)
            <==> (exists i :: 0 <= i < |rows[1..]| && RowStep(f, rows[1..][i]).Fail?)
  {
    if i :| 0 <= i < |rows| && RowStep(f, rows[i]).Fail? {
      assert rows[1..][i - 1] == rows[i];
    }
  }

  /** When the first row does not raise, the first row that raises is the later rows' first. */
  lemma FirstRaiseLater(f: ScanFormat, rows: seq<Row>, m: string)
    requires rows != [] && !RowStep(f, rows[0]).Fail?
    requires exists i :: RaisesFirst(f, rows[1..], i, m)
    ensures exists i :: RaisesFirst(f, rows, i, m)
  {
    var i :| RaisesFirst(f, rows[1..], i, m);
    assert rows[i + 1] == rows[1..][i];
    forall j | 1 <= j < i + 1
      ensures !RowStep(f, rows[j]).Fail?
    {
      assert rows[j] == rows[1..][j - 1];
    }
    assert RaisesFirst(f, rows, i + 1, m);
  }

  lemma AppendAssociates<T>(a: seq<T>, b: seq<T>, c: seq<T>)
    ensures a + b + c == a + (b + c)
    ensures |b + c| == |b| + |c|
  {
  }

  /** A skipped first row adds no detection and is not counted. */
  lemma SkippedRowAddsNothing(f: ScanFormat, rows: seq<Row>)
    requires rows != [] && RowStep(f, rows[0]).Skip?
    ensures AddedDetections(f, rows) == AddedDetections(f, rows[1..])
    ensures KeptRows(f, rows) == KeptRows(f, rows[1..])
  {
    assert RowDetections(f, rows[0]) == [];
    assert [] + AddedDetections(f, rows[1..]) == AddedDetections(f, rows[1..]);
  }

  /** A kept first row adds its own detections ahead of the rest's, and is counted. */
  lemma KeptRowAdds(f: ScanFormat, rows: seq<Row>, d: ScanData)
    requires rows != [] && RowStep(f, rows[0]) == Keep(d)
    ensures AddedDetections(f, rows) == NewDetections(d) + AddedDetections(f, rows[1..])
    ensures KeptRows(f, rows) == 1 + KeptRows(f, rows[1..])
  {
    assert RowDetections(f, rows[0]) == NewDetections(d);
  }

  /**
   * The loop over a scan sheet's rows; the first row that raises, in its own
   * checks or in the database, ends it with that row's exception.
   */
  function ScanRows(f: ScanFormat, rows: seq<Row>, st: ScanState): (r: Result<ScanState>)
    ensures r.Raised? <==> exists i :: 0 <= i < |rows| && RowStep(f, rows[i]).Fail?
    ensures r.Raised? ==> exists i :: RaisesFirst(f, rows, i, r.message)
    ensures r.Ok? ==> r.value.detections == st.detections + AddedDetections(f, rows)
    ensures r.Ok? ==> r.value.countDet == st.countDet + |AddedDetections(f, rows)|
    ensures r.Ok? ==> r.value.countRows == st.countRows + KeptRows(f, rows)
  {
    if rows == [] then Ok(st)
    else
      match ScanStep(f, rows[0])
      case Fail(msg) =>
        assert RaisesFirst(f, rows, 0, msg);
        Raised(msg)
      case Skip =>
        FailLater(f, rows);
        SkippedRowAddsNothing(f, rows);
        var r := ScanRows(f, rows[1..], st);
        if r.Raised? then
          FirstRaiseLater(f, rows, r.message);
          r
        else r
      case Keep(d) =>
        match ScanRowUpdate(st, d)
        case Raised(msg) =>
          assert RaisesFirst(f, rows, 0, msg);
          Raised(msg)
        case Ok(st1) =>
          FailLater(f, rows);
          var r := ScanRows(f, rows[1..], st1);
          if r.Ok? then
            KeptRowAdds(f, rows, d);
            AppendAssociates(st.detections, NewDetections(d), AddedDetections(f, rows[1..]));
            r
          else
            FirstRaiseLater(f, rows, r.message);
            r
  }

  /**
   * A pass adds exactly the valid QIDs of its kept rows to the catalogue,
   * never changes a known definition, and keeps every detection's QID in the
   * catalogue.
   */
  lemma ScanRowsCatalogue(f: ScanFormat, rows: seq<Row>, st: ScanState)
    requires NoRowRaises(f, rows)
    ensures var v := ScanRows(f, rows, st).value.vulns;
            v.Keys == st.vulns.Keys + ScanQids(f, rows)
            && (forall q :: q in st.vulns ==> v[q] == st.vulns[q])
    ensures Covered(st.vulns, st.detections) ==>
              Covered(ScanRows(f, rows, st).value.vulns, ScanRows(f, rows, st).value.detections)
  {
    ScanRowsKeys(f, rows, st);
    if Covered(st.vulns, st.detections) {
      ScanRowsCovered(f, rows, st);
    }
  }

  /** No row of the pass raises, so the pass finishes (`ScanRows`). */
  predicate NoRowRaises(f: ScanFormat, rows: seq<Row>) {
    forall i :: 0 <= i < |rows| ==> !RowStep(f, rows[i]).Fail?
  }

  /** `v` holds every entry of `w` unchanged. */
  predicate KeepsEntries(v: map<int, VulnDef>, w: map<int, VulnDef>) {
    forall q :: q in w ==> q in v && v[q] == w[q]
  }

  /** A pass adds exactly its rows' valid QIDs to the catalogue and keeps every known definition. */
  lemma {:induction false} ScanRowsKeys(f: ScanFormat, rows: seq<Row>, st: ScanState)
    requires ScanRows(f, rows, st).Ok?
    ensures var v := ScanRows(f, rows, st).value.vulns;
            v.Keys == st.vulns.Keys + ScanQids(f, rows) && KeepsEntries(v, st.vulns)
  {
    if rows != [] {
      match ScanStep(f, rows[0])
      case Skip =>
        ScanRowsKeys(f, rows[1..], st);
      case Keep(d) =>
        var st1 := ScanRowUpdate(st, d).value;
        ScanRowsKeys(f, rows[1..], st1);
    }
  }

  /** A pass keeps every detection's QID in the catalogue. */
  lemma {:induction false} ScanRowsCovered(f: ScanFormat, rows: seq<Row>, st: ScanState)
    requires ScanRows(f, rows, st).Ok? && Covered(st.vulns, st.detections)
    ensures Covered(ScanRows(f, rows, st).value.vulns, ScanRows(f, rows, st).value.detections)
  {
    if rows != [] {
      match ScanStep(f, rows[0])
      case Skip =>
        ScanRowsCovered(f, rows[1..], st);
      case Keep(d) =>
        ScanRowsCovered(f, rows[1..], ScanRowUpdate(st, d).value);
    }
  }

  /** The catalogue keys one kept row adds: its QID when valid, otherwise none. */
  function RowQids(d: ScanData): (r: set<int>)
    ensures r == {} <==> ValidQid(d.qid).None?
  {
    if ValidQid(d.qid).Some? then {ValidQid(d.qid).value} else {}
  }

  /** The state a scan sheet leaves and the `(count_det, count_qid)` pair it returns. */
  datatype ScanOutcome = ScanOutcome(vulns: map<int, VulnDef>, detections: seq<Detection>, countDet: nat, countQid: nat)

  /**
   * The loop of `_import_pagonxt` / `_import_getnet` over a present sheet:
   * PagoNxt's second count is the number of kept rows, GetNet's the
   * catalogue size afterwards.
   */
  function SheetPass(f: ScanFormat, rows: seq<Row>, vulns: map<int, VulnDef>, dets: seq<Detection>): (r: Result<ScanOutcome>)
    ensures r.Raised? <==> exists i :: 0 <= i < |rows| && RowStep(f, rows[i]).Fail?
    ensures r.Raised? ==> exists i :: RaisesFirst(f, rows, i, r.message)
    ensures r.Ok? ==> r.value.detections == dets + AddedDetections(f, rows)
                      && r.value.countDet == |AddedDetections(f, rows)|
    ensures r.Ok? ==> r.value.vulns.Keys == vulns.Keys + ScanQids(f, rows)
    ensures r.Ok? ==> forall q :: q in vulns ==> r.value.vulns[q] == vulns[q]
    ensures r.Ok? && Covered(vulns, dets) ==> Covered(r.value.vulns, r.value.detections)
    ensures r.Ok? ==> r.value.countQid == if f.PagoNxtScan? then KeptRows(f, rows) else |r.value.vulns|
  {
    var st0 := ScanState(vulns, dets, 0, 0);
    match ScanRows(f, rows, st0)
    case Raised(m) => Raised(m)
    case Ok(st) =>
      ScanRowsCatalogue(f, rows, st0);
      Ok(ScanOutcome(st.vulns, st.detections, st.countDet,
                     if f.PagoNxtScan? then st.countRows else |st.vulns|))
  }

  /** `_import_pagonxt` / `_import_getnet`: a missing sheet changes nothing and counts (0, 0). */
  function ImportScanSheet(f: ScanFormat, book: Book, vulns: map<int, VulnDef>, dets: seq<Detection>): (r: Result<ScanOutcome>)
    ensures ScanSheet(f) !in SheetNames(book) ==> r == Ok(ScanOutcome(vulns, dets, 0, 0))
    ensures ScanSheet(f) in SheetNames(book) ==>
              r == SheetPass(f, DataRows(GetSheet(book, ScanSheet(f)).value), vulns, dets)
  {
    match GetSheet(book, ScanSheet(f))
    case None => Ok(ScanOutcome(vulns, dets, 0, 0))
    case Some(ws) => SheetPass(f, DataRows(ws), vulns, dets)
  }

  /** What `import_qualys_scan` leaves in the database and reports. */
  datatype ScanResult =
    | ScanFileMissing
    | ScanImported(db: Db, countDet: nat, countQid: nat)
    | ScanRaised(db: Db, message: string)

  /** The layout a source type selects: "PagoNxt" picks its own, anything else GetNet's. */
  function FormatFor(sourceType: string): ScanFormat {
    if sourceType == "PagoNxt" then PagoNxtScan else GetNetScan
  }

  /**
   * `import_qualys_scan`: the only commit is at the end, so a row that raises
   * leaves the database exactly as it was.
   */
  function ImportQualysScan(fileExists: bool, book: Book, sourceType: string, db: Db): (r: ScanResult)
    ensures r.ScanFileMissing? <==> !fileExists
    ensures r.ScanRaised? ==> r.db == db
    ensures !r.ScanFileMissing? ==> r.db == db.(vulns := r.db.vulns, detections := r.db.detections)
    ensures !r.ScanFileMissing? ==> forall q :: q in db.vulns ==> q in r.db.vulns && r.db.vulns[q] == db.vulns[q]
    ensures !r.ScanFileMissing? ==>
              |db.detections| <= |r.db.detections| && r.db.detections[..|db.detections|] == db.detections
    ensures !r.ScanFileMissing? && Covered(db.vulns, db.detections) ==> Covered(r.db.vulns, r.db.detections)
    ensures r.ScanImported? ==> r.countDet == |r.db.detections| - |db.detections|
  {
    if !fileExists then ScanFileMissing
    else
      match ImportScanSheet(FormatFor(sourceType), book, db.vulns, db.detections)
      case Raised(m) => ScanRaised(db, m)
      case Ok(o) => ScanImported(db.(vulns := o.vulns, detections := o.detections), o.countDet, o.countQid)
  }

  /** The data rows of the sheet a source type reads, when the workbook has it. */
  function ScanRowsOf(book: Book, sourceType: string): seq<Row> {
    var f := FormatFor(sourceType);
    if ScanSheet(f) in SheetNames(book) then DataRows(GetSheet(book, ScanSheet(f)).value) else []
  }

  /**
   * The import fails exactly when some row of the scan sheet raises, in its
   * own checks or in the database (a QID or detection age beyond 64 bits, a
   * time of day as detection age). It then fails with the first such row's
   * exception and leaves the database exactly as it was.
   */
  lemma ImportRaisesOnRaisingRow(book: Book, sourceType: string, db: Db)
    ensures var f := FormatFor(sourceType);
            var rows := ScanRowsOf(book, sourceType);
            var r := ImportQualysScan(true, book, sourceType, db);
            (r.ScanRaised? <==> exists i :: 0 <= i < |rows| && RowStep(f, rows[i]).Fail?)
            && (r.ScanRaised? ==> r.db == db && exists i :: RaisesFirst(f, rows, i, r.message))
  {
  }

  /** Every detection a scan appends is "Active", carries the layout's source tag and a non-zero QID. */
  lemma {:induction false} AddedDetectionsShape(f: ScanFormat, rows: seq<Row>)
    ensures forall i :: 0 <= i < |AddedDetections(f, rows)| ==>
              var t := AddedDetections(f, rows)[i];
              t.status == "Active" && t.source == SourceTag(f) && t.qid != 0
  {
    if rows != [] {
      AddedDetectionsShape(f, rows[1..]);
      var here := RowDetections(f, rows[0]);
      assert forall i :: 0 <= i < |here| ==> here[i].status == "Active" && here[i].source == SourceTag(f) && here[i].qid != 0;
      assert AddedDetections(f, rows) == here + AddedDetections(f, rows[1..]);
    }
  }

  /**
   * A pass whose QIDs are all catalogued already leaves the catalogue as it
   * is; this is what a second import of the same scan meets.
   */
  lemma KnownQidsLeaveCatalogue(f: ScanFormat, rows: seq<Row>, st: ScanState)
    requires NoRowRaises(f, rows)
    requires ScanQids(f, rows) <= st.vulns.Keys
    ensures ScanRows(f, rows, st).value.vulns == st.vulns
  {
    var v := ScanRows(f, rows, st).value.vulns;
    ScanRowsKeys(f, rows, st);
    GrownByKnownKeys(v, st.vulns, ScanQids(f, rows));
  }

  /** A map that keeps every entry of `w` and whose keys are `w`'s plus some of `w`'s own is `w`. */
  lemma GrownByKnownKeys(v: map<int, VulnDef>, w: map<int, VulnDef>, added: set<int>)
    requires v.Keys == w.Keys + added && added <= w.Keys
    requires KeepsEntries(v, w)
    ensures v == w
  {
    assert v.Keys == w.Keys;
    assert forall q :: q in v ==> v[q] == w[q];
  }

  /**
   * Importing the same scan twice: the second import also succeeds, leaves
   * the catalogue unchanged and appends the same detections once more.
   */
  lemma ReimportAppendsSameDetections(book: Book, sourceType: string, db: Db)
    requires ImportQualysScan(true, book, sourceType, db).ScanImported?
    ensures var db1 := ImportQualysScan(true, book, sourceType, db).db;
            var r2 := ImportQualysScan(true, book, sourceType, db1);
            r2.ScanImported?
            && r2.db.vulns == db1.vulns
            && r2.db.detections == db1.detections + db1.detections[|db.detections|..]
  {
    var f := FormatFor(sourceType);
    if ScanSheet(f) in SheetNames(book) {
      var rows := DataRows(GetSheet(book, ScanSheet(f)).value);
      SheetPassTwice(f, rows, db.vulns, db.detections);
    }
  }

  /** A second pass over the same rows finds every QID catalogued and appends the same block. */
  lemma SheetPassTwice(f: ScanFormat, rows: seq<Row>, vulns: map<int, VulnDef>, dets: seq<Detection>)
    requires SheetPass(f, rows, vulns, dets).Ok?
    ensures var p1 := SheetPass(f, rows, vulns, dets).value;
            var p2 := SheetPass(f, rows, p1.vulns, p1.detections);
            p2.Ok? && p2.value.vulns == p1.vulns
            && p2.value.detections == p1.detections + p1.detections[|dets|..]
  {
    var p1 := SheetPass(f, rows, vulns, dets).value;
    var p2 := SheetPass(f, rows, p1.vulns, p1.detections).value;
    assert p2.vulns.Keys == p1.vulns.Keys;
    assert p1.detections[|dets|..] == AddedDetections(f, rows);
  }

  /**
   * Every detection a successful import appends is "Active", carries the
   * source tag of the layout the source type selects, and points into the
   * catalogue.
   */
  lemma ImportedDetectionsShape(book: Book, sourceType: string, db: Db)
    requires ImportQualysScan(true, book, sourceType, db).ScanImported?
    ensures var r := ImportQualysScan(true, book, sourceType, db);
            forall i :: |db.detections| <= i < |r.db.detections| ==>
              r.db.detections[i].status == "Active"
              && r.db.detections[i].source == SourceTag(FormatFor(sourceType))
              && r.db.detections[i].qid in r.db.vulns
  {
    var f := FormatFor(sourceType);
    if ScanSheet(f) in SheetNames(book) {
      var rows := DataRows(GetSheet(book, ScanSheet(f)).value);
      AddedDetectionsShape(f, rows);
      AddedQidsCatalogued(f, rows);
    }
  }

  /** The QIDs of the detections a pass appends are among the QIDs it catalogues. */
  lemma {:induction false} AddedQidsCatalogued(f: ScanFormat, rows: seq<Row>)
    ensures forall i :: 0 <= i < |AddedDetections(f, rows)| ==> AddedDetections(f, rows)[i].qid in ScanQids(f, rows)
  {
    if rows != [] {
      AddedQidsCatalogued(f, rows[1..]);
      assert AddedDetections(f, rows) == RowDetections(f, rows[0]) + AddedDetections(f, rows[1..]);
    }
  }
}

=== FILE: queries.dfy ===
/**
 * The read side of the database and the two ticket edits: paging arithmetic,
 * the full-CMDB listing joined with the Oracle inventory, the server detail
 * lookup, editing and deleting a ticket by key, and the dashboard counts.
 * Tables are the in-memory sequences of `Records.Db`; SQL text is not modelled.
 */
module Queries {
  import opened Wrappers
  import opened Text
  import opened Records

  // ---------------------------------------------------------------------------
  // Paging
  // ---------------------------------------------------------------------------

  /** Python's `//`, which rounds toward negative infinity for either sign of divisor. */
  function FloorDiv(a: int, b: int): (q: int)
    requires b != 0
    ensures b > 0 ==> q * b <= a < q * b + b
    ensures b < 0 ==> q * b >= a > q * b + b
  {
    if b > 0 then a / b else (-a) / (-b)
  }

  const ZERO_DIVISION := "integer division or modulo by zero"

  /** The page count the listings report, by floor division; a page size of zero raises. */
  function Pages(total: nat, perPage: int): (r: Result<int>)
    ensures r.Raised? <==> perPage == 0
    ensures r.Raised? ==> r.message == ZERO_DIVISION
  {
    if perPage == 0 then Raised(ZERO_DIVISION) else Ok(FloorDiv(total + perPage - 1, perPage))
  }

  /** For a positive page size the page count is the ceiling of `total / per_page`. */
  lemma PagesIsCeiling(total: nat, perPage: int)
    requires perPage > 0
    ensures var p := Pages(total, perPage).value;
            p >= 0 && (p - 1) * perPage < total <= p * perPage
            && (p == 0 <==> total == 0)
  {
    var p := Pages(total, perPage).value;
    assert p * perPage <= total + perPage - 1 < p * perPage + perPage;
  }

  /** The number of rows skipped before a page. */
  function Offset(page: int, perPage: int): int {
    (page - 1) * perPage
  }

  /**
   * SQLite's `LIMIT n OFFSET m` on rows in result order: a negative offset
   * counts as zero and a negative limit means no limit.
   */
  function PageOf<T>(rows: seq<T>, limit: int, offset: int): (r: seq<T>)
    ensures |r| <= |rows| && (limit >= 0 ==> |r| <= limit)
    ensures offset >= 0 ==> forall k :: 0 <= k < |r| ==> offset + k < |rows| && r[k] == rows[offset + k]
    ensures offset < 0 ==> r == rows[..|r|] && |r| == if 0 <= limit <= |rows| then limit else |rows|
    ensures 0 <= offset && 0 <= limit && offset + limit <= |rows| ==> |r| == limit
    ensures 0 <= offset && (limit < 0 || offset + limit > |rows|) ==> |r| == if offset > |rows| then 0 else |rows| - offset
  {
    var from := if offset < 0 then 0 else if offset > |rows| then |rows| else offset;
    var to := if limit < 0 || from + limit > |rows| then |rows| else from + limit;
    rows[from..to]
  }

  lemma MulMonotone(a: int, b: int, k: int)
    requires a <= b && k > 0
    ensures a * k <= b * k
  {
    assert b * k - a * k == (b - a) * k;
  }

  /**
   * With a positive page size row `i` is item `i % per_page` of page
   * `i / per_page + 1`, and that page is within the page count.
   */
  lemma RowOnItsPage<T>(rows: seq<T>, perPage: int, i: nat)
    requires perPage > 0 && i < |rows|
    ensures var page := i / perPage + 1;
            var items := PageOf(rows, perPage, Offset(page, perPage));
            1 <= page <= Pages(|rows|, perPage).value
            && i % perPage < |items| && items[i % perPage] == rows[i]
  {
    var q := i / perPage;
    var rm := i % perPage;
    assert i == q * perPage + rm;
    assert Offset(q + 1, perPage) == q * perPage;
    PagesIsCeiling(|rows|, perPage);
    var p := Pages(|rows|, perPage).value;
    if q + 1 > p {
      MulMonotone(p, q, perPage);
    }
  }

  /** No other page covers row `i`: every other page ends before it or starts after it. */
  lemma RowOnNoOtherPage(perPage: int, i: nat, page: int)
    requires perPage > 0 && 1 <= page && page != i / perPage + 1
    ensures Offset(page, perPage) > i || Offset(page, perPage) + perPage <= i
  {
    var q := i / perPage;
    assert q * perPage <= i < q * perPage + perPage;
    if page <= q {
      MulMonotone(page, q, perPage);
      assert Offset(page, perPage) + perPage == page * perPage;
    } else {
      MulMonotone(q + 1, page - 1, perPage);
      assert (q + 1) * perPage == q * perPage + perPage;
    }
  }

  // ---------------------------------------------------------------------------
  // Full CMDB listing
  // ---------------------------------------------------------------------------

  /** The join condition: same host name up to ASCII case, and the same environment. */
  predicate Matches(c: CmdbFull, s: Server) {
    AsciiLower(c.hostname) == AsciiLower(s.primaryHostname) && c.environment == s.environment
  }

  /** One row of the listing: a full-CMDB row and the inventory row joined to it, if any. */
  datatype Joined = Joined(row: CmdbFull, oracle: Option<Server>)

  /** The inventory rows a full-CMDB row joins with, in table order. */
  function MatchingServers(c: CmdbFull, servers: seq<Server>): (r: seq<Server>)
    ensures forall s :: s in r <==> s in servers && Matches(c, s)
  {
    if servers == [] then []
    else (if Matches(c, servers[0]) then [servers[0]] else []) + MatchingServers(c, servers[1..])
  }

  /** The rows one full-CMDB row contributes to `c LEFT JOIN s`. */
  function JoinOne(c: CmdbFull, servers: seq<Server>): (r: seq<Joined>)
    ensures |r| >= 1
    ensures forall j :: j in r ==> j.row == c
    ensures forall j :: j in r && j.oracle.Some? ==> j.oracle.value in servers && Matches(c, j.oracle.value)
    ensures forall j :: j in r && j.oracle.None? ==> forall s :: s in servers ==> !Matches(c, s)
    ensures forall s :: s in servers && Matches(c, s) ==> Joined(c, Some(s)) in r
  {
    var ms := MatchingServers(c, servers);
    if ms == [] then [Joined(c, None)]
    else
      var r := seq(|ms|, k requires 0 <= k < |ms| => Joined(c, Some(ms[k])));
      assert forall k :: 0 <= k < |ms| ==> r[k] == Joined(c, Some(ms[k]));
      r
  }

  /** `cmdb_full c LEFT JOIN servers s ON Matches(c, s)`, in table order. */
  function LeftJoin(cmdb: seq<CmdbFull>, servers: seq<Server>): seq<Joined> {
    if cmdb == [] then [] else JoinOne(cmdb[0], servers) + LeftJoin(cmdb[1..], servers)
  }

  /**
   * The join keeps every full-CMDB row, joins exactly the matching inventory
   * rows, and leaves the inventory side empty only when nothing matches.
   */
  lemma {:induction false} LeftJoinSemantics(cmdb: seq<CmdbFull>, servers: seq<Server>)
    ensures forall j :: j in LeftJoin(cmdb, servers) ==> j.row in cmdb
    ensures forall j :: j in LeftJoin(cmdb, servers) && j.oracle.Some? ==>
              j.oracle.value in servers && Matches(j.row, j.oracle.value)
    ensures forall j :: j in LeftJoin(cmdb, servers) && j.oracle.None? ==>
              forall s :: s in servers ==> !Matches(j.row, s)
    ensures forall c :: c in cmdb ==> exists j :: j in LeftJoin(cmdb, servers) && j.row == c
    ensures forall c, s :: c in cmdb && s in servers && Matches(c, s) ==> Joined(c, Some(s)) in LeftJoin(cmdb, servers)
  {
    if cmdb != [] {
      LeftJoinSemantics(cmdb[1..], servers);
      var head := JoinOne(cmdb[0], servers);
      assert LeftJoin(cmdb, servers) == head + LeftJoin(cmdb[1..], servers);
      assert head[0] in head;
      assert forall c :: c in cmdb ==> c == cmdb[0] || c in cmdb[1..];
    }
  }

  /** The listing's equality filters; an empty value switches its filter off. */
  datatype CmdbFilter = CmdbFilter(client: string, dbType: string, status: string, environment: string, search: string)

  /**
   * A row passes when it meets every filter that is switched on. The text
   * search uses SQL `LIKE`, which is taken as the parameter `like(field, text)`.
   */
  predicate Passes(c: CmdbFull, q: CmdbFilter, like: (string, string) -> bool) {
    (q.client == "" || c.client == q.client)
    && (q.dbType == "" || c.dbType == q.dbType)
    && (q.status == "" || c.status == q.status)
    && (q.environment == "" || c.environment == q.environment)
    && (q.search == "" || like(c.hostname, q.search) || like(c.contingency, q.search)
        || like(c.systemProduct, q.search) || like(c.description, q.search))
  }

  function FilterJoined(rows: seq<Joined>, q: CmdbFilter, like: (string, string) -> bool): (r: seq<Joined>)
    ensures forall j :: j in r <==> j in rows && Passes(j.row, q, like)
    ensures |r| <= |rows|
  {
    if rows == [] then []
    else (if Passes(rows[0].row, q, like) then [rows[0]] else []) + FilterJoined(rows[1..], q, like)
  }

  /** One page of a listing with its paging header. */
  datatype Listing<T> = Listing(data: seq<T>, total: nat, page: int, perPage: int, pages: int)

  /**
   * `get_cmdb_full`: the filtered join, one page of it, and its size. Rows come
   * in table order; the listing's `ORDER BY` is not modelled.
   */
  function GetCmdbFull(cmdb: seq<CmdbFull>, servers: seq<Server>, q: CmdbFilter, like: (string, string) -> bool,
                       page: int, perPage: int): (r: Result<Listing<Joined>>)
    ensures r.Raised? <==> perPage == 0
    ensures r.Ok? ==> r.value.total == |FilterJoined(LeftJoin(cmdb, servers), q, like)|
                      && r.value.pages == Pages(r.value.total, perPage).value
    ensures r.Ok? ==> forall j :: j in r.value.data ==> j.row in cmdb && Passes(j.row, q, like)
    ensures r.Ok? && perPage > 0 && page >= 1 ==> |r.value.data| <= perPage
    ensures r.Ok? ==> r.value.data == PageOf(FilterJoined(LeftJoin(cmdb, servers), q, like), perPage, Offset(page, perPage))
                      && r.value.page == page && r.value.perPage == perPage
  {
    var all := FilterJoined(LeftJoin(cmdb, servers), q, like);
    match Pages(|all|, perPage)
    case Raised(m) => Raised(m)
    case Ok(pages) =>
      LeftJoinSemantics(cmdb, servers);
      var data := PageOf(all, perPage, Offset(page, perPage));
      assert forall j :: j in data ==> j in all;
      Ok(Listing(data, |all|, page, perPage, pages))
  }

  /** Every full-CMDB row that passes the filters is in the listing's result set, joined or not. */
  lemma ListingKeepsPassingRows(cmdb: seq<CmdbFull>, servers: seq<Server>, q: CmdbFilter,
                                like: (string, string) -> bool, c: CmdbFull)
    requires c in cmdb && Passes(c, q, like)
    ensures exists j :: j in FilterJoined(LeftJoin(cmdb, servers), q, like) && j.row == c
  {
    LeftJoinSemantics(cmdb, servers);
  }

  // ---------------------------------------------------------------------------
  // Server details
  // ---------------------------------------------------------------------------

  predicate SameHost(a: string, b: string) {
    AsciiLower(a) == AsciiLower(b)
  }

  /** The header of the server detail page, from one of its two sources. */
  datatype Details =
    | CmdbDetails(joined: Joined)
    | InventoryDetails(hostname: string, environment: string, dbType: string, status: string,
                       oraclePsu: string, oracleStart: string, oracleEnd: string, oracleObservation: string,
                       primaryContact: string, responsibleTeam: string, systemProduct: string)

  /** The `source` label the page shows. */
  function SourceLabel(d: Details): string {
    if d.CmdbDetails? then "CMDB Full" else "Inventory Only"
  }

  function FirstJoinedForHost(rows: seq<Joined>, hostname: string): (r: Option<Joined>)
    ensures r.None? <==> forall j :: j in rows ==> !SameHost(j.row.hostname, hostname)
    ensures r.Some? ==> r.value in rows && SameHost(r.value.row.hostname, hostname)
  {
    if rows == [] then None
    else if SameHost(rows[0].row.hostname, hostname) then Some(rows[0])
    else FirstJoinedForHost(rows[1..], hostname)
  }

  function FirstServerForHost(servers: seq<Server>, hostname: string): (r: Option<Server>)
    ensures r.None? <==> forall s :: s in servers ==> !SameHost(s.primaryHostname, hostname)
    ensures r.Some? ==> r.value in servers && SameHost(r.value.primaryHostname, hostname)
  {
    if servers == [] then None
    else if SameHost(servers[0].primaryHostname, hostname) then Some(servers[0])
    else FirstServerForHost(servers[1..], hostname)
  }

  /** An inventory row presented in the detail page's shape. */
  function InventoryView(s: Server): Details {
    InventoryDetails(s.primaryHostname, s.environment, "Oracle", "In Inventory Only",
                     s.psuVersion, s.startTime, s.endTime, s.observation,
                     s.primaryContact, s.responsibleTeam, s.systemProduct)
  }

  /**
   * `get_server_details`: the full CMDB (joined with the inventory) is asked
   * first, the inventory alone second; a host in neither has no page.
   */
  function GetServerDetails(cmdb: seq<CmdbFull>, servers: seq<Server>, hostname: string): (r: Option<Details>)
    ensures r.None? <==> (forall c :: c in cmdb ==> !SameHost(c.hostname, hostname))
                         && (forall s :: s in servers ==> !SameHost(s.primaryHostname, hostname))
    ensures r.Some? && r.value.CmdbDetails? ==>
              r.value.joined.row in cmdb && SameHost(r.value.joined.row.hostname, hostname)
              && (r.value.joined.oracle.Some? ==> r.value.joined.oracle.value in servers
                                                  && Matches(r.value.joined.row, r.value.joined.oracle.value))
              && (r.value.joined.oracle.None? ==> forall s :: s in servers ==> !Matches(r.value.joined.row, s))
    ensures r.Some? && r.value.InventoryDetails? ==>
              (forall c :: c in cmdb ==> !SameHost(c.hostname, hostname))
              && exists s :: s in servers && SameHost(s.primaryHostname, hostname) && r.value == InventoryView(s)
    ensures r.Some? && r.value.InventoryDetails? ==> r.value.dbType == "Oracle" && r.value.status == "In Inventory Only"
  {
    LeftJoinSemantics(cmdb, servers);
    match FirstJoinedForHost(LeftJoin(cmdb, servers), hostname)
    case Some(j) => Some(CmdbDetails(j))
    case None =>
      match FirstServerForHost(servers, hostname)
      case Some(s) => Some(InventoryView(s))
      case None => None
  }

  /** The first host match of a concatenation is the first part's, if it has one. */
  lemma {:induction false} FirstJoinedAppend(a: seq<Joined>, b: seq<Joined>, hostname: string)
    ensures FirstJoinedForHost(a + b, hostname) ==
              if FirstJoinedForHost(a, hostname).Some? then FirstJoinedForHost(a, hostname) else FirstJoinedForHost(b, hostname)
  {
    if a != [] {
      assert (a + b)[0] == a[0];
      assert (a + b)[1..] == a[1..] + b;
      FirstJoinedAppend(a[1..], b, hostname);
    } else {
      assert a + b == b;
    }
  }

  /**
   * The joined rows for a host start with those of the earliest full-CMDB row
   * naming it: the first of them pairs that row with its first matching
   * inventory row, or with nothing.
   */
  lemma {:induction false} FirstJoinedIsEarliestRow(cmdb: seq<CmdbFull>, servers: seq<Server>, hostname: string, i: nat)
    requires i < |cmdb| && SameHost(cmdb[i].hostname, hostname)
    requires forall k :: 0 <= k < i ==> !SameHost(cmdb[k].hostname, hostname)
    ensures FirstJoinedForHost(LeftJoin(cmdb, servers), hostname) == Some(JoinOne(cmdb[i], servers)[0])
  {
    var head := JoinOne(cmdb[0], servers);
    assert LeftJoin(cmdb, servers) == head + LeftJoin(cmdb[1..], servers);
    FirstJoinedAppend(head, LeftJoin(cmdb[1..], servers), hostname);
    if i == 0 {
      assert head[0] in head;
    } else {
      assert !SameHost(cmdb[0].hostname, hostname);
      assert FirstJoinedForHost(head, hostname).None?;
      FirstJoinedIsEarliestRow(cmdb[1..], servers, hostname, i - 1);
    }
  }

  /** The earliest inventory row naming the host is the one found. */
  lemma {:induction false} FirstServerIsEarliest(servers: seq<Server>, hostname: string, i: nat)
    requires i < |servers| && SameHost(servers[i].primaryHostname, hostname)
    requires forall k :: 0 <= k < i ==> !SameHost(servers[k].primaryHostname, hostname)
    ensures FirstServerForHost(servers, hostname) == Some(servers[i])
  {
    if i > 0 {
      assert !SameHost(servers[0].primaryHostname, hostname);
      FirstServerIsEarliest(servers[1..], hostname, i - 1);
    }
  }

  /**
   * `fetchone()` on the joined query: the page shows the earliest full-CMDB
   * row for the host, joined with its first matching inventory row if any.
   */
  lemma ServerDetailsFromEarliestCmdbRow(cmdb: seq<CmdbFull>, servers: seq<Server>, hostname: string, i: nat)
    requires i < |cmdb| && SameHost(cmdb[i].hostname, hostname)
    requires forall k :: 0 <= k < i ==> !SameHost(cmdb[k].hostname, hostname)
    ensures var ms := MatchingServers(cmdb[i], servers);
            GetServerDetails(cmdb, servers, hostname) ==
              Some(CmdbDetails(Joined(cmdb[i], if ms == [] then None else Some(ms[0]))))
  {
    FirstJoinedIsEarliestRow(cmdb, servers, hostname, i);
  }

  /**
   * `fetchone()` on the inventory query: with no full-CMDB row for the host,
   * the page shows the earliest inventory row for it.
   */
  lemma ServerDetailsFromEarliestServer(cmdb: seq<CmdbFull>, servers: seq<Server>, hostname: string, i: nat)
    requires forall c :: c in cmdb ==> !SameHost(c.hostname, hostname)
    requires i < |servers| && SameHost(servers[i].primaryHostname, hostname)
    requires forall k :: 0 <= k < i ==> !SameHost(servers[k].primaryHostname, hostname)
    ensures GetServerDetails(cmdb, servers, hostname) == Some(InventoryView(servers[i]))
  {
    FirstServerIsEarliest(servers, hostname, i);
  }

  // ---------------------------------------------------------------------------
  // Editing and deleting a ticket
  // ---------------------------------------------------------------------------

  /** `get_gmud_by_id`: the ticket stored under a key, if any. */
  function GetGmudById(gmuds: seq<Ticket>, id: int): (r: Option<Ticket>)
    ensures r.None? <==> forall i :: 0 <= i < |gmuds| ==> gmuds[i].id != id
    ensures r.Some? ==> r.value in gmuds && r.value.id == id
  {
    if gmuds == [] then None
    else if gmuds[0].id == id then Some(gmuds[0])
    else
      var rest := GetGmudById(gmuds[1..], id);
      assert forall i :: 1 <= i < |gmuds| ==> gmuds[i] == gmuds[1..][i - 1];
      rest
  }

  /** The form of an edit: each key the browser sent, with its value or null. */
  type EditForm = map<string, Option<string>>

  function Field(data: EditForm, key: string): Option<string> {
    if key in data then data[key] else None
  }

  /** The twelve columns an edit writes; a key the form lacks is written as NULL. */
  function EditedFields(data: EditForm): TicketFields {
    TicketFields(
      Field(data, "client"), Field(data, "db_type"), Field(data, "environment"), Field(data, "status"),
      Field(data, "start_date"), Field(data, "end_date"), Field(data, "change_number"), Field(data, "title"),
      Field(data, "assigned_to"), Field(data, "observation"), Field(data, "vulnerability"), Field(data, "opened_by"))
  }

  /**
   * `update_gmud`: the twelve editable columns of the ticket with that key are
   * overwritten; its year, month, day name and the extended columns are not.
   * The flag says whether some ticket had the key.
   */
  function UpdateGmud(db: Db, id: int, data: EditForm): (r: (Db, bool))
    ensures r.0 == db.(gmuds := r.0.gmuds)
    ensures r.1 <==> exists i :: 0 <= i < |db.gmuds| && db.gmuds[i].id == id
    ensures |r.0.gmuds| == |db.gmuds|
    ensures forall i :: 0 <= i < |db.gmuds| ==> r.0.gmuds[i].id == db.gmuds[i].id
    ensures forall i :: 0 <= i < |db.gmuds| && db.gmuds[i].id != id ==> r.0.gmuds[i] == db.gmuds[i]
    ensures forall i :: 0 <= i < |db.gmuds| && db.gmuds[i].id == id ==>
              r.0.gmuds[i].data.fields == EditedFields(data)
              && r.0.gmuds[i].data == db.gmuds[i].data.(fields := r.0.gmuds[i].data.fields)
  {
    var gmuds := seq(|db.gmuds|, i requires 0 <= i < |db.gmuds| =>
      if db.gmuds[i].id == id then db.gmuds[i].(data := db.gmuds[i].data.(fields := EditedFields(data)))
      else db.gmuds[i]);
    (db.(gmuds := gmuds), exists i :: 0 <= i < |db.gmuds| && db.gmuds[i].id == id)
  }

  /** Reading a ticket back after editing it gives the edited columns. */
  lemma UpdateThenRead(db: Db, id: int, data: EditForm)
    requires TicketKeysOrdered(db.gmuds, db.nextTicketId)
    requires GetGmudById(db.gmuds, id).Some?
    ensures var after := UpdateGmud(db, id, data).0;
            TicketKeysOrdered(after.gmuds, after.nextTicketId)
            && GetGmudById(after.gmuds, id).Some?
            && GetGmudById(after.gmuds, id).value.data
               == GetGmudById(db.gmuds, id).value.data.(fields := EditedFields(data))
  {
    var after := UpdateGmud(db, id, data).0;
    var t := GetGmudById(db.gmuds, id).value;
    var i :| 0 <= i < |db.gmuds| && db.gmuds[i] == t;
    SameKeysOrdered(db.gmuds, after.gmuds, db.nextTicketId);
    GmudByIdAt(db.gmuds, db.nextTicketId, i);
    GmudByIdAt(after.gmuds, after.nextTicketId, i);
  }

  /** With strictly increasing keys, looking up a ticket's key finds that ticket. */
  lemma GmudByIdAt(gmuds: seq<Ticket>, next: nat, i: nat)
    requires TicketKeysOrdered(gmuds, next) && i < |gmuds|
    ensures GetGmudById(gmuds, gmuds[i].id) == Some(gmuds[i])
  {
    var r := GetGmudById(gmuds, gmuds[i].id);
    var k :| 0 <= k < |gmuds| && gmuds[k] == r.value;
    assert !(k < i) && !(i < k);
  }

  /** Ticket keys stay ordered when the tickets change but their keys do not. */
  lemma SameKeysOrdered(a: seq<Ticket>, b: seq<Ticket>, next: nat)
    requires TicketKeysOrdered(a, next)
    requires |b| == |a| && forall i :: 0 <= i < |a| ==> b[i].id == a[i].id
    ensures TicketKeysOrdered(b, next)
  {
  }

  /**
   * `delete_gmud`: the ticket with that key is removed, every other ticket
   * stays in order, and the key counter is untouched.
   */
  function DeleteGmud(db: Db, id: int): (r: (Db, bool))
    ensures r.0 == db.(gmuds := r.0.gmuds)
    ensures r.1 <==> exists i :: 0 <= i < |db.gmuds| && db.gmuds[i].id == id
    ensures forall t :: t in r.0.gmuds <==> t in db.gmuds && t.id != id
    ensures |r.0.gmuds| <= |db.gmuds|
  {
    (db.(gmuds := WithoutKey(db.gmuds, id)), exists i :: 0 <= i < |db.gmuds| && db.gmuds[i].id == id)
  }

  function WithoutKey(gmuds: seq<Ticket>, id: int): (r: seq<Ticket>)
    ensures forall t :: t in r <==> t in gmuds && t.id != id
    ensures |r| <= |gmuds|
  {
    if gmuds == [] then []
    else (if gmuds[0].id == id then [] else [gmuds[0]]) + WithoutKey(gmuds[1..], id)
  }

  /** Removing one key keeps the others in storage order, so the keys stay strictly increasing. */
  lemma {:induction false} WithoutKeyOrdered(gmuds: seq<Ticket>, id: int, next: nat)
    requires TicketKeysOrdered(gmuds, next)
    ensures TicketKeysOrdered(WithoutKey(gmuds, id), next)
  {
    if gmuds != [] {
      var tail := gmuds[1..];
      assert TicketKeysOrdered(tail, next);
      WithoutKeyOrdered(tail, id, next);
      var rest := WithoutKey(tail, id);
      var r := WithoutKey(gmuds, id);
      assert r == (if gmuds[0].id == id then [] else [gmuds[0]]) + rest;
      if gmuds[0].id != id {
        forall k | 0 <= k < |rest|
          ensures gmuds[0].id < rest[k].id
        {
          assert rest[k] in tail;
          var m :| 0 <= m < |tail| && tail[m] == rest[k];
          assert tail[m] == gmuds[m + 1];
        }
        OrderedCons(gmuds[0], rest, next);
      } else {
        assert r == rest;
      }
    }
  }

  /** A ticket below every key of an ordered table, and below the counter, can go in front. */
  lemma OrderedCons(t: Ticket, rest: seq<Ticket>, next: nat)
    requires TicketKeysOrdered(rest, next) && t.id < next
    requires forall k :: 0 <= k < |rest| ==> t.id < rest[k].id
    ensures TicketKeysOrdered([t] + rest, next)
  {
    var r := [t] + rest;
    forall i, j | 0 <= i < j < |r|
      ensures r[i].id < r[j].id
    {
      assert r[j] == rest[j - 1];
      if i > 0 {
        assert r[i] == rest[i - 1];
      }
    }
  }

  /** Removing a key present once shortens the table by exactly one. */
  lemma {:induction false} WithoutKeyLength(gmuds: seq<Ticket>, id: int, next: nat)
    requires TicketKeysOrdered(gmuds, next)
    requires exists i :: 0 <= i < |gmuds| && gmuds[i].id == id
    ensures |WithoutKey(gmuds, id)| == |gmuds| - 1
  {
    var tail := gmuds[1..];
    if gmuds[0].id == id {
      WithoutAbsentKey(tail, id);
    } else {
      var i :| 0 <= i < |gmuds| && gmuds[i].id == id;
      assert tail[i - 1].id == id;
      assert TicketKeysOrdered(tail, next);
      WithoutKeyLength(tail, id, next);
    }
  }

  /** Removing a key no ticket has changes nothing. */
  lemma {:induction false} WithoutAbsentKey(gmuds: seq<Ticket>, id: int)
    requires forall i :: 0 <= i < |gmuds| ==> gmuds[i].id != id
    ensures WithoutKey(gmuds, id) == gmuds
  {
    if gmuds != [] {
      WithoutAbsentKey(gmuds[1..], id);
      assert gmuds == [gmuds[0]] + gmuds[1..];
    }
  }

  /**
   * A deleted key is gone for good: afterwards no ticket has it, reading it
   * finds nothing, and every key handed out later is above it.
   */
  lemma DeletedKeyNeverReused(db: Db, id: int)
    requires TicketKeysOrdered(db.gmuds, db.nextTicketId)
    requires GetGmudById(db.gmuds, id).Some?
    ensures var after := DeleteGmud(db, id);
            after.1
            && GetGmudById(after.0.gmuds, id).None?
            && |after.0.gmuds| == |db.gmuds| - 1
            && TicketKeysOrdered(after.0.gmuds, after.0.nextTicketId)
            && id < after.0.nextTicketId
  {
    WithoutKeyOrdered(db.gmuds, id, db.nextTicketId);
    WithoutKeyLength(db.gmuds, id, db.nextTicketId);
    var t := GetGmudById(db.gmuds, id).value;
    var after := DeleteGmud(db, id).0;
    assert forall i :: 0 <= i < |after.gmuds| ==> after.gmuds[i] in after.gmuds;
  }

  // ---------------------------------------------------------------------------
  // Dashboard
  // ---------------------------------------------------------------------------

  /** `SUM(total_servers)`, zero on an empty table. */
  function SumTotalServers(servers: seq<Server>): int {
    if servers == [] then 0 else servers[0].totalServers + SumTotalServers(servers[1..])
  }

  /** `COUNT(*) ... WHERE has_standby = v`. */
  function CountStandby(servers: seq<Server>, v: int): (n: nat)
    ensures n <= |servers|
  {
    if servers == [] then 0 else (if servers[0].hasStandby == v then 1 else 0) + CountStandby(servers[1..], v)
  }

  /** `COUNT(*) ... WHERE has_ggs = 1`. */
  function CountGgs(servers: seq<Server>): (n: nat)
    ensures n <= |servers|
  {
    if servers == [] then 0 else (if servers[0].hasGgs == 1 then 1 else 0) + CountGgs(servers[1..])
  }

  /** The dashboard's scalar counts. */
  datatype Dashboard = Dashboard(totalServers: int, totalRows: nat, totalGgs: nat, withStandby: nat,
                                 standalone: nat, totalCmdb: nat, totalCmdbFull: nat, totalGmuds: nat)

  /** `get_dashboard_stats`, its scalar part. */
  function GetDashboardStats(db: Db): (d: Dashboard)
    ensures d.totalRows == |db.servers| && d.totalCmdb == |db.cmdb| && d.totalCmdbFull == |db.cmdbFull|
    ensures d.totalGmuds == |db.gmuds|
    ensures d.withStandby <= d.totalRows && d.standalone <= d.totalRows && d.totalGgs <= d.totalRows
  {
    Dashboard(SumTotalServers(db.servers), |db.servers|, CountGgs(db.servers),
              CountStandby(db.servers, 1), CountStandby(db.servers, 0), |db.cmdb|, |db.cmdbFull|, |db.gmuds|)
  }

  /** Inventory rows as the importer writes them: flags in {0, 1}, one server plus its standby. */
  predicate WellFormedServers(servers: seq<Server>) {
    forall k :: 0 <= k < |servers| ==>
      servers[k].hasStandby in {0, 1} && servers[k].totalServers == 1 + servers[k].hasStandby
  }

  /** With 0/1 flags every row is either standalone or has a standby, and the server total counts standbys twice. */
  lemma {:induction false} StandbySplit(servers: seq<Server>)
    requires WellFormedServers(servers)
    ensures CountStandby(servers, 1) + CountStandby(servers, 0) == |servers|
    ensures SumTotalServers(servers) == |servers| + CountStandby(servers, 1)
  {
    if servers != [] {
      assert WellFormedServers(servers[1..]) by {
        assert forall k :: 0 <= k < |servers| - 1 ==> servers[1..][k] == servers[k + 1];
      }
      StandbySplit(servers[1..]);
    }
  }

  /** On an inventory the importer wrote, the dashboard's pair counts add up. */
  lemma DashboardConsistent(db: Db)
    requires WellFormedServers(db.servers)
    ensures var d := GetDashboardStats(db);
            d.withStandby + d.standalone == d.totalRows
            && d.totalServers == d.totalRows + d.withStandby
  {
    StandbySplit(db.servers);
  }

  /** `COUNT(*)` of full-CMDB rows of a client (every client when the filter is empty). */
  function CountClient(rows: seq<CmdbFull>, client: string): (n: nat)
    ensures n <= |rows|
  {
    if rows == [] then 0
    else (if client == "" || rows[0].client == client then 1 else 0) + CountClient(rows[1..], client)
  }

  /** Statuses the statistics count as active. */
  predicate IsActive(status: string) {
    status == "Ativo" || status == "Running"
  }

  /** `COUNT(*)` of active full-CMDB rows of a client. */
  function CountActive(rows: seq<CmdbFull>, client: string): (n: nat)
    ensures n <= |rows|
  {
    if rows == [] then 0
    else (if (client == "" || rows[0].client == client) && IsActive(rows[0].status) then 1 else 0)
         + CountActive(rows[1..], client)
  }

  datatype CmdbFullStats = CmdbFullStats(total: nat, active: nat)

  /** `get_cmdb_full_stats`, its two counts. */
  function GetCmdbFullStats(rows: seq<CmdbFull>, client: string): (s: CmdbFullStats)
    ensures s.active <= s.total
    ensures client == "" ==> s.total == |rows|
  {
    ActiveWithinTotal(rows, client);
    CmdbFullStats(CountClient(rows, client), CountActive(rows, client))
  }

  /** Active rows are a subset of the client's rows; with no client filter the total is the table size. */
  lemma {:induction false} ActiveWithinTotal(rows: seq<CmdbFull>, client: string)
    ensures CountActive(rows, client) <= CountClient(rows, client)
    ensures client == "" ==> CountClient(rows, client) == |rows|
  {
    if rows != [] {
      ActiveWithinTotal(rows[1..], client);
    }
  }

  /** The active count is exactly the number of listed rows whose status is "Ativo" or "Running". */
  lemma {:induction false} ActiveCountsActiveRows(rows: seq<CmdbFull>, client: string)
    ensures CountActive(rows, client) == |ActiveRows(rows, client)|
    ensures forall c :: c in ActiveRows(rows, client) <==>
              c in rows && (client == "" || c.client == client) && IsActive(c.status)
  {
    if rows != [] {
      ActiveCountsActiveRows(rows[1..], client);
    }
  }

  /** The rows the active count counts, in table order. */
  function ActiveRows(rows: seq<CmdbFull>, client: string): seq<CmdbFull> {
    if rows == [] then []
    else (if (client == "" || rows[0].client == client) && IsActive(rows[0].status) then [rows[0]] else [])
         + ActiveRows(rows[1..], client)
  }
}

=== FILE: records.dfy ===
/**
 * The rows of the local database: one datatype per table the importers fill,
 * and the database state they act on. Columns keep the table's own order;
 * SQL NULL appears only where an operation can store it.
 */
module Records {
  import opened Wrappers
  import opened Cells

  /** `servers`: one line of the Oracle inventory sheet (a primary and its optional standby). */
  datatype Server = Server(
    environment: string,
    primaryHostname: string,
    standbyHostname: string,
    psuVersion: string,
    emailSent: string,
    alignment: string,
    ggsVersion: string,
    primaryContact: string,
    responsibleTeam: string,
    systemProduct: string,
    applicationDay: string,
    startTime: string,
    endTime: string,
    observation: string,
    totalServers: int,
    hasStandby: int,
    hasGgs: int)

  /** The fourteen text columns of a server line, in table (and sheet) order. */
  function ServerColumns(s: Server): seq<string> {
    [s.environment, s.primaryHostname, s.standbyHostname, s.psuVersion, s.emailSent, s.alignment,
     s.ggsVersion, s.primaryContact, s.responsibleTeam, s.systemProduct, s.applicationDay,
     s.startTime, s.endTime, s.observation]
  }

  /** The server line whose columns, in table order, are `cols`. */
  function ServerOf(cols: seq<string>, totalServers: int, hasStandby: int, hasGgs: int): (r: Server)
    requires |cols| == 14
    ensures ServerColumns(r) == cols
    ensures r.totalServers == totalServers && r.hasStandby == hasStandby && r.hasGgs == hasGgs
  {
    Server(cols[0], cols[1], cols[2], cols[3], cols[4], cols[5], cols[6], cols[7], cols[8], cols[9],
      cols[10], cols[11], cols[12], cols[13], totalServers, hasStandby, hasGgs)
  }

  /** `cmdb_databases`: one line of the legacy CMDB sheet. */
  datatype LegacyCmdb = LegacyCmdb(
    environment: string,
    name: string,
    contingencyName: string,
    dbType: string,
    dbVersion: string,
    dbVersionDetail: string,
    status: string,
    applicationDay: string,
    weekMonth: string,
    startTime: string,
    endTime: string,
    system: string,
    systemProduct: string,
    ciType: string,
    os: string,
    primaryContact: string,
    role: string,
    description: string,
    osType: string,
    responsibleTeam: string,
    manager: string,
    teamEmail: string,
    validationContact: string,
    ipAddress: string)

  /** The twenty-four columns of a legacy CMDB line, in table (and sheet) order. */
  function LegacyCmdbColumns(c: LegacyCmdb): seq<string> {
    [c.environment, c.name, c.contingencyName, c.dbType, c.dbVersion, c.dbVersionDetail, c.status,
     c.applicationDay, c.weekMonth, c.startTime, c.endTime, c.system, c.systemProduct, c.ciType,
     c.os, c.primaryContact, c.role, c.description, c.osType, c.responsibleTeam, c.manager,
     c.teamEmail, c.validationContact, c.ipAddress]
  }

  /** The legacy CMDB line whose columns, in table order, are `cols`. */
  function LegacyCmdbOf(cols: seq<string>): (r: LegacyCmdb)
    requires |cols| == 24
    ensures LegacyCmdbColumns(r) == cols
  {
    LegacyCmdb(cols[0], cols[1], cols[2], cols[3], cols[4], cols[5], cols[6], cols[7], cols[8], cols[9],
      cols[10], cols[11], cols[12], cols[13], cols[14], cols[15], cols[16], cols[17], cols[18],
      cols[19], cols[20], cols[21], cols[22], cols[23])
  }

  /** The twelve ticket columns an edit rewrites; `None` is SQL NULL. */
  datatype TicketFields = TicketFields(
    client: Option<string>,
    dbType: Option<string>,
    environment: Option<string>,
    status: Option<string>,
    startDate: Option<string>,
    endDate: Option<string>,
    changeNumber: Option<string>,
    title: Option<string>,
    assignedTo: Option<string>,
    observation: Option<string>,
    vulnerability: Option<string>,
    openedBy: Option<string>)

  /** The seven columns only the extended monthly layout fills. */
  datatype ExtendedFields = ExtendedFields(
    vulnerabilityBefore: string,
    vulnerabilityAfter: string,
    closingCode: string,
    needsReplan: string,
    newStartDate: string,
    newEndDate: string,
    newGmud: string)

  const NO_EXTENDED := ExtendedFields("", "", "", "", "", "", "")

  /** `gmuds` without its key: one change ticket of a monthly sheet. */
  datatype TicketData = TicketData(
    year: int,
    month: int,
    dayOfWeek: string,
    fields: TicketFields,
    ext: ExtendedFields)

  /** A stored ticket with its never-reused integer key. */
  datatype Ticket = Ticket(id: nat, data: TicketData)

  /** `planning`: one line of the patching-plan sheet. */
  datatype Planning = Planning(
    hostname: string,
    contingencyName: string,
    applicationDay: string,
    weekMonth: string,
    startTime: string,
    endTime: string,
    primaryContact: string,
    dbVersion: string,
    bankVersion: string,
    system: string,
    systemProduct: string,
    os: string,
    role: string,
    description: string,
    responsibleTeam: string,
    validationContact: string)

  /** The sixteen columns of a planning line, in table (and sheet) order. */
  function PlanningColumns(p: Planning): seq<string> {
    [p.hostname, p.contingencyName, p.applicationDay, p.weekMonth, p.startTime, p.endTime,
     p.primaryContact, p.dbVersion, p.bankVersion, p.system, p.systemProduct, p.os, p.role,
     p.description, p.responsibleTeam, p.validationContact]
  }

  /** The planning line whose columns, in table order, are `cols`. */
  function PlanningOf(cols: seq<string>): (r: Planning)
    requires |cols| == 16
    ensures PlanningColumns(r) == cols
  {
    Planning(cols[0], cols[1], cols[2], cols[3], cols[4], cols[5], cols[6], cols[7], cols[8], cols[9],
      cols[10], cols[11], cols[12], cols[13], cols[14], cols[15])
  }

  /** `pagonxt_databases`: one line of the PagoNxt inventory sheet. */
  datatype PagoNxtDb = PagoNxtDb(
    environment: string,
    name: string,
    contingent: string,
    psuVersion: string,
    contact: string,
    zone: string,
    product: string,
    description: string,
    channel: string,
    service: string,
    observation: string,
    ip: string,
    instance: string,
    status: string,
    os: string)

  /** The fifteen columns of a PagoNxt line, in table (and sheet) order. */
  function PagoNxtColumns(p: PagoNxtDb): seq<string> {
    [p.environment, p.name, p.contingent, p.psuVersion, p.contact, p.zone, p.product, p.description,
     p.channel, p.service, p.observation, p.ip, p.instance, p.status, p.os]
  }

  /** The PagoNxt line whose columns, in table order, are `cols`. */
  function PagoNxtDbOf(cols: seq<string>): (r: PagoNxtDb)
    requires |cols| == 15
    ensures PagoNxtColumns(r) == cols
  {
    PagoNxtDb(cols[0], cols[1], cols[2], cols[3], cols[4], cols[5], cols[6], cols[7], cols[8], cols[9],
      cols[10], cols[11], cols[12], cols[13], cols[14])
  }

  /**
   * `cmdb_full`: one database server of the full CMDB. `zone` and `country`
   * are NULL for GetNet rows, which do not fill them.
   */
  datatype CmdbFull = CmdbFull(
    client: string,
    hostname: string,
    contingency: string,
    dbType: string,
    dbVersion: string,
    status: string,
    serverType: string,
    environment: string,
    os: string,
    responsibleTeam: string,
    manager: string,
    primaryContact: string,
    systemProduct: string,
    role: string,
    description: string,
    validationContact: string,
    teamEmail: string,
    shutdownProcedure: string,
    affinity: string,
    weekMonth: string,
    applicationDay: string,
    startTime: string,
    endTime: string,
    importanceLevel: string,
    criticality: string,
    scopePci: string,
    scopeSox: string,
    scopePagonxt: string,
    ipService: string,
    ipBackup: string,
    ipBranca: string,
    zone: Option<string>,
    country: Option<string>,
    sourceSheet: string)

  /** `import_log`: the outcome of one run of the main import. */
  datatype ImportLogEntry = ImportLogEntry(
    sourceFile: string,
    sheetsImported: string,
    totalRecords: int,
    status: string,
    message: string)

  /** `qualys_vulnerabilities`: one catalogue definition, keyed by its QID. */
  datatype VulnDef = VulnDef(
    title: string,
    severity: string,
    threat: string,
    solution: string,
    category: string)

  /** `qualys_detections`: one vulnerability found on one asset. */
  datatype Detection = Detection(
    qid: int,
    assetName: string,
    assetIp: string,
    environment: string,
    os: string,
    osVersion: string,
    status: string,
    firstDetected: string,
    lastDetected: string,
    detectionAge: Cell,
    results: string,
    overdue: string,
    source: string)

  /**
   * The database. `nextTicketId` is the ticket key counter: keys are handed
   * out in increasing order and never reused, even after deletes.
   */
  datatype Db = Db(
    servers: seq<Server>,
    cmdb: seq<LegacyCmdb>,
    gmuds: seq<Ticket>,
    planning: seq<Planning>,
    pagonxt: seq<PagoNxtDb>,
    cmdbFull: seq<CmdbFull>,
    importLog: seq<ImportLogEntry>,
    vulns: map<int, VulnDef>,
    detections: seq<Detection>,
    nextTicketId: nat)

  /** Ticket keys are strictly increasing in storage order and all below the counter. */
  predicate TicketKeysOrdered(gmuds: seq<Ticket>, next: nat) {
    (forall i, j :: 0 <= i < j < |gmuds| ==> gmuds[i].id < gmuds[j].id)
    && (forall i :: 0 <= i < |gmuds| ==> gmuds[i].id < next)
  }
}

=== FILE: text.dfy ===
/**
 * String helpers modelling the Python, JavaScript and SQLite built-ins the
 * system relies on: whitespace stripping, lower-casing, prefix and substring
 * tests, decimal rendering and parsing, joining. Where a model covers less than
 * the built-in (letters beyond Latin-1, digits beyond ASCII) its doc says so.
 */
module Text {
  import opened Wrappers

  // ---------------------------------------------------------------------------
  // Whitespace
  // ---------------------------------------------------------------------------

  /** Characters for which Python's `str.isspace()` holds, i.e. what `str.strip()` removes. */
  predicate IsPySpace(c: char) {
    ('\t' <= c <= '\r') || ('\U{1C}' <= c <= ' ') || c == '\U{85}' || c == '\U{A0}'
    || c == '\U{1680}' || ('\U{2000}' <= c <= '\U{200A}') || c == '\U{2028}' || c == '\U{2029}'
    || c == '\U{202F}' || c == '\U{205F}' || c == '\U{3000}'
  }

  /** Characters JavaScript's `String.prototype.trim()` removes (WhiteSpace and LineTerminator). */
  predicate IsJsSpace(c: char) {
    ('\t' <= c <= '\r') || c == ' ' || c == '\U{A0}' || c == '\U{1680}'
    || ('\U{2000}' <= c <= '\U{200A}') || c == '\U{2028}' || c == '\U{2029}'
    || c == '\U{202F}' || c == '\U{205F}' || c == '\U{3000}' || c == '\U{FEFF}'
  }

  function TrimLeft(s: string, ws: char -> bool): (r: string)
    ensures |r| <= |s| && r == s[|s| - |r|..]
    ensures forall i :: 0 <= i < |s| - |r| ==> ws(s[i])
    ensures r != [] ==> !ws(r[0])
  {
    if s != [] && ws(s[0]) then TrimLeft(s[1..], ws) else s
  }

  function TrimRight(s: string, ws: char -> bool): (r: string)
    ensures |r| <= |s| && r == s[..|r|]
    ensures forall i :: |r| <= i < |s| ==> ws(s[i])
    ensures r != [] ==> !ws(r[|r| - 1])
  {
    if s != [] && ws(s[|s| - 1]) then TrimRight(s[..|s| - 1], ws) else s
  }

  /** Both-ends trim by a whitespace class. */
  function TrimBy(s: string, ws: char -> bool): (r: string)
    ensures |r| <= |s|
    ensures r != [] ==> !ws(r[0]) && !ws(r[|r| - 1])
  {
    TrimRight(TrimLeft(s, ws), ws)
  }

  /**
   * What trimming keeps: the middle slice s[i..j] of the input, with only
   * whitespace cut away on either side.
   */
  lemma TrimByIsMiddleSlice(s: string, ws: char -> bool)
    ensures exists i, j :: 0 <= i <= j <= |s| && TrimBy(s, ws) == s[i..j]
                           && (forall k :: 0 <= k < i ==> ws(s[k]))
                           && (forall k :: j <= k < |s| ==> ws(s[k]))
  {
    var l := TrimLeft(s, ws);
    var r := TrimRight(l, ws);
    var i := |s| - |l|;
    assert r == s[i..i + |r|];
    forall k | i + |r| <= k < |s|
      ensures ws(s[k])
    {
      assert s[k] == l[k - i];
    }
  }

  /** Python `str.strip()`. */
  function Strip(s: string): (r: string)
    ensures |r| <= |s|
    ensures r != [] ==> !IsPySpace(r[0]) && !IsPySpace(r[|r| - 1])
  {
    TrimBy(s, IsPySpace)
  }

  /** JavaScript `String.prototype.trim()`. */
  function JsTrim(s: string): (r: string)
    ensures |r| <= |s|
    ensures r != [] ==> !IsJsSpace(r[0]) && !IsJsSpace(r[|r| - 1])
  {
    TrimBy(s, IsJsSpace)
  }

  /** A string Python's `strip()` would leave as it is. */
  predicate IsStripped(s: string) {
    s == [] || (!IsPySpace(s[0]) && !IsPySpace(s[|s| - 1]))
  }

  lemma {:induction false} StripFixesStripped(s: string)
    requires IsStripped(s)
    ensures Strip(s) == s
  {
    if s != [] {
      assert TrimLeft(s, IsPySpace) == s;
      assert TrimRight(s, IsPySpace) == s;
    }
  }

  lemma StripIsStripped(s: string)
    ensures IsStripped(Strip(s))
  {
  }

  lemma StripIdempotent(s: string)
    ensures Strip(Strip(s)) == Strip(s)
  {
    StripIsStripped(s);
    StripFixesStripped(Strip(s));
  }

  /** Python's `not s.strip()`: the string is empty or all whitespace. */
  predicate IsBlank(s: string) {
    forall i :: 0 <= i < |s| ==> IsPySpace(s[i])
  }

  lemma {:induction false} TrimLeftEmptyIffBlank(s: string)
    ensures TrimLeft(s, IsPySpace) == [] <==> IsBlank(s)
  {
    if s != [] && IsPySpace(s[0]) {
      TrimLeftEmptyIffBlank(s[1..]);
      assert IsBlank(s) <==> IsBlank(s[1..]) by {
        assert forall i :: 1 <= i < |s| ==> s[i] == s[1..][i - 1];
      }
    }
  }

  lemma TrimRightEmptyOnlyIfEmpty(l: string)
    requires l == [] || !IsPySpace(l[0])
    ensures TrimRight(l, IsPySpace) == [] <==> l == []
  {
  }

  lemma BlankIffStripEmpty(s: string)
    ensures IsBlank(s) <==> Strip(s) == ""
  {
    TrimLeftEmptyIffBlank(s);
    TrimRightEmptyOnlyIfEmpty(TrimLeft(s, IsPySpace));
  }

  // ---------------------------------------------------------------------------
  // Case
  // ---------------------------------------------------------------------------

  /**
   * Lower-casing of one character as Python's `str.lower()` and JavaScript's
   * `toLowerCase()` do it, for the ASCII and Latin-1 letters. No comparison
   * target in the system contains a character whose lower case comes from
   * outside that range, so other characters are kept as they are.
   */
  function LowerChar(c: char): char {
    if 'A' <= c <= 'Z' then (c as int + 32) as char
    else if '\U{C0}' <= c <= '\U{DE}' && c != '\U{D7}' then (c as int + 32) as char
    else c
  }

  function Lower(s: string): (r: string)
    ensures |r| == |s|
    ensures forall i :: 0 <= i < |s| ==> r[i] == LowerChar(s[i])
  {
    seq(|s|, i requires 0 <= i < |s| => LowerChar(s[i]))
  }

  /** SQLite's built-in `lower()`, which folds ASCII letters only. */
  function AsciiLowerChar(c: char): char {
    if 'A' <= c <= 'Z' then (c as int + 32) as char else c
  }

  function AsciiLower(s: string): (r: string)
    ensures |r| == |s|
    ensures forall i :: 0 <= i < |s| ==> r[i] == AsciiLowerChar(s[i])
  {
    seq(|s|, i requires 0 <= i < |s| => AsciiLowerChar(s[i]))
  }

  lemma LowerKeepsSpace(s: string)
    ensures forall i :: 0 <= i < |s| ==> (IsPySpace(Lower(s)[i]) <==> IsPySpace(s[i]))
  {
  }

  // ---------------------------------------------------------------------------
  // Prefix and substring
  // ---------------------------------------------------------------------------

  predicate StartsWith(s: string, prefix: string) {
    prefix <= s
  }

  /** Python `sub in s`, JavaScript `s.includes(sub)`: `sub` occurs at some position of `s`. */
  predicate Contains(s: string, sub: string)
    decreases |s|
  {
    sub <= s || (s != [] && Contains(s[1..], sub))
  }

  lemma {:induction false} ContainsAt(s: string, sub: string, i: nat)
    requires i + |sub| <= |s| && s[i..i + |sub|] == sub
    ensures Contains(s, sub)
    decreases i
  {
    if i > 0 {
      assert s[1..][i - 1..i - 1 + |sub|] == sub;
      ContainsAt(s[1..], sub, i - 1);
    }
  }

  lemma {:induction false} ContainsWitness(s: string, sub: string) returns (i: nat)
    requires Contains(s, sub)
    ensures i + |sub| <= |s| && s[i..i + |sub|] == sub
    decreases |s|
  {
    if sub <= s {
      i := 0;
    } else {
      var j := ContainsWitness(s[1..], sub);
      i := j + 1;
      assert s[i..i + |sub|] == s[1..][j..j + |sub|];
    }
  }

  // ---------------------------------------------------------------------------
  // Decimal numbers
  // ---------------------------------------------------------------------------

  predicate IsDigit(c: char) {
    '0' <= c <= '9'
  }

  function DigitChar(d: nat): char
    requires d < 10
  {
    ('0' as int + d) as char
  }

  function DigitValue(c: char): nat
    requires IsDigit(c)
  {
    c as int - '0' as int
  }

  /** Python `str(n)` for a non-negative integer. */
  function NatToDecimal(n: nat): (r: string)
    ensures |r| >= 1
    ensures forall i :: 0 <= i < |r| ==> IsDigit(r[i])
    ensures |r| > 1 ==> r[0] != '0'
    decreases n
  {
    if n < 10 then [DigitChar(n)] else NatToDecimal(n / 10) + [DigitChar(n % 10)]
  }

  /** Python `str(i)` for any integer. */
  function IntToDecimal(i: int): (r: string)
    ensures |r| >= 1
    ensures i >= 0 ==> forall k :: 0 <= k < |r| ==> IsDigit(r[k])
    ensures i < 0 ==> r[0] == '-'
  {
    if i >= 0 then NatToDecimal(i) else "-" + NatToDecimal(-i)
  }

  /** The value of a non-empty run of decimal digits. */
  function DigitsValue(s: string): nat
    requires forall i :: 0 <= i < |s| ==> IsDigit(s[i])
  {
    if s == [] then 0 else DigitsValue(s[..|s| - 1]) * 10 + DigitValue(s[|s| - 1])
  }

  lemma {:induction false} DigitsValueOfDecimal(n: nat)
    ensures DigitsValue(NatToDecimal(n)) == n
    decreases n
  {
    var r := NatToDecimal(n);
    if n >= 10 {
      DigitsValueOfDecimal(n / 10);
      assert r[..|r| - 1] == NatToDecimal(n / 10);
    }
  }

  predicate AllDigits(s: string) {
    forall i :: 0 <= i < |s| ==> IsDigit(s[i])
  }

  /**
   * Python `int(text)` on already-stripped text, restricted to plain decimal
   * literals: an optional sign followed by at least one ASCII digit; anything
   * else raises ValueError (None here). Python also accepts `_` between digits
   * and non-ASCII decimal digits, which this model rejects.
   */
  function ParseInt(t: string): (r: Option<int>)
    ensures r.Some? ==> t != [] && (IsDigit(t[0]) || t[0] == '+' || t[0] == '-')
  {
    if t != [] && (t[0] == '+' || t[0] == '-') then
      var body := t[1..];
      if body != [] && AllDigits(body) then
        Some(if t[0] == '-' then -(DigitsValue(body) as int) else DigitsValue(body) as int)
      else None
    else if t != [] && AllDigits(t) then Some(DigitsValue(t))
    else None
  }

  /** `int(str(i)) == i`: parsing undoes decimal rendering. */
  lemma IntDecimalRoundTrip(i: int)
    ensures ParseInt(IntToDecimal(i)) == Some(i)
  {
    if i >= 0 {
      DigitsValueOfDecimal(i);
    } else {
      DigitsValueOfDecimal(-i);
      assert IntToDecimal(i)[1..] == NatToDecimal(-i);
    }
  }

  /** Zero-padded decimal of at least `width` digits (`%02d`, `%04d`). */
  function Padded(n: nat, width: nat): (r: string)
    ensures |r| >= width
    ensures forall i :: 0 <= i < |r| ==> IsDigit(r[i])
    ensures 1 <= width && n < Pow10(width) ==> |r| == width
  {
    var d := NatToDecimal(n);
    DecimalLength(n, width);
    if |d| >= width then d else ZerosThenDigits(width - |d|, d)
  }

  function Pow10(k: nat): nat {
    if k == 0 then 1 else 10 * Pow10(k - 1)
  }

  lemma {:induction false} DecimalLength(n: nat, width: nat)
    ensures 1 <= width && n < Pow10(width) ==> |NatToDecimal(n)| <= width
    decreases width
  {
    if n >= 10 && 1 <= width && n < Pow10(width) {
      assert n / 10 < Pow10(width - 1);
      DecimalLength(n / 10, width - 1);
    }
  }

  function ZerosThenDigits(k: nat, d: string): (r: string)
    requires forall i :: 0 <= i < |d| ==> IsDigit(d[i])
    ensures |r| == k + |d|
    ensures forall i :: 0 <= i < |r| ==> IsDigit(r[i])
  {
    seq(k, _ => '0') + d
  }

  // ---------------------------------------------------------------------------
  // Joining
  // ---------------------------------------------------------------------------

  /** Python `sep.join(parts)`. */
  function Join(sep: string, parts: seq<string>): string {
    if parts == [] then ""
    else if |parts| == 1 then parts[0]
    else parts[0] + sep + Join(sep, parts[1..])
  }

  /** Joining two non-empty lists one after the other puts one separator between their joins. */
  lemma {:induction false} JoinConcat(sep: string, a: seq<string>, b: seq<string>)
    requires a != [] && b != []
    ensures Join(sep, a + b) == Join(sep, a) + sep + Join(sep, b)
  {
    assert (a + b)[0] == a[0];
    if |a| == 1 {
      assert (a + b)[1..] == b;
    } else {
      assert (a + b)[1..] == a[1..] + b;
      JoinConcat(sep, a[1..], b);
    }
  }
}

=== FILE: vocabulary.dfy ===
/**
 * The three status/type vocabularies of the importer: ticket status, CMDB
 * lifecycle status and database product name. Each is a total function with an
 * override table, a default and a pass-through branch.
 */
module Vocabulary {
  import opened Wrappers
  import opened Text

  // ---------------------------------------------------------------------------
  // Ticket (GMUD) status
  // ---------------------------------------------------------------------------

  const CHECK_MARK: string := "\U{2705}"
  const ARROWS: string := "\U{1F504}"
  const CALENDAR: string := "\U{1F4C5}"
  const PROHIBITED: string := "\U{1F6AB}"

  /** The exact-match override table of `normalize_gmud_status`. */
  const GMUD_STATUS_TABLE: map<string, string> := map[
    CHECK_MARK := "ENCERRADA",
    ARROWS := "REPLANEJAR",
    ARROWS + CALENDAR := "REPLANEJAR",
    PROHIBITED := "CANCELADA",
    "PROGAMADO" := "PROGRAMADA",
    "AVALIAR" + CALENDAR := "AVALIAR",
    "NOVO" + CALENDAR := "NOVO",
    "AUTORIZAR" + CALENDAR := "AUTORIZAR",
    "re" := "REPLANEJAR",
    "CANCELAR" := "CANCELADA"
  ]

  /** The labels `normalize_gmud_status` can produce from the table, the default or the prefix rule. */
  const GMUD_CANONICAL: set<string> :=
    {"NOVO", "ENCERRADA", "REPLANEJAR", "CANCELADA", "PROGRAMADA", "AVALIAR", "AUTORIZAR", "FREEZING"}

  /**
   * `normalize_gmud_status`: blank → "NOVO"; an exact table hit on the stripped
   * text; otherwise a case-insensitive "freezin" prefix → "FREEZING"; otherwise
   * the stripped text itself.
   */
  function NormalizeGmudStatus(status: string): (r: string)
    ensures IsBlank(status) ==> r == "NOVO"
    ensures !IsBlank(status) && Strip(status) in GMUD_STATUS_TABLE ==>
              r == GMUD_STATUS_TABLE[Strip(status)]
    ensures (!IsBlank(status) && Strip(status) !in GMUD_STATUS_TABLE
             && StartsWith(Lower(Strip(status)), "freezin")) ==> r == "FREEZING"
    ensures r in GMUD_CANONICAL || (r == Strip(status) && r != "")
  {
    BlankIffStripEmpty(status);
    if status == "" || IsBlank(status) then "NOVO"
    else
      var s := Strip(status);
      if s in GMUD_STATUS_TABLE then GMUD_STATUS_TABLE[s]
      else if StartsWith(Lower(s), "freezin") then "FREEZING"
      else s
  }

  /**
   * A stripped, non-blank text that misses the override table and does not
   * start with "freezin" maps to itself.
   */
  lemma GmudPassThroughFixed(s: string)
    requires s != [] && IsStripped(s)
    requires s !in GMUD_STATUS_TABLE
    requires !StartsWith(Lower(s), "freezin")
    ensures NormalizeGmudStatus(s) == s
  {
    StripFixesStripped(s);
    BlankIffStripEmpty(s);
  }

  lemma GmudLabelsFixed1(name: string)
    requires name == "NOVO" || name == "ENCERRADA"
    ensures NormalizeGmudStatus(name) == name
  {
    assert Lower(name)[0] != 'f';
    GmudPassThroughFixed(name);
  }

  lemma GmudLabelsFixed2(name: string)
    requires name == "REPLANEJAR" || name == "CANCELADA"
    ensures NormalizeGmudStatus(name) == name
  {
    assert Lower(name)[0] != 'f';
    GmudPassThroughFixed(name);
  }

  lemma GmudLabelsFixed3(name: string)
    requires name == "PROGRAMADA" || name == "AVALIAR"
    ensures NormalizeGmudStatus(name) == name
  {
    assert Lower(name)[0] != 'f';
    GmudPassThroughFixed(name);
  }

  lemma GmudLabelsFixed4(name: string)
    requires name == "AUTORIZAR"
    ensures NormalizeGmudStatus(name) == name
  {
    assert Lower(name)[0] != 'f';
    GmudPassThroughFixed(name);
  }

  /** A stripped text that misses the override table and starts with "freezin", in any case, maps to "FREEZING". */
  lemma GmudFreezinRule(s: string)
    requires s != [] && IsStripped(s)
    requires s !in GMUD_STATUS_TABLE
    requires StartsWith(Lower(s), "freezin")
    ensures NormalizeGmudStatus(s) == "FREEZING"
  {
    StripFixesStripped(s);
    BlankIffStripEmpty(s);
  }

  /** No key of the override table starts with an upper-case F. */
  lemma NoTableKeyStartsWithF(s: string)
    requires s != [] && s[0] == 'F'
    ensures s !in GMUD_STATUS_TABLE
  {
  }

  lemma GmudFreezingFixed(name: string)
    requires name == "FREEZING"
    ensures NormalizeGmudStatus(name) == name
  {
    NoTableKeyStartsWithF(name);
    assert Lower(name) == "freezing";
    GmudFreezinRule(name);
  }

  /** Every label the table, the default and the prefix rule produce is a fixed point of the mapper. */
  lemma GmudCanonicalAreFixed(name: string)
    requires name in GMUD_CANONICAL
    ensures NormalizeGmudStatus(name) == name
  {
    if name == "FREEZING" {
      GmudFreezingFixed(name);
    } else if name == "NOVO" || name == "ENCERRADA" {
      GmudLabelsFixed1(name);
    } else if name == "REPLANEJAR" || name == "CANCELADA" {
      GmudLabelsFixed2(name);
    } else if name == "PROGRAMADA" || name == "AVALIAR" {
      GmudLabelsFixed3(name);
    } else {
      GmudLabelsFixed4(name);
    }
  }

  /** No status cell, blank or not, yields an empty ticket status. */
  lemma GmudStatusNeverEmpty(status: string)
    ensures NormalizeGmudStatus(status) != ""
  {
  }

  /** `normalize_gmud_status` is idempotent: every output maps to itself. */
  lemma GmudStatusIdempotent(status: string)
    ensures NormalizeGmudStatus(NormalizeGmudStatus(status)) == NormalizeGmudStatus(status)
  {
    var r := NormalizeGmudStatus(status);
    if r in GMUD_CANONICAL {
      GmudCanonicalAreFixed(r);
    } else {
      StripIsStripped(status);
      GmudPassThroughFixed(r);
    }
  }

  // ---------------------------------------------------------------------------
  // CMDB lifecycle status
  // ---------------------------------------------------------------------------

  /**
   * `normalize_cmdb_status`: blank → ""; lower-cased prefix "descontinuado" or
   * "stopped" → "Descontinuado"; exactly "sendo descontinuado" → "Sendo
   * Descontinuado"; otherwise the stripped text with its casing kept.
   */
  function NormalizeCmdbStatus(status: string): (r: string)
    ensures r == "" <==> IsBlank(status)
    ensures r == "" || r == "Descontinuado" || r == "Sendo Descontinuado" || r == Strip(status)
  {
    BlankIffStripEmpty(status);
    if status == "" || IsBlank(status) then ""
    else
      var s := Strip(status);
      var low := Lower(s);
      if StartsWith(low, "descontinuado") then "Descontinuado"
      else if low == "sendo descontinuado" then "Sendo Descontinuado"
      else if StartsWith(low, "stopped") then "Descontinuado"
      else s
  }

  /** The prefix and exact-match rules, in their evaluation order. */
  lemma CmdbStatusRules(status: string)
    ensures !IsBlank(status) && StartsWith(Lower(Strip(status)), "descontinuado") ==>
              NormalizeCmdbStatus(status) == "Descontinuado"
    ensures !IsBlank(status) && StartsWith(Lower(Strip(status)), "stopped") ==>
              NormalizeCmdbStatus(status) == "Descontinuado"
    ensures !IsBlank(status) && Lower(Strip(status)) == "sendo descontinuado" ==>
              NormalizeCmdbStatus(status) == "Sendo Descontinuado"
    ensures !IsBlank(status) && !StartsWith(Lower(Strip(status)), "descontinuado")
            && !StartsWith(Lower(Strip(status)), "stopped")
            && Lower(Strip(status)) != "sendo descontinuado" ==>
              NormalizeCmdbStatus(status) == Strip(status)
  {
    BlankIffStripEmpty(status);
    var low := Lower(Strip(status));
    if StartsWith(low, "stopped") {
      assert low[1] == 't';
      assert low != "sendo descontinuado";
    }
  }

  /** Any stripped status that lower-cases to a "descontinuado" prefix is "Descontinuado". */
  lemma CmdbDiscontinuedRule(name: string)
    requires name != [] && IsStripped(name) && StartsWith(Lower(name), "descontinuado")
    ensures NormalizeCmdbStatus(name) == "Descontinuado"
  {
    StripFixesStripped(name);
    BlankIffStripEmpty(name);
    CmdbStatusRules(name);
  }

  /** The two fixed labels of the CMDB status rules map to themselves. */
  lemma CmdbDiscontinuedFixed(name: string)
    requires name == "Descontinuado"
    ensures NormalizeCmdbStatus(name) == name
  {
    assert Lower(name) == "descontinuado";
    CmdbDiscontinuedRule(name);
  }

  /** Any stripped spelling of "sendo descontinuado" gets the canonical casing. */
  lemma CmdbBeingDiscontinuedRule(name: string)
    requires name != [] && IsStripped(name) && Lower(name) == "sendo descontinuado"
    ensures NormalizeCmdbStatus(name) == "Sendo Descontinuado"
  {
    StripFixesStripped(name);
    BlankIffStripEmpty(name);
    CmdbStatusRules(name);
    assert Lower(name)[0] == 's';
  }

  lemma CmdbBeingDiscontinuedFixed(name: string)
    requires name == "Sendo Descontinuado"
    ensures NormalizeCmdbStatus(name) == name
  {
    assert Lower(name) == "sendo descontinuado";
    CmdbBeingDiscontinuedRule(name);
  }

  /** `normalize_cmdb_status` is idempotent: every output maps to itself. */
  lemma CmdbStatusIdempotent(status: string)
    ensures NormalizeCmdbStatus(NormalizeCmdbStatus(status)) == NormalizeCmdbStatus(status)
  {
    var r := NormalizeCmdbStatus(status);
    if r == "Descontinuado" {
      CmdbDiscontinuedFixed(r);
    } else if r == "Sendo Descontinuado" {
      CmdbBeingDiscontinuedFixed(r);
    } else if r != "" {
      CmdbStatusRules(status);
      BlankIffStripEmpty(status);
      StripIsStripped(status);
      StripFixesStripped(r);
      BlankIffStripEmpty(r);
      CmdbStatusRules(r);
    }
  }

  // ---------------------------------------------------------------------------
  // Database product name
  // ---------------------------------------------------------------------------

  /** Yes/no and placeholder answers that mean "this row is not a database". */
  const DB_TYPE_EXCLUDED: set<string> := {"sim", "não", "nao", "no", "yes", "n/a", "-"}

  /** The lower-case spelling table of `normalize_db_type`. */
  const DB_TYPE_TABLE: map<string, string> := map[
    "oracle" := "Oracle",
    "futuramente oracle" := "Oracle",
    "golden gate(necessário stop)" := "Oracle",
    "mongodb" := "MongoDB",
    "mongodb (read)" := "MongoDB",
    "mongodb (s)" := "MongoDB",
    "mongodb (p)" := "MongoDB",
    "mongo" := "MongoDB",
    "sql server" := "SQL Server",
    "sqlserver" := "SQL Server",
    "mysql" := "MySQL",
    "mariadb" := "MariaDB",
    "postgres" := "PostgreSQL",
    "postgresql" := "PostgreSQL",
    "sybase" := "Sybase",
    "sqlite3" := "SQLite"
  ]

  const DB_CANONICAL: set<string> :=
    {"Oracle", "MongoDB", "SQL Server", "MySQL", "MariaDB", "PostgreSQL", "Sybase", "SQLite"}

  /** Every table entry maps to a non-empty canonical label, and "" is no key. */
  lemma DbTableValues(key: string)
    ensures key in DB_TYPE_TABLE ==> DB_TYPE_TABLE[key] in DB_CANONICAL && DB_TYPE_TABLE[key] != ""
    ensures "" !in DB_TYPE_TABLE && "" !in DB_TYPE_EXCLUDED
  {
  }

  /** The key `normalize_db_type` looks up: lower-cased, then stripped. */
  function DbKey(dbType: string): string {
    Strip(Lower(dbType))
  }

  /**
   * `normalize_db_type`: an excluded answer → ""; a table spelling → its
   * canonical product label; anything else is returned exactly as given.
   */
  function NormalizeDbType(dbType: string): (r: string)
    ensures DbKey(dbType) in DB_TYPE_EXCLUDED ==> r == ""
    ensures DbKey(dbType) !in DB_TYPE_EXCLUDED && DbKey(dbType) in DB_TYPE_TABLE ==>
              r == DB_TYPE_TABLE[DbKey(dbType)] && r in DB_CANONICAL
    ensures DbKey(dbType) !in DB_TYPE_EXCLUDED && DbKey(dbType) !in DB_TYPE_TABLE ==>
              r == dbType
    ensures r == "" <==> DbKey(dbType) in DB_TYPE_EXCLUDED || dbType == ""
  {
    var key := DbKey(dbType);
    DbTableValues(key);
    if key in DB_TYPE_EXCLUDED then ""
    else if key in DB_TYPE_TABLE then DB_TYPE_TABLE[key]
    else dbType
  }

  /** A canonical label whose lower-cased spelling is `low` is returned unchanged. */
  lemma DbLabelFixed(name: string, low: string)
    requires name != [] && Lower(name) == low && IsStripped(low)
    requires low !in DB_TYPE_EXCLUDED
    requires low in DB_TYPE_TABLE ==> DB_TYPE_TABLE[low] == name
    ensures NormalizeDbType(name) == name
  {
    StripFixesStripped(low);
  }

  lemma DbLabelsFixed1(name: string)
    requires name == "Oracle" || name == "MongoDB"
    ensures NormalizeDbType(name) == name
  {
    if name == "Oracle" {
      DbLabelFixed("Oracle", "oracle");
    } else {
      DbLabelFixed("MongoDB", "mongodb");
    }
  }

  lemma DbLabelsFixed2(name: string)
    requires name == "SQL Server" || name == "MySQL"
    ensures NormalizeDbType(name) == name
  {
    if name == "SQL Server" {
      DbLabelFixed("SQL Server", "sql server");
    } else {
      DbLabelFixed("MySQL", "mysql");
    }
  }

  lemma DbLabelsFixed3(name: string)
    requires name == "MariaDB" || name == "PostgreSQL"
    ensures NormalizeDbType(name) == name
  {
    if name == "MariaDB" {
      DbLabelFixed("MariaDB", "mariadb");
    } else {
      DbLabelFixed("PostgreSQL", "postgresql");
    }
  }

  lemma DbLabelsFixed4(name: string)
    requires name == "Sybase" || name == "SQLite"
    ensures NormalizeDbType(name) == name
  {
    if name == "Sybase" {
      DbLabelFixed("Sybase", "sybase");
    } else {
      DbLabelFixed("SQLite", "sqlite");
    }
  }

  /** Every canonical product label is a fixed point of the mapper. */
  lemma DbCanonicalAreFixed(name: string)
    requires name in DB_CANONICAL
    ensures NormalizeDbType(name) == name
  {
    if name == "Oracle" || name == "MongoDB" { DbLabelsFixed1(name); }
    else if name == "SQL Server" || name == "MySQL" { DbLabelsFixed2(name); }
    else if name == "MariaDB" || name == "PostgreSQL" { DbLabelsFixed3(name); }
    else { DbLabelsFixed4(name); }
  }

  /** `normalize_db_type` is idempotent. */
  lemma DbTypeIdempotent(dbType: string)
    ensures NormalizeDbType(NormalizeDbType(dbType)) == NormalizeDbType(dbType)
  {
    var r := NormalizeDbType(dbType);
    if r in DB_CANONICAL {
      DbCanonicalAreFixed(r);
    } else if r == "" {
      assert DbKey("") == "";
    }
  }
}

=== FILE: workbook.dfy ===
/**
 * A spreadsheet workbook as the importers and the exporter see it: named
 * worksheets in tab order, each a sequence of rows of cell values.
 */
module Workbook {
  import opened Wrappers
  import opened Cells

  /** One worksheet; `rows[k]` is worksheet row `k + 1`. */
  datatype Sheet = Sheet(name: string, rows: seq<Row>)

  /** The worksheets of a workbook in tab order (`wb.sheetnames` order). */
  type Book = seq<Sheet>

  /** `wb.sheetnames`. */
  function SheetNames(book: Book): (r: seq<string>)
    ensures |r| == |book|
    ensures forall i :: 0 <= i < |book| ==> r[i] == book[i].name
  {
    if book == [] then [] else [book[0].name] + SheetNames(book[1..])
  }

  /** `wb[name]`: the first worksheet with that title, if any. */
  function GetSheet(book: Book, name: string): (r: Option<Sheet>)
    ensures r.Some? <==> name in SheetNames(book)
    ensures r.Some? ==> r.value.name == name && r.value in book
    ensures r.Some? ==> exists i :: 0 <= i < |book| && book[i] == r.value
                          && forall j :: 0 <= j < i ==> book[j].name != name
  {
    if book == [] then None
    else if book[0].name == name then Some(book[0])
    else
      var rest := GetSheet(book[1..], name);
      if rest.Some? then
        ghost var i :| 0 <= i < |book[1..]| && book[1..][i] == rest.value
                       && forall j :: 0 <= j < i ==> book[1..][j].name != name;
        assert book[i + 1] == rest.value;
        rest
      else rest
  }

  /** The rows an importer loops over: every row below the header row. */
  function DataRows(sheet: Sheet): (r: seq<Row>)
    ensures |r| == if |sheet.rows| == 0 then 0 else |sheet.rows| - 1
    ensures forall k :: 0 <= k < |r| ==> r[k] == sheet.rows[k + 1]
  {
    if |sheet.rows| == 0 then [] else sheet.rows[1..]
  }

  /**
   * `ws.cell(row=r, column=c).value` with 1-based `r` and `c`: a cell the
   * sheet never stored reads as `None`.
   */
  function CellAt(sheet: Sheet, r: nat, c: nat): (v: Cell)
    ensures (r == 0 || r > |sheet.rows|) ==> v == Empty
    ensures 1 <= r <= |sheet.rows| && 1 <= c <= |sheet.rows[r - 1]| ==> v == sheet.rows[r - 1][c - 1]
  {
    if r == 0 || r > |sheet.rows| || c == 0 || c > |sheet.rows[r - 1]| then Empty
    else sheet.rows[r - 1][c - 1]
  }
}

=== FILE: wrappers.dfy ===
/** Failure-carrying wrappers shared by every module of the model. */
module Wrappers {

  /** A value that may be absent (Python `None`, a missing dictionary key). */
  datatype Option<+T> = None | Some(value: T) {
    function GetOr(default: T): T {
      match this
      case Some(v) => v
      case None => default
    }
  }

  /** Either a value or the text of the exception that replaced it. */
  datatype Result<+T> = Ok(value: T) | Raised(message: string)
}
